=== FILE: README.md ===
# ChatApp4 core, modelled in Dafny

ChatApp4 is a browser chat client. It keeps all of its data in a document store with four
collections:

- `users`: one profile document per account;
- `userchats`: per user, a roster of that user's pairwise conversations;
- `chats`: the pairwise conversations and their message arrays;
- `groups`: group conversations with parallel member arrays and a message log.

Pairwise messages are encrypted under a key derived from the two user ids. Group messages
are encrypted under a key derived from the group id and its creation time.

This project models the client's rules as pure Dafny functions over an immutable store:

- the stores (`chatStore.js`, `userStore.js`, `GroupChatStore.jsx`);
- the key derivation and cipher wrappers (`Encryption.jsx`);
- the handlers of the chat pane, the chat list, the add-user panel, the detail pane, the
  group pane, the group list panel, the login screen and the profile editor.

Every handler takes:

- the store (`Store.Db`);
- a fault plan (`faults`: the documents whose writes the store rejects);
- the values the outside world supplies: the clock `now`, generated ids, server
  timestamps, upload results, authentication answers and the cipher's random salt.

Every handler returns:

- the new store, and the log of the writes it attempted, each marked accepted or rejected;
- the handler's own state;
- any notification ("toast") it shows.

A write is rejected in three cases:

- its document reference has an empty id;
- it is an `updateDoc` of a missing document;
- its document is in the fault plan.

The cipher is symbolic. A key is the digest of its input string, and the digest is treated
as injective (an idealised MD5). A ciphertext remembers the plaintext, the key and the salt.
Decrypting under any other key yields nothing. With this model the round trip and the
key-agreement properties can be proved, but nothing about AES itself.

Files:

- `wrappers.dfy`, `text.dfy`, `arrays.dfy`, `timestamps.dfy`: `Option`, the JavaScript
  string and array operations the handlers use, and the store's array transforms.
- `encryption.dfy`, `records.dfy`, `store.dfy`: keys and ciphertexts, the document shapes,
  and the store with its write outcomes.
- One file per source component: `chat_store.dfy`, `user_store.dfy`, `group_store.dfy`,
  `chat.dfy`, `chat_list.dfy`, `add_user.dfy`, `detail.dfy`, `group_chat.dfy`,
  `group_info.dfy`, `login.dfy`, `profile.dfy`.

## Model

| member | source | states |
|---|---|---|
| Text.ErrorText | src/components/login/Login.jsx:33 | An error code yields a text exactly when it contains a '/'. The text has no '-' and no '/'. |
| Text.ErrorTextOfField | src/components/login/Login.jsx:73 | For a code `prefix/field`, the text is `field` with every '-' turned into a space. |
| Text.IncludesAt | src/components/list/chatList/ChatList.jsx:102-104 | `includes` finds a search string exactly when it occurs at some offset. |
| Text.EmptyIsIncluded | src/components/list/groupChat/GroupChatInfo.jsx:52-54 | The empty search string is found in every string. |
| Text.Take | src/components/chat/Chat.jsx:132 | `slice(0, n)`: a prefix of the text that is at most n long, and the whole text when it is no longer than n. |
| Timestamps.StampTextOfPresent | src/lib/Encryption.jsx:12-14 | A present creation time never coerces to the same text as a missing one. |
| Arrays.Without | src/components/detail/Detail1.jsx:56-58 | `arrayRemove`/`filter` removes every occurrence of the element and keeps every other element. |
| Arrays.WithoutConcat | src/components/list/groupChat/GroupChatInfo.jsx:95-96 | Removing from a concatenation removes from each part, so the kept elements stay in order. |
| Arrays.WithoutSingle | src/components/list/groupChat/GroupChatInfo.jsx:95-96 | A one-element array loses its element exactly when it is the one removed. |
| Arrays.WithoutCounts | src/components/list/groupChat/GroupChatInfo.jsx:95-96 | Every other element keeps all its copies, and every copy of the removed element goes. |
| Arrays.WithoutAppended | src/components/list/groupChat/GroupChatInfo.jsx:92-114 | Removing an element after appending it gives the original array with that element removed. |
| Arrays.Union | src/components/detail/Detail1.jsx:56-58 | `arrayUnion` returns the array unchanged when the element is present, and appends it at the end when it is absent. |
| Arrays.FindIndex | src/components/chat/Chat.jsx:131 | `findIndex` returns the first index satisfying the predicate, and `None` exactly when no element does. |
| Records.EntryIndex | src/components/list/chatList/ChatList.jsx:86 | Gives the first roster position holding the chat id, and `None` exactly when no entry holds it. |
| Store.Rejection | src/lib/GroupChatStore.jsx:167-175 | An empty id is rejected as invalid. An update of a missing document is rejected as not found. Any other write outside the fault plan is accepted. |
| Store.Code | src/components/list/chatList/addUser/AddUser.jsx:97 | No store error code contains a '/'. |
| Store.AllAccepted | src/components/list/chatList/addUser/AddUser.jsx:69-91 | When every write of a log is accepted, the accepted writes are all the writes, in order. |
| Encryption.GenerateKey1 | src/lib/Encryption.jsx:3-9 | `generateKey1(a, b)` equals `generateKey2(a, b)`: both hash the concatenation of their arguments in the order given. |
| Encryption.WrappersAgree | src/lib/Encryption.jsx:16-43 | The three encrypt wrappers are one cipher call, and so are the three decrypt wrappers. |
| Encryption.RoundTrip | src/lib/Encryption.jsx:16-43 | Decrypting under the encryption key gives back the plaintext, whatever the salt. |
| Encryption.OnlySealingKeyOpens | src/lib/Encryption.jsx:30-43 | Decrypting under any other key gives nothing. |
| Encryption.KeyDirection | src/lib/Encryption.jsx:3-9 | Swapping the two ids gives the same key only when the two concatenations coincide. |
| Encryption.KeyDirectionWitness | src/lib/Encryption.jsx:3-9 | The ids "a" and "b" give different keys in the two directions. |
| Encryption.GroupKeyDeterminedByIdAndTime | src/lib/Encryption.jsx:12-14 | Two group keys are equal exactly when the id-and-time texts are equal. |
| Encryption.GenerateKey2 | src/lib/Encryption.jsx:7-9 | The digest of the two ids concatenated in the order given. |
| Encryption.GenerateGroupKey | src/lib/Encryption.jsx:12-14 | The digest of the group id followed by the creation time's string coercion. |
| ChatStore.Release | src/lib/chatStore.js:16-17 | Releasing the stored handle takes it, and only it, out of the live set. |
| ChatStore.Subscribe | src/lib/chatStore.js:63-74 | A subscription adds one fresh handle to the live set. |
| ChatStore.GetMessages | src/lib/chatStore.js:59-75 | A falsy id does nothing. Otherwise a new live feed on the chat's messages is stored, and nothing is released. |
| ChatStore.ChangeChat | src/lib/chatStore.js:14-50 | The three branches, in order: blocked by the counterpart, blocking the counterpart, neither. Each sets the id and the flags. Only the last one subscribes. The previous handle is always released. |
| ChatStore.LiveAtMostOne | src/lib/chatStore.js:12-17 | Under the ledger invariant, at most one feed is live. |
| ChatStore.InitialTracked | src/lib/chatStore.js:6-12 | The initial store satisfies the ledger invariant. |
| ChatStore.ChangeChatSingleFlight | src/lib/chatStore.js:14-50 | `changeChat` preserves the ledger invariant, so any run of selections leaves at most one live feed. |
| ChatStore.GetMessagesAloneLeaks | src/lib/chatStore.js:59-75 | Calling `getMessages` directly while a feed is live leaves two live feeds. Only the second one is stored. |
| ChatStore.Deliver | src/lib/chatStore.js:63-69 | A snapshot replaces `messages` with the feed's documents, all unhighlighted. |
| ChatStore.FeedFailed | src/lib/chatStore.js:70-73 | A feed error empties `messages` and changes nothing else. |
| ChatStore.ChangeBlock | src/lib/chatStore.js:52-57 | Flips `isReceiverBlocked` and keeps every other field. |
| ChatStore.ChangeBlockTwice | src/lib/chatStore.js:52-57 | Flipping twice restores the state. |
| ChatStore.ToggleHighlight | src/lib/chatStore.js:78-84 | Only the highlight flag of the messages with that id changes. Order and length are kept. |
| ChatStore.ToggleHighlightInvolution | src/lib/chatStore.js:78-84 | Toggling the same id twice restores the messages. |
| ChatStore.CreateChatAsWritten | src/lib/chatStore.js:87-139 | As written: the one write is the `cur_recv` chat document, stored on acceptance and with nothing changed on rejection. Then the missing `arrayUnion` throws, so neither roster is written. |
| ChatStore.CreateChatAsWrittenOrphansChat | src/lib/chatStore.js:110-123 | As written, a created chat is listed in neither roster. |
| ChatStore.CreateChat | src/lib/chatStore.js:87-139 | Corrected: writes the chat, then the current user's roster, then the receiver's. The chain stops at the first rejection. A rejection keeps the earlier writes: the stored chat, and the current user's appended entry. No other roster changes. An existing chat is left alone. |
| ChatStore.CreateChatFansOut | src/lib/chatStore.js:99-135 | With both rosters present and no fault, the chat exists and the two rosters gain mirrored entries for it. |
| Chat.RecordSend | src/components/chat/Chat.jsx:129-137 | The first entry for the chat gets the 30-character preview, the seen flag and the time. Every other entry is kept. `None` when no entry lists the chat. |
| Chat.RecordSendFor | src/components/chat/Chat.jsx:126-139 | One roster's read-modify-write. A missing roster, or one without an entry for the chat, gets no write. Otherwise the roster is updated exactly once. If accepted, it then holds `RecordSend` of the old roster. If rejected, nothing changes. No other roster is touched. |
| Chat.HandleSend | src/components/chat/Chat.jsx:97-150 | Empty text does nothing. Any other text clears the composer, whatever fails. A failed upload or a falsy chat id writes nothing. Otherwise the chat document is updated first, and a rejected update ends the send. Only the selected chat and the two participants' rosters can change. |
| Chat.HandleSendAppends | src/components/chat/Chat.jsx:115-123 | An accepted send keeps the earlier messages and adds the encrypted message to the chat document's array. The `messages` subcollection that the chat store's feed reads is untouched. |
| Chat.HandleSendRosters | src/components/chat/Chat.jsx:125-139 | Each participant's roster is either unchanged or gets the preview, with only the sender's entry marked seen. A roster that lists the chat and whose write the store accepts always gets the preview. |
| Chat.Outgoing | src/components/chat/Chat.jsx:117-122 | The appended message names the sender and the time. Its text decrypts under `generateKey1(sender, receiver)` to the plaintext. It has an `img` exactly when the URL is truthy. |
| Chat.Rendered | src/components/chat/Chat.jsx:241-248 | A message is shown decrypted exactly when it was sealed under the key `ReaderKey` picks for this reader, and then shows its plaintext. |
| Chat.ReaderKey | src/components/chat/Chat.jsx:241-247 | Own messages use `generateKey1(me, other)`; the counterpart's use `generateKey2(other, me)`. |
| Chat.ComposeDisabled | src/components/chat/Chat.jsx:301-319 | The input and the send button are disabled when either block flag is set. |
| Chat.BothParticipantsRead | src/components/chat/Chat.jsx:240-248 | The key each reader chooses is the sender's key, so both participants decrypt the plaintext. |
| Chat.HandleImg | src/components/chat/Chat.jsx:76-94 | Only a JPEG, PNG or GIF replaces the picked image. Anything else leaves it unchanged. |
| Chat.HandleSendIgnoresBlockFlags | src/components/chat/Chat.jsx:97-123 | `handleSend` reads neither block flag. Only the disabled controls stop a blocked send. |
| Chat.SelectionGatesCompose | src/components/chat/Chat.jsx:301-319 | After a selection, the composer is disabled exactly when either side blocked the other. |
| Chat.InterleavedSendsLoseUpdate | src/components/chat/Chat.jsx:126-137 | Two sends that read the same roster and then write the whole array lose the first preview. |
| ChatList.Strip | src/components/list/chatList/ChatList.jsx:81-84 | Dropping the joined documents keeps each entry, in order. |
| ChatList.Hydrate | src/components/list/chatList/ChatList.jsx:33-38 | Each entry is paired with its counterpart's document, in order. |
| ChatList.StripHydrate | src/components/list/chatList/ChatList.jsx:81-84 | Stripping a hydrated roster gives the roster back. |
| ChatList.RosterSnapshot | src/components/list/chatList/ChatList.jsx:27-44 | The list is rebuilt from the stored roster. It stays as it was when the roster document is missing. |
| ChatList.UpdateUserStatus | src/components/list/chatList/ChatList.jsx:56-68 | A falsy id writes nothing. Otherwise there is one status update; a rejected one is swallowed. |
| ChatList.OnAuthChanged | src/components/list/chatList/ChatList.jsx:19-54 | Sign-in writes "online" once per mount. Sign-out writes nothing, because the user is already null. |
| ChatList.SignOutWritesNothing | src/components/list/chatList/ChatList.jsx:48-49 | The sign-out path never changes any user's status. |
| ChatList.MarkSeen | src/components/list/chatList/ChatList.jsx:86-91 | Only the first entry for the chat gets `isSeen` true. `None` when no entry lists the chat. |
| ChatList.HandleSelect | src/components/list/chatList/ChatList.jsx:70-100 | Lists the guards in order. The group flag is cleared before the auth guard. The displayed list, stripped and marked seen, replaces the roster. The chat opens only if that write is accepted. |
| ChatList.SelectMarksSeen | src/components/list/chatList/ChatList.jsx:81-96 | Selecting from a list built from the stored roster marks that chat seen and changes nothing else. |
| ChatList.SelectDropsUnlistedEntries | src/components/list/chatList/ChatList.jsx:81-94 | An entry stored after the list was built is lost by a successful selection. |
| ChatList.FilterChats | src/components/list/chatList/ChatList.jsx:102-104 | The matching items, in list order. |
| ChatList.FilterChatsAppend | src/components/list/chatList/ChatList.jsx:102-104 | Filtering a concatenation filters each part. |
| ChatList.FilterChatsIdempotent | src/components/list/chatList/ChatList.jsx:102-104 | Filtering twice with one input is filtering once. |
| ChatList.FilterChatsEmptyInput | src/components/list/chatList/ChatList.jsx:102-104 | An empty search keeps exactly the items whose counterpart has a username. |
| ChatList.DisplayName | src/components/list/chatList/ChatList.jsx:176 | Shows the placeholder when the counterpart blocked the current user, else the counterpart's username. |
| ChatList.DisplayAvatar | src/components/list/chatList/ChatList.jsx:171 | Shows the default avatar when the counterpart blocked the current user or has none. |
| ChatList.BlockedHidesIdentity | src/components/list/chatList/ChatList.jsx:171-176 | Two counterparts who blocked the current user show the same name and avatar. |
| ChatList.SelectClearsUnread | src/components/list/chatList/ChatList.jsx:168 | After a successful selection and a rebuild, the selected row is not highlighted as unread. |
| ChatList.Unread | src/components/list/chatList/ChatList.jsx:168 | A row is highlighted unless its entry's `isSeen` is true. |
| AddUser.CatchToast | src/components/list/chatList/addUser/AddUser.jsx:97 | An error without a code shows the generic text. A code gives a toast exactly when it contains a '/'. |
| AddUser.StoreErrorsAreSilent | src/components/list/chatList/addUser/AddUser.jsx:96-97 | A store rejection shows no toast. |
| AddUser.FirstNamed | src/components/list/chatList/addUser/AddUser.jsx:24-27 | Returns a user with that exact username such that no earlier user in query order has it. `None` exactly when nobody has it. |
| AddUser.HandleSearch | src/components/list/chatList/addUser/AddUser.jsx:18-34 | A hit replaces the shown user. A miss warns and keeps the previous result. |
| AddUser.Rejected | src/components/list/chatList/addUser/AddUser.jsx:96-97 | A rejected write shows no toast. |
| AddUser.AddWrites | src/components/list/chatList/addUser/AddUser.jsx:69-95 | Writes the chat, then the current user's roster, then the target's. The chain stops at the first rejection. A rejection keeps the earlier writes: the new chat document, and the current user's appended entry. No other roster changes. Success is shown exactly when all three are accepted. |
| AddUser.HandleAdd | src/components/list/chatList/addUser/AddUser.jsx:36-99 | The guards in source order: login, self, own roster, already added, blocked by target. Login, self, already added and blocked by target each refuse with their own message and no write. Without an own roster, an empty roster is created; then the generic error is shown if that write was accepted, and nothing if it was rejected. Past all the guards come the three writes of `AddWrites`. |
| AddUser.AddFansOut | src/components/list/chatList/addUser/AddUser.jsx:69-95 | With no fault, the chat exists, each roster gains one entry naming the other user, and the panel resets. |
| AddUser.AddTwiceWarns | src/components/list/chatList/addUser/AddUser.jsx:57-61 | Adding the same user again warns and writes nothing. |
| AddUser.AddToRosterlessTargetHalfDone | src/components/list/chatList/addUser/AddUser.jsx:84-97 | Without a target roster, the chat and one entry are written, silently. |
| AddUser.AddWithoutOwnRoster | src/components/list/chatList/addUser/AddUser.jsx:50-57 | Without an own roster, the first add only creates an empty roster and shows the generic error. |
| AddUser.AddIgnoresOwnBlockList | src/components/list/chatList/addUser/AddUser.jsx:64-67 | Only the target's block list matters. |
| Detail.HandleBlock | src/components/detail/Detail1.jsx:52-63 | Only the current user's `blocked` changes. If the counterpart is flagged, it is removed from the list; otherwise it is added if absent. All other blocked ids are kept. The flag flips exactly when the update is accepted. |
| Detail.HandleBlockKeepsConsistent | src/components/detail/Detail1.jsx:52-63 | The flag and the stored block list stay in agreement, whatever the outcome. |
| Detail.BlockThenUnblock | src/components/detail/Detail1.jsx:52-63 | Blocking, then unblocking, restores the flag and leaves the counterpart unblocked in the store. |
| Detail.BlockedByCounterpartIsInert | src/components/detail/Detail1.jsx:53 | When the counterpart blocked the current user, the block button does nothing. |
| Detail.ReopenForgetsBlock | src/components/detail/Detail1.jsx:52-61 | The user store's copy is not refreshed, so reopening the chat clears the flag that was just set. |
| Detail.ClearChatHistory | src/components/detail/Detail1.jsx:65-77 | Only the chat's `messages` field is deleted. The confirmation closes only on success. |
| Detail.SharedPhotos | src/components/detail/Detail1.jsx:40-41 | Gives exactly the truthy image URLs of the messages. |
| Detail.SharedPhotosAppend | src/components/detail/Detail1.jsx:40-41 | Appending a message appends its image, if any. |
| Detail.FetchPhotos | src/components/detail/Detail1.jsx:32-50 | Photos come from the stored chat. The previous list stays when the document is missing. |
| Detail.ClearRemovesPhotos | src/components/detail/Detail1.jsx:65-77 | After an accepted clear, the chat shows no photos. |
| Detail.BlockLabel | src/components/detail/Detail1.jsx:201-204 | The caption for each combination of the two flags. |
| GroupStore.ChangeGroupChat | src/lib/GroupChatStore.jsx:23-62 | Nothing changes for a falsy id, a missing group or missing members. Otherwise the view is opened. A truthy stored creator and avatar are kept; missing ones become 'Unknown' and './avatar.png'. Membership is decided by username. |
| GroupStore.OpenView | src/lib/GroupChatStore.jsx:43-57 | The opened view copies id, name, time and both arrays, takes the creator and avatar defaults, and reads with the key of the stored id and time. |
| GroupStore.ViewKey | src/components/chat/GroupChat.jsx:136-139 | The key a view decrypts with: the group key of its id (the text "undefined" when missing) and creation time. |
| GroupStore.Stored | src/lib/GroupChatStore.jsx:79-92 | The stored message takes the sender document's avatar and username with defaults, and the store clock. It keeps a truthy file and drops a falsy one. |
| GroupStore.AddMessage | src/lib/GroupChatStore.jsx:65-118 | Writes nothing without a sender id and name or a sender document. Otherwise the whole log plus the message is written. |
| GroupStore.AddMessageAppends | src/lib/GroupChatStore.jsx:94-101 | The log is append-only: earlier messages are kept and one is added at the end. |
| GroupStore.AddMessageOverwritesOtherView | src/lib/GroupChatStore.jsx:103-111 | The selected view takes another group's log. |
| GroupStore.UpdateMessages | src/lib/GroupChatStore.jsx:135-145 | Replaces the view's messages and nothing else. |
| GroupStore.OnGroupSnapshot | src/lib/GroupChatStore.jsx:121-133 | The feed delivers the stored log, or `[]` when it is missing. |
| GroupStore.FeedAgreesWithAddMessage | src/lib/GroupChatStore.jsx:99-128 | The next snapshot agrees with what `addMessage` stored locally. |
| GroupStore.Membership | src/lib/GroupChatStore.jsx:156-171 | A join appends the username and the id. A leave removes every occurrence of each. |
| GroupStore.HandleGroupMembershipAsWritten | src/lib/GroupChatStore.jsx:147-187 | As written: the last leave deletes the group, then updates it anyway. An accepted update stores the arrays `Membership` computes, and the view takes them. |
| GroupStore.LastLeaveAsWrittenFailsUpdate | src/lib/GroupChatStore.jsx:167-175 | That update is rejected as not found, and the local view still lists the member. |
| GroupStore.HandleGroupMembership | src/lib/GroupChatStore.jsx:147-187 | Corrected: the last leave only deletes the group, and the view then lists nobody. Any other change is one update that stores the arrays `Membership` computes, and the view takes them. A rejected write changes nothing. |
| GroupStore.LastLeaveDeletesGroup | src/lib/GroupChatStore.jsx:167-182 | The group is deleted and the view lists nobody. |
| GroupStore.MembershipAgreesUnlessEmptied | src/lib/GroupChatStore.jsx:160-175 | The two definitions agree except on the last leave. |
| GroupStore.JoinKeepsArraysParallel | src/lib/GroupChatStore.jsx:160-162 | A join keeps the two member arrays of equal length. |
| GroupStore.UpdateGroupAvatar | src/lib/GroupChatStore.jsx:190-211 | Only `groupAvatar` changes. On success the view takes it. |
| GroupStore.ViewKeyStable | src/components/chat/GroupChat.jsx:136-139 | Avatar, membership and message updates never change a view's key. |
| GroupChat.Outgoing | src/components/chat/GroupChat.jsx:55-66 | The message carries the text encrypted under the group key, the sender's id and username, and the file URL. |
| GroupChat.SendDisabled | src/components/chat/GroupChat.jsx:228 | The send button is disabled while sending or while the text is blank. |
| GroupChat.CanSend | src/components/chat/GroupChat.jsx:44 | A message is sent only with non-blank text, a current user and a selected group that has an id. |
| GroupChat.HandleSendMessageAsWritten | src/components/chat/GroupChat.jsx:43-78 | As written, a failed upload leaves `isSending` set. Otherwise the message goes to `addMessage` and the composer is cleared. |
| GroupChat.HandleSendMessage | src/components/chat/GroupChat.jsx:43-78 | Corrected: a failed upload keeps the text and clears `isSending`. Otherwise it is the same as the as-written send. |
| GroupChat.UploadFailureLocksComposer | src/components/chat/GroupChat.jsx:48-51 | As written, the send button stays disabled after a failed upload. Corrected, it is usable again. |
| GroupChat.NamelessSenderLosesMessage | src/components/chat/GroupChat.jsx:62-71 | A sender without a username writes nothing, yet the text is cleared. |
| GroupChat.DecryptMessage | src/components/chat/GroupChat.jsx:136-139 | Decrypts a message sealed under the view's key to its text, and nothing from a foreign string. |
| GroupChat.MembersReadWhatWasSent | src/components/chat/GroupChat.jsx:55-58 | Any view with the same id and creation time decrypts the stored message to the sent text. |
| GroupChat.OtherCreationTimeCannotRead | src/components/chat/GroupChat.jsx:136-139 | A view without the creation time cannot decrypt. |
| GroupChat.TimeAgo | src/components/chat/GroupChat.jsx:84-91 | Gives the fallback exactly for a missing or zero timestamp. |
| GroupChat.FormatDate | src/components/chat/GroupChat.jsx:93-99 | Gives the fallback unless `seconds` is non-zero; otherwise the date at seconds × 1000. |
| GroupChat.StoredMessagesHaveAge | src/lib/GroupChatStore.jsx:90 | A message stored under a non-zero clock renders with its age. |
| GroupInfo.HandleJoinLeaveGroup | src/components/list/groupChat/GroupChatInfo.jsx:82-122 | Join or leave is decided from the listed copy, and the arrays of the fetched document are edited. The last leave is one delete, and on acceptance the group is gone with the deleted notice. Any other leave removes the user from both arrays. A join appends to both. |
| GroupInfo.IsUserInGroup | src/components/list/groupChat/GroupChatInfo.jsx:78-80 | The listed group has members and the current username is one of them. |
| GroupInfo.JoinAppends | src/components/list/groupChat/GroupChatInfo.jsx:110-118 | A join grows each array by exactly one at the end. |
| GroupInfo.LeaveRemovesAll | src/components/list/groupChat/GroupChatInfo.jsx:93-109 | A leave removes the user entirely and keeps everyone else. |
| GroupInfo.JoinThenLeaveRestores | src/components/list/groupChat/GroupChatInfo.jsx:92-118 | A join, then a leave, restores a non-empty group the user was not in. |
| GroupInfo.StaleListDoubleJoins | src/components/list/groupChat/GroupChatInfo.jsx:92-114 | A stale list makes a second join list the user twice. |
| GroupInfo.HandleCreateGroup | src/components/list/groupChat/GroupChatInfo.jsx:61-76 | Creates the group with the input as its name, whatever the name, and clears the input on success. |
| GroupInfo.CreatorIsSoleMember | src/components/list/groupChat/GroupChatInfo.jsx:63-70 | The creator is the only member under both arrays and counts as in the group. |
| GroupInfo.FilterGroups | src/components/list/groupChat/GroupChatInfo.jsx:52-54 | Keeps exactly the groups whose truthy name contains the input, case-folded. |
| GroupInfo.FilterGroupsAppend | src/components/list/groupChat/GroupChatInfo.jsx:52-54 | Filtering a concatenation filters each part, so the shown groups keep the list's order. |
| GroupInfo.FilterGroupsSingle | src/components/list/groupChat/GroupChatInfo.jsx:52-54 | One group is shown exactly when its name matches. |
| GroupInfo.EmptyNamedGroupIsNeverListed | src/components/list/groupChat/GroupChatInfo.jsx:52-70 | A group created with an empty name is never listed. |
| GroupInfo.FilterGroupsEmptyInput | src/components/list/groupChat/GroupChatInfo.jsx:52-54 | An empty search shows every named group. |
| GroupInfo.HandleSearchInput | src/components/list/groupChat/GroupChatInfo.jsx:56-59 | Add mode is on exactly when the input is non-empty. |
| GroupInfo.CreateLeavesAddModeOn | src/components/list/groupChat/GroupChatInfo.jsx:56-73 | A create empties the input but leaves add mode on. |
| UserStore.FetchUserInfo | src/lib/userStore.js:11-35 | Loading ends on every path. The user is the document exactly when the uid is truthy, the read works and the document exists. |
| UserStore.MergeStatus | src/lib/userStore.js:21-26 | Only the status changes. A null user becomes a status-only record. |
| UserStore.OnStatusSnapshot | src/lib/userStore.js:20-27 | The listener merges the status and leaves `isLoading` alone. |
| UserStore.LastSnapshotWins | src/lib/userStore.js:20-27 | Two snapshots leave the second's status. |
| UserStore.UpdateStatus | src/lib/userStore.js:65-78 | A no-op without a user. An accepted write changes only the user document's `status`. The session takes the status only after the write is accepted. Other users are untouched. |
| UserStore.UpdateStatusKeepsSynced | src/lib/userStore.js:65-78 | The session and the stored document agree on status afterwards. |
| UserStore.OnAuthChanged | src/lib/userStore.js:38-62 | Sign-in loads the user and writes online with `lastSeen` cleared. Sign-out writes offline with `lastSeen` only if there is a user, and clears it only if that write is accepted. |
| UserStore.SignInEndsOnline | src/lib/userStore.js:39-48 | After sign-in and the next snapshot, the session is the user marked online. |
| UserStore.RejectedSignOutKeepsSession | src/lib/userStore.js:52-59 | A rejected offline write leaves the user signed in. |
| UserStore.SignOutRecordsLastSeen | src/lib/userStore.js:50-59 | An accepted sign-out records offline and the time. |
| Login.CodeToast | src/components/login/Login.jsx:33 | Gives a toast exactly when the code has a '/'. |
| Login.AuthCodeToast | src/components/login/Login.jsx:73 | "auth/x-y" shows "x y". |
| Login.StoreErrorsShowNothing | src/components/login/Login.jsx:72-73 | A store rejection shows nothing. |
| Login.HandleLogin | src/components/login/Login.jsx:25-37 | Loading ends false. Nothing is written. An error shows its code's text. |
| Login.NewUserRecord | src/components/login/Login.jsx:48-56 | A new account starts with a null avatar, the default bio, an empty block list and "online". |
| Login.HandleRegister | src/components/login/Login.jsx:39-77 | Success is shown exactly when the roster write ends the log accepted. The user record and an empty roster are then stored. |
| Login.RegisterBootstrapsRoster | src/components/login/Login.jsx:57-69 | Without faults, registration completes, and the avatar is set exactly when a file was chosen. |
| Login.RejectedRosterIsSilent | src/components/login/Login.jsx:67-73 | A rejected roster write leaves an account without a roster and no message. |
| Login.HandleGoogleLogin | src/components/login/Login.jsx:79-112 | The user document is written only if it is absent. No roster is ever written. |
| Login.GoogleKeepsRegisteredRecord | src/components/login/Login.jsx:99-104 | A Google sign-in after registration keeps the registered record. |
| Login.GoogleAccountHasNoRoster | src/components/login/Login.jsx:99-104 | A first Google sign-in leaves the user without a roster. |
| Profile.Load | src/components/profileUpdate/ProfileUpdate.jsx:48-64 | Each field is taken only from a truthy document field. A signed-out visitor is sent home. |
| Profile.Save | src/components/profileUpdate/ProfileUpdate.jsx:17-46 | Refused without any image. Otherwise writes username and bio, plus the avatar only with a new image. Moves on exactly when that write is accepted. |
| Profile.SaveWithoutImageKeepsAvatar | src/components/profileUpdate/ProfileUpdate.jsx:33-38 | Saving without a new image keeps the stored avatar. |
| Profile.LoadThenSaveIsIdentity | src/components/profileUpdate/ProfileUpdate.jsx:17-58 | Loading a complete profile and saving it unedited leaves the store unchanged. |
| Profile.NoAvatarBlocksSave | src/components/profileUpdate/ProfileUpdate.jsx:20-23 | A user without an avatar cannot save without picking one. |

## Left out

- Rendering and UI state: JSX, CSS, modals, the emoji picker, speech recognition, scrolling, the detail pane's background and language pickers, and the chat list's embedded agent script are not modelled.
- The document store is a set of immutable maps. Failures are deterministic: the fault plan, a missing document on update, or an empty id. Reads never fail, except the one in `fetchUserInfo`, which has an explicit parameter.
- Asynchrony: each handler runs to completion on one store snapshot. Interleavings appear only in the lemmas that name them.
- Time: one `now` per handler, so the several `Date.now()` calls of one handler read the same clock. Server timestamps are given as parameters.
- MD5 and AES are symbolic. Digests are idealised as injective. Salts are parameters.
- Text.Lower: `toLowerCase` is modelled for ASCII letters only.
- Text.IsSpace: `trim` is modelled for ASCII whitespace and the no-break space only; the other Unicode spaces and line separators are not removed.
- Text.Take: a string is a sequence of Unicode scalar values, while `slice` counts UTF-16 code units. For text with characters outside the Basic Multilingual Plane, such as emoji, the 30-character preview can therefore differ. JavaScript may cut a surrogate pair in half; the model keeps the whole character.
- Records.RosterEntry: has no `status` and `lastSeen` fields. `createChat` writes them into the roster entries, but no modelled reader uses them.
- ChatList.UpdateUserStatus: does not model the `lastUpdated` date it writes, because no reader uses it.
- The wording of a thrown error's `message`: a `Reported` toast keeps only the fixed prefix.
- GroupChat.TimeAgo: a timestamp is an integer, so the `NaN` case of `isNaN` cannot arise.
- GroupStore.ViewKey: does not distinguish a `null` from an `undefined` creation time; both count as missing.
- The group store's `fetchCurrentUser` and `setInGroupChat` plumbing, and the group list's `handleSelectGroup`: the model passes the current user and the group flag as state.
- The group pane's `handleUpdateGroupAvatar` and `handleFileChange`, and the add-user panel's mount-time toast, are UI wrappers around modelled calls.
- `src/components/list/groupChat/addChatGroups/AddChatGroup.jsx`, `addGroupChat1.jsx`, `Userinfo.jsx` and `PrivacyHelpSection.jsx` are not part of this model.
- `upload.js` is not part of this model: an upload is a parameter giving a URL or an error code.
- The Google path's preliminary `signOut` is not modelled. It triggers the authentication listeners, which are modelled separately.

## Findings

| source | as written | input that shows it | evidently intended | confidence | as-written member | corrected member |
|---|---|---|---|---|---|---|
| src/lib/chatStore.js:113-135 | `arrayUnion` is used without being imported, so after the chat document is created the roster updates throw a ReferenceError, which is caught and logged | any `createChat(receiverId)` for a new pair, with both rosters present | both rosters list the new chat | not executed | ChatStore.CreateChatAsWrittenOrphansChat | ChatStore.CreateChatFansOut |
| src/lib/GroupChatStore.jsx:167-175 | when the last member leaves, the group is deleted and then updated, and that update fails as not found | the sole member of a group leaves | the group is deleted and the local view shows no members | not executed | GroupStore.LastLeaveAsWrittenFailsUpdate | GroupStore.LastLeaveDeletesGroup |
| src/components/chat/GroupChat.jsx:45-51 | the file upload runs before the `try`, so a failed upload skips the `finally` and `isSending` stays true | send a non-blank message with a file whose upload is rejected | `isSending` ends false and the text is kept for a retry | not executed | GroupChat.UploadFailureLocksComposer | GroupChat.HandleSendMessage |

=== FILE: add_user.dfy ===
/** The add-user panel: searching a user by exact username, and adding the found user as a
    conversation partner (a new chat document and an entry in each of the two rosters). */
module AddUser {
  import opened Wrappers
  import opened Text
  import opened Timestamps
  import opened Records
  import opened Store
  import Arrays

  /** The panel's state: the search result on show, and the parent's `addMode`. */
  datatype AddState = AddState(found: Option<User>, addMode: bool)

  datatype AddResult = AddResult(state: AddState, effect: Effect, toast: Option<Toast>)

  const LoginRequired := "You need to be logged in to add a user."
  const SelfAdd := "You cannot add yourself."
  const AlreadyAdded := "User already added"
  const BlockedByTarget := "You are blocked by this user."
  const Added := "User added successfully"
  const NoUserFound := "No user found with this username"
  const Unexpected := "An error occurred"

  /** The toast of the catch block of `handleAdd` for an error with the given `code`: the
      generic text for an error without a code; for a store error, the part after the '/'
      with dashes as spaces, and nothing when the code has no '/' (the lookup throws
      inside the catch block). */
  function CatchToast(code: Option<string>): (r: Option<Toast>)
    ensures code.None? ==> r == Some(Failure(Unexpected))
    ensures code.Some? ==> (r.Some? <==> '/' in code.value)
  {
    match code
    case None => Some(Failure(Unexpected))
    case Some(c) =>
      match ErrorText(Some(c))
      case None => None
      case Some(t) => Some(Failure(t))
  }

  /** A store rejection shows no toast. */
  lemma StoreErrorsAreSilent(e: StoreError)
    ensures CatchToast(Some(Code(e))) == None
  {
  }

  /** No user among the first `n` results of `order` has the username `username`. */
  predicate NoneNamedBefore(db: Db, order: seq<Id>, username: string, n: nat)
    requires n <= |order|
  {
    forall j :: 0 <= j < n && order[j] in db.users ==> db.users[order[j]].username != Some(username)
  }

  /** The first user, in the query's result order `order`, whose username is `username`
      (`docs[0]` of the query). */
  function FirstNamed(db: Db, order: seq<Id>, username: string): (r: Option<User>)
    ensures r.Some? ==> r.value.username == Some(username)
    ensures r.Some? ==> exists i :: 0 <= i < |order| && order[i] in db.users && db.users[order[i]] == r.value
                                    && NoneNamedBefore(db, order, username, i)
    ensures r.None? <==> NoneNamedBefore(db, order, username, |order|)
    decreases |order|
  {
    if |order| == 0 then None
    else if order[0] in db.users && db.users[order[0]].username == Some(username) then
      assert NoneNamedBefore(db, order, username, 0);
      Some(db.users[order[0]])
    else
      var rest := FirstNamed(db, order[1..], username);
      assert forall i :: 1 <= i < |order| ==> order[i] == order[1..][i - 1];
      assert rest.None? ==> NoneNamedBefore(db, order, username, |order|) by {
        if rest.None? {
          assert NoneNamedBefore(db, order[1..], username, |order| - 1);
        }
      }
      assert rest.Some? ==> exists i :: 0 <= i < |order| && order[i] in db.users && db.users[order[i]] == rest.value
                                        && NoneNamedBefore(db, order, username, i) by {
        if rest.Some? {
          var k :| 0 <= k < |order[1..]| && order[1..][k] in db.users && db.users[order[1..][k]] == rest.value
                   && NoneNamedBefore(db, order[1..], username, k);
          assert order[k + 1] == order[1..][k];
          assert NoneNamedBefore(db, order, username, k + 1);
        }
      }
      assert rest.Some? ==> !NoneNamedBefore(db, order, username, |order|) by {
        if rest.Some? {
          var k :| 0 <= k < |order| && order[k] in db.users && db.users[order[k]] == rest.value;
          assert order[k] in db.users && db.users[order[k]].username == Some(username);
        }
      }
      rest
  }

  /** `handleSearch` for the entered `username`: the found user is shown; when nobody has
      that name a warning is shown and the previous result stays on show. */
  function HandleSearch(st: AddState, db: Db, order: seq<Id>, username: string): (r: (AddState, Option<Toast>))
    ensures r.0.addMode == st.addMode
    ensures r.0.found.Some? ==> r.0.found.value.username == Some(username) || r.0.found == st.found
    ensures FirstNamed(db, order, username).None? ==> r == (st, Some(Warn(NoUserFound)))
    ensures FirstNamed(db, order, username).Some? ==> r.1.None? && r.0.found == FirstNamed(db, order, username)
  {
    match FirstNamed(db, order, username)
    case None => (st, Some(Warn(NoUserFound)))
    case Some(u) => (st.(found := Some(u)), None)
  }

  /** The roster entry `handleAdd` writes for a chat with `counterpart`. */
  function AddedEntry(chatId: Id, counterpart: Id, now: int): RosterEntry {
    RosterEntry(chatId, "", counterpart, now, None, None)
  }

  /** The chat document `handleAdd` creates. */
  function NewChat(createdAt: Timestamp): ChatDoc {
    ChatDoc(Opened(createdAt), Some([]))
  }

  /** The roster already lists a conversation with `target`. */
  predicate Lists(roster: Roster, target: Id) {
    exists i :: 0 <= i < |roster| && roster[i].receiverId == target
  }

  /** The toast for a write the store rejected: none, as no store code has a '/'. */
  function Rejected(db: Db, faults: set<DocRef>, w: Write): (r: Option<Toast>)
    requires Rejection(db, faults, w).Some?
    ensures r.None?
  {
    CatchToast(Some(Code(Rejection(db, faults, w).value)))
  }

  /** The writes of a successful add, from after the guards: the chat document, then the
      current user's roster, then the target's, each only after the previous one succeeded. */
  function AddWrites(st: AddState, db: Db, faults: set<DocRef>, cur: Id, target: Id, newId: Id,
                     createdAt: Timestamp, now: int): (r: AddResult)
    requires cur in db.userchats
    ensures r.effect.db.users == db.users && r.effect.db.groups == db.groups && r.effect.db.feeds == db.feeds
    ensures 1 <= |r.effect.log| <= 3
    ensures forall i :: 0 <= i < |r.effect.log| - 1 ==> r.effect.log[i].accepted
    ensures r.toast.Some? <==> |r.effect.log| == 3 && r.effect.log[2].accepted
    ensures r.toast.Some? ==> r.toast == Some(Success(Added)) && r.state == AddState(None, false)
    ensures r.toast.None? ==> r.state == st
    // The writes, in order; the chain stops at the first rejection.
    ensures r.effect.log[0].write == SetDoc(ChatRef(newId))
    ensures |r.effect.log| >= 2 ==> r.effect.log[1].write == UpdateDoc(RosterRef(cur))
    ensures |r.effect.log| == 3 ==> r.effect.log[2].write == UpdateDoc(RosterRef(target))
    ensures |r.effect.log| < 3 ==> !r.effect.log[|r.effect.log| - 1].accepted
    // A rejection keeps every write accepted before it.
    ensures !r.effect.log[0].accepted ==> r == AddResult(st, Effect(db, r.effect.log), None)
    ensures r.effect.log[0].accepted ==> r.effect.db.chats == db.chats[newId := NewChat(createdAt)]
    ensures r.effect.db.userchats.Keys == db.userchats.Keys
    ensures |r.effect.log| == 2 ==> r.effect.db.userchats == db.userchats
    ensures |r.effect.log| == 3 ==>
              r.effect.db.userchats[cur] == Arrays.Union(db.userchats[cur], AddedEntry(newId, target, now))
    ensures |r.effect.log| == 3 && !r.effect.log[2].accepted ==>
              r.effect.db.userchats == db.userchats[cur := Arrays.Union(db.userchats[cur], AddedEntry(newId, target, now))]
    ensures |r.effect.log| == 3 && r.effect.log[2].accepted ==>
              && target in db.userchats
              && r.effect.db.userchats[target] == Arrays.Union(db.userchats[target], AddedEntry(newId, cur, now))
    ensures forall id :: id in db.userchats && id != cur && id != target ==> r.effect.db.userchats[id] == db.userchats[id]
  {
    var a1 := Try(db, faults, SetDoc(ChatRef(newId)));
    if !a1.accepted then AddResult(st, Effect(db, [a1]), Rejected(db, faults, a1.write))
    else
      var db1 := db.(chats := db.chats[newId := NewChat(createdAt)]);
      var a2 := Try(db1, faults, UpdateDoc(RosterRef(cur)));
      if !a2.accepted then AddResult(st, Effect(db1, [a1, a2]), Rejected(db1, faults, a2.write))
      else
        var db2 := db1.(userchats := db1.userchats[cur := Arrays.Union(db1.userchats[cur], AddedEntry(newId, target, now))]);
        var a3 := Try(db2, faults, UpdateDoc(RosterRef(target)));
        if !a3.accepted then AddResult(st, Effect(db2, [a1, a2, a3]), Rejected(db2, faults, a3.write))
        else
          var db3 := db2.(userchats := db2.userchats[target := Arrays.Union(db2.userchats[target], AddedEntry(newId, cur, now))]);
          AddResult(AddState(None, false), Effect(db3, [a1, a2, a3]), Some(Success(Added)))
  }

  /** `handleAdd()`. `newId` is the id the store generates for the new chat, `createdAt`
      the server timestamp, `now` the client clock. */
  function HandleAdd(st: AddState, currentUser: Option<User>, db: Db, faults: set<DocRef>, newId: Id,
                     createdAt: Timestamp, now: int): (r: AddResult)
    ensures st.found.None? || currentUser.None? ==> r == AddResult(st, Effect(db, []), Some(Failure(LoginRequired)))
    ensures st.found.Some? && currentUser.Some? && st.found.value.id == currentUser.value.id ==>
              r == AddResult(st, Effect(db, []), Some(Warn(SelfAdd)))
    ensures st.found.Some? && currentUser.Some? && st.found.value.id != currentUser.value.id
            && currentUser.value.id != "" && currentUser.value.id in db.userchats ==>
              var cur := currentUser.value;
              var target := st.found.value;
              && (Lists(db.userchats[cur.id], target.id) ==> r == AddResult(st, Effect(db, []), Some(Warn(AlreadyAdded))))
              && (!Lists(db.userchats[cur.id], target.id) && cur.id in target.blocked ==>
                    r == AddResult(st, Effect(db, []), Some(Warn(BlockedByTarget))))
              && (!Lists(db.userchats[cur.id], target.id) && cur.id !in target.blocked ==>
                    r == AddWrites(st, db, faults, cur.id, target.id, newId, createdAt, now))
    ensures st.found.Some? && currentUser.Some? && st.found.value.id != currentUser.value.id
            && currentUser.value.id != "" && currentUser.value.id !in db.userchats ==>
              var cur := currentUser.value.id;
              && r.effect.log == [Try(db, faults, SetDoc(RosterRef(cur)))]
              && (r.effect.log[0].accepted ==>
                    r == AddResult(st, Effect(db.(userchats := db.userchats[cur := []]), r.effect.log), Some(Failure(Unexpected))))
              && (!r.effect.log[0].accepted ==> r == AddResult(st, Effect(db, r.effect.log), None))
    ensures r.effect.db.users == db.users && r.effect.db.groups == db.groups && r.effect.db.feeds == db.feeds
    ensures r.state == st || r.state == AddState(None, false)
    ensures r.state != st ==> r.toast == Some(Success(Added))
    ensures r.toast == Some(Success(Added)) ==>
              && st.found.Some? && currentUser.Some?
              && |r.effect.log| == 3 && forall i :: 0 <= i < 3 ==> r.effect.log[i].accepted
    ensures forall id :: id in db.userchats && (currentUser.None? || id != currentUser.value.id)
                         && (st.found.None? || id != st.found.value.id) ==>
              id in r.effect.db.userchats && r.effect.db.userchats[id] == db.userchats[id]
  {
    if st.found.None? || currentUser.None? then AddResult(st, Effect(db, []), Some(Failure(LoginRequired)))
    else
      var target := st.found.value;
      var cur := currentUser.value;
      if target.id == cur.id then AddResult(st, Effect(db, []), Some(Warn(SelfAdd)))
      else if cur.id == "" then AddResult(st, Effect(db, []), None)
      else if cur.id !in db.userchats then
        var a := Try(db, faults, SetDoc(RosterRef(cur.id)));
        if !a.accepted then AddResult(st, Effect(db, [a]), Rejected(db, faults, a.write))
        else AddResult(st, Effect(db.(userchats := db.userchats[cur.id := []]), [a]), CatchToast(None))
      else if Lists(db.userchats[cur.id], target.id) then AddResult(st, Effect(db, []), Some(Warn(AlreadyAdded)))
      else if cur.id in target.blocked then AddResult(st, Effect(db, []), Some(Warn(BlockedByTarget)))
      else AddWrites(st, db, faults, cur.id, target.id, newId, createdAt, now)
  }

  /** With both rosters present and no write rejected, adding creates the chat and gives
      each roster one entry naming the other user, both for the new chat. */
  lemma AddFansOut(st: AddState, cur: User, db: Db, faults: set<DocRef>, newId: Id, createdAt: Timestamp, now: int)
    requires st.found.Some? && st.found.value.id != cur.id && cur.id != "" && st.found.value.id != ""
    requires cur.id in db.userchats && st.found.value.id in db.userchats
    requires !Lists(db.userchats[cur.id], st.found.value.id) && cur.id !in st.found.value.blocked
    requires newId != "" && ChatRef(newId) !in faults
    requires RosterRef(cur.id) !in faults && RosterRef(st.found.value.id) !in faults
    ensures var r := HandleAdd(st, Some(cur), db, faults, newId, createdAt, now);
            var target := st.found.value.id;
            && r.toast == Some(Success(Added)) && r.state == AddState(None, false)
            && r.effect.db.chats == db.chats[newId := NewChat(createdAt)]
            && r.effect.db.userchats == db.userchats[cur.id := Arrays.Union(db.userchats[cur.id], AddedEntry(newId, target, now))]
                                                    [target := Arrays.Union(db.userchats[target], AddedEntry(newId, cur.id, now))]
            && Lists(r.effect.db.userchats[cur.id], target) && Lists(r.effect.db.userchats[target], cur.id)
  {
    var target := st.found.value.id;
    var r := HandleAdd(st, Some(cur), db, faults, newId, createdAt, now);
    var mine := Arrays.Union(db.userchats[cur.id], AddedEntry(newId, target, now));
    var theirs := Arrays.Union(db.userchats[target], AddedEntry(newId, cur.id, now));
    var i :| 0 <= i < |mine| && mine[i] == AddedEntry(newId, target, now);
    var j :| 0 <= j < |theirs| && theirs[j] == AddedEntry(newId, cur.id, now);
    assert mine[i].receiverId == target;
    assert theirs[j].receiverId == cur.id;
  }

  /** Adding the same user again, once the first add went through, is refused with a
      warning and writes nothing. */
  lemma AddTwiceWarns(st: AddState, cur: User, db: Db, faults: set<DocRef>, newId: Id, newId2: Id,
                      createdAt: Timestamp, now: int, now2: int)
    requires st.found.Some?
    requires HandleAdd(st, Some(cur), db, faults, newId, createdAt, now).toast == Some(Success(Added))
    ensures var db2 := HandleAdd(st, Some(cur), db, faults, newId, createdAt, now).effect.db;
            HandleAdd(st, Some(cur), db2, faults, newId2, createdAt, now2) == AddResult(st, Effect(db2, []), Some(Warn(AlreadyAdded)))
  {
    var target := st.found.value.id;
    var db2 := HandleAdd(st, Some(cur), db, faults, newId, createdAt, now).effect.db;
    var mine := Arrays.Union(db.userchats[cur.id], AddedEntry(newId, target, now));
    assert db2.userchats[cur.id] == mine by {
      assert cur.id != target;
    }
    var i :| 0 <= i < |mine| && mine[i] == AddedEntry(newId, target, now);
    assert mine[i].receiverId == target;
  }

  /** When the target has no roster document, the chat and the current user's entry are
      written, the target's update fails, no toast is shown and the result stays on show. */
  lemma AddToRosterlessTargetHalfDone(st: AddState, cur: User, db: Db, faults: set<DocRef>, newId: Id,
                                      createdAt: Timestamp, now: int)
    requires st.found.Some? && st.found.value.id != cur.id && cur.id != "" && st.found.value.id != ""
    requires cur.id in db.userchats && st.found.value.id !in db.userchats
    requires !Lists(db.userchats[cur.id], st.found.value.id) && cur.id !in st.found.value.blocked
    requires newId != "" && ChatRef(newId) !in faults && RosterRef(cur.id) !in faults
    ensures var r := HandleAdd(st, Some(cur), db, faults, newId, createdAt, now);
            && r.toast.None? && r.state == st
            && newId in r.effect.db.chats
            && r.effect.db.userchats == db.userchats[cur.id := Arrays.Union(db.userchats[cur.id], AddedEntry(newId, st.found.value.id, now))]
            && st.found.value.id !in r.effect.db.userchats
            && |r.effect.log| == 3 && !r.effect.log[2].accepted
  {
  }

  /** Without a roster document of their own, the current user's first add only creates an
      empty roster and shows the generic error; the next add gets past that guard. */
  lemma AddWithoutOwnRoster(st: AddState, cur: User, db: Db, faults: set<DocRef>, newId: Id,
                            createdAt: Timestamp, now: int)
    requires st.found.Some? && st.found.value.id != cur.id && cur.id != ""
    requires cur.id !in db.userchats && RosterRef(cur.id) !in faults
    ensures var r := HandleAdd(st, Some(cur), db, faults, newId, createdAt, now);
            && r.toast == Some(Failure(Unexpected)) && r.state == st
            && r.effect.db == db.(userchats := db.userchats[cur.id := []])
            && r.effect.log == [Attempt(SetDoc(RosterRef(cur.id)), true)]
            && (cur.id !in st.found.value.blocked ==>
                  HandleAdd(st, Some(cur), r.effect.db, faults, newId, createdAt, now).effect.log[0].write == SetDoc(ChatRef(newId)))
  {
    var db1 := db.(userchats := db.userchats[cur.id := []]);
    assert !Lists(db1.userchats[cur.id], st.found.value.id);
  }

  /** The current user's own block list plays no part in adding: only the target's does. */
  lemma AddIgnoresOwnBlockList(st: AddState, cur: User, blocked: seq<Id>, db: Db, faults: set<DocRef>,
                               newId: Id, createdAt: Timestamp, now: int)
    ensures HandleAdd(st, Some(cur), db, faults, newId, createdAt, now)
         == HandleAdd(st, Some(cur.(blocked := blocked)), db, faults, newId, createdAt, now)
  {
  }
}

=== FILE: arrays.dfy ===
/** JavaScript array operations and the document store's array transforms, over `seq`.
    `arrayUnion` and `arrayRemove` follow the store's documented semantics, assumed here:
    union appends an element only if it is absent, remove deletes every occurrence. */
module Arrays {
  import opened Wrappers

  /** `s.filter(v => v !== x)`, which is also the store's `arrayRemove(x)`. */
  function Without<T(==,!new)>(s: seq<T>, x: T): (r: seq<T>)
    ensures x !in r
    ensures forall y :: y in r <==> y in s && y != x
    ensures |r| <= |s|
    ensures x !in s ==> r == s
  {
    if |s| == 0 then []
    else if s[0] == x then Without(s[1..], x)
    else [s[0]] + Without(s[1..], x)
  }

  /** Removing an element that occurs shortens the array. */
  lemma {:induction false} WithoutShrinks<T(!new)>(s: seq<T>, x: T)
    requires x in s
    ensures |Without(s, x)| < |s|
  {
    if s[0] != x {
      WithoutShrinks(s[1..], x);
    }
  }

  /** Removing from a concatenation removes from each part: with the one-element cases
      below, this pins `Without` to `filter`, which keeps every other element, its copies
      and their order. */
  lemma {:induction false} WithoutConcat<T(!new)>(a: seq<T>, b: seq<T>, x: T)
    ensures Without(a + b, x) == Without(a, x) + Without(b, x)
    decreases |a|
  {
    if |a| == 0 {
      assert a + b == b;
    } else {
      assert (a + b)[0] == a[0];
      assert (a + b)[1..] == a[1..] + b;
      WithoutConcat(a[1..], b, x);
    }
  }

  /** On one element, `Without` drops exactly `x` and keeps anything else. */
  lemma WithoutSingle<T(!new)>(y: T, x: T)
    ensures Without([y], x) == (if y == x then [] else [y])
  {
    assert [y][1..] == [];
  }

  /** `filter` keeps every copy of every other element and drops every copy of `x`. */
  lemma {:induction false} WithoutCounts<T(!new)>(s: seq<T>, x: T)
    ensures multiset(Without(s, x)) == multiset(s)[x := 0]
    decreases |s|
  {
    if |s| == 0 {
    } else {
      assert s == [s[0]] + s[1..];
      WithoutCounts(s[1..], x);
      if s[0] == x {
        assert multiset(s) == multiset{s[0]} + multiset(s[1..]);
      } else {
        assert multiset(s) == multiset{s[0]} + multiset(s[1..]);
        assert multiset(Without(s, x)) == multiset{s[0]} + multiset(Without(s[1..], x));
      }
    }
  }

  /** Removing `x` after appending it is removing it from the original array. */
  lemma {:induction false} WithoutAppended<T(!new)>(s: seq<T>, x: T)
    ensures Without(s + [x], x) == Without(s, x)
    decreases |s|
  {
    if |s| == 0 {
      assert [x][1..] == [];
    } else {
      assert (s + [x])[0] == s[0];
      assert (s + [x])[1..] == s[1..] + [x];
      WithoutAppended(s[1..], x);
    }
  }

  /** The store's `arrayUnion(x)` on a present array. */
  function Union<T(==,!new)>(s: seq<T>, x: T): (r: seq<T>)
    ensures x in r
    ensures forall y :: y in r <==> y in s || y == x
    ensures |s| <= |r| <= |s| + 1
    ensures r[..|s|] == s
    ensures x in s ==> r == s
    ensures x !in s ==> r == s + [x]
  {
    if x in s then s else s + [x]
  }

  /** The store's `arrayUnion(x)` on a field that may be missing: a missing field becomes `[x]`. */
  function UnionField<T(==,!new)>(s: Option<seq<T>>, x: T): (r: seq<T>)
    ensures x in r
    ensures s.None? ==> r == [x]
    ensures s.Some? ==> |s.value| <= |r| && r[..|s.value|] == s.value
    ensures s.Some? && x in s.value ==> r == s.value
    ensures s.Some? && x !in s.value ==> r == s.value + [x]
  {
    Union(s.GetOr([]), x)
  }

  /** `s.findIndex(p)`, with `None` for JavaScript's `-1`. */
  function FindIndex<T>(s: seq<T>, p: T -> bool): (r: Option<nat>)
    ensures r.Some? ==> r.value < |s| && p(s[r.value])
    ensures r.Some? ==> forall j :: 0 <= j < r.value ==> !p(s[j])
    ensures r.None? <==> forall j :: 0 <= j < |s| ==> !p(s[j])
  {
    if |s| == 0 then None
    else if p(s[0]) then Some(0)
    else match FindIndex(s[1..], p)
      case None => None
      case Some(i) => Some(i + 1)
  }
}

=== FILE: chat.dfy ===
/** The pairwise conversation pane: sending a message (encrypt, append to the chat
    document, update both rosters), choosing the key that decrypts each message, and the
    image picker's type whitelist. */
module Chat {
  import opened Wrappers
  import opened Text
  import opened Records
  import opened Store
  import opened Encryption
  import Arrays
  import ChatStore

  /** The picked image: the file and its local preview URL. */
  datatype ImagePick = ImagePick(file: Option<FileRef>, url: string)

  /** The composer's component state. */
  datatype Composer = Composer(text: string, img: ImagePick)

  const NoImage := ImagePick(None, "")

  /** The roster preview keeps this many characters of the plaintext. */
  const PreviewLength := 30

  /** The read-modify-write one participant's roster goes through on a send: the first entry
      for `chatId` gets the preview, the seen flag and the time. `None` when no entry matches
      (the source then indexes `chats[-1]` and throws before writing). */
  function RecordSend(roster: Roster, chatId: Id, preview: string, seen: bool, now: int): (r: Option<Roster>)
    ensures r.None? <==> EntryIndex(roster, chatId).None?
    ensures r.Some? ==> |r.value| == |roster|
    ensures r.Some? ==> var i := EntryIndex(roster, chatId).value;
              && r.value[i] == roster[i].(lastMessage := preview, isSeen := Some(seen), updatedAt := now)
              && forall j :: 0 <= j < |roster| && j != i ==> r.value[j] == roster[j]
  {
    match EntryIndex(roster, chatId)
    case None => None
    case Some(i) => Some(roster[i := roster[i].(lastMessage := preview, isSeen := Some(seen), updatedAt := now)])
  }

  /** One iteration of the roster loop of `handleSend`, for the roster of `owner`: no write
      when the roster document is absent or lists no entry for the chat; otherwise the whole
      updated array is written back. */
  function RecordSendFor(db: Db, faults: set<DocRef>, owner: Id, chatId: Id, text: string, senderId: Id, now: int): (r: Effect)
    ensures r.db.users == db.users && r.db.chats == db.chats && r.db.groups == db.groups && r.db.feeds == db.feeds
    ensures forall id :: id != owner ==> (id in r.db.userchats <==> id in db.userchats)
    ensures forall id :: id in db.userchats && id != owner ==> r.db.userchats[id] == db.userchats[id]
    ensures owner !in db.userchats ==> r == Effect(db, [])
    ensures owner in db.userchats && EntryIndex(db.userchats[owner], chatId).None? ==> r == Effect(db, [])
    ensures owner in db.userchats && EntryIndex(db.userchats[owner], chatId).Some? ==>
              && |r.log| == 1 && r.log[0] == Try(db, faults, UpdateDoc(RosterRef(owner)))
              && (r.log[0].accepted ==>
                    && owner in r.db.userchats
                    && Some(r.db.userchats[owner]) == RecordSend(db.userchats[owner], chatId, Take(text, PreviewLength), owner == senderId, now))
              && (!r.log[0].accepted ==> r.db == db)
    ensures |r.log| <= 1
  {
    if owner !in db.userchats then Effect(db, [])
    else match RecordSend(db.userchats[owner], chatId, Take(text, PreviewLength), owner == senderId, now)
      case None => Effect(db, [])
      case Some(updated) =>
        var a := Try(db, faults, UpdateDoc(RosterRef(owner)));
        if a.accepted then Effect(db.(userchats := db.userchats[owner := updated]), [a])
        else Effect(db, [a])
  }

  /** The message `handleSend` appends: sender, text encrypted under
      `generateKey1(sender, receiver)`, the send time, and an `img` only for a truthy URL. */
  function Outgoing(text: string, senderId: Id, receiverId: Id, salt: nat, now: int, imgUrl: Option<string>): (m: Message)
    ensures m.senderId == senderId && m.createdAt == now
    ensures DecryptWithKey1(m.text, GenerateKey1(senderId, receiverId)) == Some(text)
    ensures Truthy(imgUrl) ==> m.img == imgUrl
    ensures !Truthy(imgUrl) ==> m.img.None?
  {
    Message(senderId, EncryptWithKey1(text, GenerateKey1(senderId, receiverId), salt), now, if Truthy(imgUrl) then imgUrl else None)
  }

  datatype SendResult = SendResult(composer: Composer, effect: Effect)

  /** `handleSend()`. The counterpart is the selected `user` (the pane shows no composer
      without one) and the current user is always signed in here. `upload` is what the blob
      store returns for the picked file, `salt` the cipher's random salt, `now` the clock. */
  function HandleSend(c: Composer, chat: ChatStore.ChatState, currentUser: User, db: Db, faults: set<DocRef>,
                      upload: Upload, salt: nat, now: int): (r: SendResult)
    requires chat.user.Some?
    ensures c.text == "" ==> r == SendResult(c, Effect(db, []))
    ensures c.text != "" ==> r.composer == Composer("", NoImage)
    ensures r.effect.db.users == db.users && r.effect.db.groups == db.groups && r.effect.db.feeds == db.feeds
    ensures forall id :: id in db.userchats && id != currentUser.id && id != chat.user.value.id ==>
              id in r.effect.db.userchats && r.effect.db.userchats[id] == db.userchats[id]
    ensures forall id :: id in db.chats && Some(id) != chat.chatId ==> id in r.effect.db.chats && r.effect.db.chats[id] == db.chats[id]
    ensures c.text != "" && ((c.img.file.Some? && upload.UploadError?) || !Truthy(chat.chatId)) ==> r.effect == Effect(db, [])
    ensures c.text != "" && !(c.img.file.Some? && upload.UploadError?) && Truthy(chat.chatId) ==>
              && 1 <= |r.effect.log| <= 3
              && r.effect.log[0] == Try(db, faults, UpdateDoc(ChatRef(chat.chatId.value)))
              && (!r.effect.log[0].accepted ==> r.effect == Effect(db, r.effect.log[..1]))
  {
    if c.text == "" then SendResult(c, Effect(db, []))
    else
      var other := chat.user.value;
      var cleared := Composer("", NoImage);
      if c.img.file.Some? && upload.UploadError? then SendResult(cleared, Effect(db, []))
      else if !Truthy(chat.chatId) then SendResult(cleared, Effect(db, []))
      else
        var chatId := chat.chatId.value;
        var imgUrl := if c.img.file.Some? then Some(upload.url) else None;
        var msg := Outgoing(c.text, currentUser.id, other.id, salt, now, imgUrl);
        var a := Try(db, faults, UpdateDoc(ChatRef(chatId)));
        if !a.accepted then SendResult(cleared, Effect(db, [a]))
        else
          var doc := db.chats[chatId];
          var db1 := db.(chats := db.chats[chatId := doc.(messages := Some(Arrays.UnionField(doc.messages, msg)))]);
          var mine := RecordSendFor(db1, faults, currentUser.id, chatId, c.text, currentUser.id, now);
          var theirs := RecordSendFor(mine.db, faults, other.id, chatId, c.text, currentUser.id, now);
          SendResult(cleared, Effect(theirs.db, [a] + mine.log + theirs.log))
  }

  /** When the chat document accepts the append, it keeps its earlier messages and gains the
      outgoing message; the feed the chat store subscribes to is not touched. */
  lemma {:induction false} HandleSendAppends(c: Composer, chat: ChatStore.ChatState, currentUser: User, db: Db,
                                             faults: set<DocRef>, upload: Upload, salt: nat, now: int)
    requires chat.user.Some? && c.text != "" && Truthy(chat.chatId)
    requires c.img.file.Some? ==> upload.Url?
    requires chat.chatId.value in db.chats && ChatRef(chat.chatId.value) !in faults
    ensures var r := HandleSend(c, chat, currentUser, db, faults, upload, salt, now);
            var chatId := chat.chatId.value;
            var url := if c.img.file.Some? then Some(upload.url) else None;
            var msg := Outgoing(c.text, currentUser.id, chat.user.value.id, salt, now, url);
            var before := db.chats[chatId].messages.GetOr([]);
            && chatId in r.effect.db.chats
            && r.effect.db.chats[chatId].messages.Some?
            && msg in r.effect.db.chats[chatId].messages.value
            && before <= r.effect.db.chats[chatId].messages.value
            && ChatStore.FeedSnapshot(r.effect.db, chatId) == ChatStore.FeedSnapshot(db, chatId)
            && |r.effect.log| >= 1 && r.effect.log[0] == Attempt(UpdateDoc(ChatRef(chatId)), true)
  {
    var chatId := chat.chatId.value;
    var doc := db.chats[chatId];
    var url := if c.img.file.Some? then Some(upload.url) else None;
    var msg := Outgoing(c.text, currentUser.id, chat.user.value.id, salt, now, url);
    var merged := Arrays.UnionField(doc.messages, msg);
    assert doc.messages.GetOr([]) <= merged;
  }

  /** After a send whose chat write is accepted, each participant's roster either is as
      before or is the record-send update of the old roster: preview, seen flag
      (true only for the sender's own roster) and time on the matching entry. */
  lemma {:induction false} HandleSendRosters(c: Composer, chat: ChatStore.ChatState, currentUser: User, db: Db,
                                             faults: set<DocRef>, upload: Upload, salt: nat, now: int)
    requires chat.user.Some? && c.text != "" && Truthy(chat.chatId)
    requires c.img.file.Some? ==> upload.Url?
    requires currentUser.id != chat.user.value.id
    ensures var r := HandleSend(c, chat, currentUser, db, faults, upload, salt, now);
            forall owner :: owner in {currentUser.id, chat.user.value.id} && owner in db.userchats ==>
              && owner in r.effect.db.userchats
              && (r.effect.db.userchats[owner] == db.userchats[owner]
                  || Some(r.effect.db.userchats[owner]) ==
                     RecordSend(db.userchats[owner], chat.chatId.value, Take(c.text, PreviewLength), owner == currentUser.id, now))
    ensures var r := HandleSend(c, chat, currentUser, db, faults, upload, salt, now);
            Try(db, faults, UpdateDoc(ChatRef(chat.chatId.value))).accepted ==>
            forall owner :: owner in {currentUser.id, chat.user.value.id} && owner in db.userchats && owner != ""
                            && RosterRef(owner) !in faults && EntryIndex(db.userchats[owner], chat.chatId.value).Some? ==>
              && owner in r.effect.db.userchats
              && Some(r.effect.db.userchats[owner]) ==
                 RecordSend(db.userchats[owner], chat.chatId.value, Take(c.text, PreviewLength), owner == currentUser.id, now)
  {
    var r := HandleSend(c, chat, currentUser, db, faults, upload, salt, now);
    var chatId := chat.chatId.value;
    var other := chat.user.value;
    if Try(db, faults, UpdateDoc(ChatRef(chatId))).accepted {
      var doc := db.chats[chatId];
      var url := if c.img.file.Some? then Some(upload.url) else None;
      var msg := Outgoing(c.text, currentUser.id, other.id, salt, now, url);
      var db1 := db.(chats := db.chats[chatId := doc.(messages := Some(Arrays.UnionField(doc.messages, msg)))]);
      assert db1.userchats == db.userchats;
      var mine := RecordSendFor(db1, faults, currentUser.id, chatId, c.text, currentUser.id, now);
      var theirs := RecordSendFor(mine.db, faults, other.id, chatId, c.text, currentUser.id, now);
      assert r.effect.db == theirs.db;
    }
  }

  /** The key a reader uses for a message: its own messages with
      `generateKey1(me, other)`, the counterpart's with `generateKey2(other, me)`. */
  function ReaderKey(m: Message, me: Id, other: Id): Key {
    if m.senderId == me then GenerateKey1(me, other) else GenerateKey2(other, me)
  }

  /** The text the pane shows for a message. */
  function Rendered(m: Message, me: Id, other: Id): (r: Option<string>)
    ensures r.Some? <==> m.text.Sealed? && m.text.key == ReaderKey(m, me, other)
    ensures r.Some? ==> r.value == m.text.plain
  {
    if m.senderId == me then DecryptWithKey1(m.text, GenerateKey1(me, other))
    else DecryptWithKey2(m.text, GenerateKey2(other, me))
  }

  /** The key each reader picks equals the key the sender encrypted with, so the sender and
      the counterpart both read back the plaintext of every message `handleSend` writes. */
  lemma BothParticipantsRead(text: string, sender: Id, receiver: Id, salt: nat, now: int, imgUrl: Option<string>)
    ensures var m := Outgoing(text, sender, receiver, salt, now, imgUrl);
            && ReaderKey(m, sender, receiver) == GenerateKey1(sender, receiver)
            && ReaderKey(m, receiver, sender) == GenerateKey1(sender, receiver)
            && Rendered(m, sender, receiver) == Some(text)
            && Rendered(m, receiver, sender) == Some(text)
  {
  }

  /** The file types `handleImg` accepts. */
  predicate AcceptedMime(mime: string) {
    mime == "image/jpeg" || mime == "image/png" || mime == "image/gif"
  }

  /** `handleImg(e)`: a JPEG, PNG or GIF replaces the picked image with the file and its
      preview URL; any other file, or none, leaves the composer unchanged. */
  function HandleImg(c: Composer, picked: Option<FileRef>, previewUrl: string): (r: Composer)
    ensures r.text == c.text
    ensures r != c ==> picked.Some? && AcceptedMime(picked.value.mime)
    ensures picked.Some? && AcceptedMime(picked.value.mime) ==> r.img == ImagePick(picked, previewUrl)
  {
    if picked.Some? && AcceptedMime(picked.value.mime) then c.(img := ImagePick(picked, previewUrl)) else c
  }

  /** The text input and the send button are disabled when either block flag is set. */
  predicate ComposeDisabled(st: ChatStore.ChatState) {
    st.isCurrentUserBlocked || st.isReceiverBlocked
  }

  /** `handleSend` reads neither block flag: two selections that differ only in the flags
      give the same result. Blocking gates sending only through `ComposeDisabled`. */
  lemma HandleSendIgnoresBlockFlags(c: Composer, chat: ChatStore.ChatState, currentBlocked: bool, receiverBlocked: bool,
                                    currentUser: User, db: Db, faults: set<DocRef>, upload: Upload, salt: nat, now: int)
    requires chat.user.Some?
    ensures HandleSend(c, chat, currentUser, db, faults, upload, salt, now)
         == HandleSend(c, chat.(isCurrentUserBlocked := currentBlocked, isReceiverBlocked := receiverBlocked),
                       currentUser, db, faults, upload, salt, now)
  {
  }

  /** Selecting a conversation in either blocked state disables the composer; selecting an
      unblocked one enables it. */
  lemma SelectionGatesCompose(s: ChatStore.Session, chatId: Id, user: User, me: User)
    ensures var r := ChatStore.ChangeChat(s, chatId, user, Some(me));
            ComposeDisabled(r.state) <==> (me.id in user.blocked || user.id in me.blocked)
  {
  }

  /** The roster update is a whole-array read-modify-write. When two sends in different
      chats read the same roster before either writes, the second write is computed from the
      stale copy and erases the first send's update; applied one after the other, both
      updates survive. */
  lemma InterleavedSendsLoseUpdate(roster: Roster, chatA: Id, chatB: Id, previewA: string, previewB: string, now: int)
    requires chatA != chatB
    requires EntryIndex(roster, chatA).Some? && EntryIndex(roster, chatB).Some?
    requires roster[EntryIndex(roster, chatA).value].lastMessage != previewA
    ensures var i := EntryIndex(roster, chatA).value;
            var afterA := RecordSend(roster, chatA, previewA, false, now).value;
            var staleB := RecordSend(roster, chatB, previewB, false, now).value;
            && staleB[i].lastMessage != previewA
            && EntryIndex(afterA, chatB) == EntryIndex(roster, chatB)
            && RecordSend(afterA, chatB, previewB, false, now).value[i].lastMessage == previewA
  {
    var i := EntryIndex(roster, chatA).value;
    var afterA := RecordSend(roster, chatA, previewA, false, now).value;
    assert forall j :: 0 <= j < |roster| ==> afterA[j].chatId == roster[j].chatId;
  }
}

=== FILE: chat_list.dfy ===
/** The conversation list: the roster listener's join of entries with counterpart
    documents, the status write on sign-in, selecting a conversation (mark it seen, write the
    roster back, open it), the search filter, and what each row shows. */
module ChatList {
  import opened Wrappers
  import opened Text
  import opened Records
  import opened Store
  import ChatStore

  /** An element of the list's `chats`: a roster entry together with the counterpart's
      `users` document, `None` when that document does not exist. */
  datatype ListItem = ListItem(entry: RosterEntry, user: Option<User>)

  /** The list with each counterpart document dropped (`const { user, ...rest } = item`). */
  function Strip(items: seq<ListItem>): (r: Roster)
    ensures |r| == |items|
    ensures forall i :: 0 <= i < |items| ==> r[i] == items[i].entry
  {
    seq(|items|, i requires 0 <= i < |items| => items[i].entry)
  }

  /** Each roster entry joined with the `users` document of its `receiverId`. */
  function Hydrate(db: Db, roster: Roster): (r: seq<ListItem>)
    ensures |r| == |roster|
    ensures forall i :: 0 <= i < |roster| ==> r[i].entry == roster[i]
    ensures forall i :: 0 <= i < |roster| ==> (r[i].user.Some? <==> roster[i].receiverId in db.users)
    ensures forall i :: 0 <= i < |roster| && r[i].user.Some? ==> r[i].user.value == db.users[roster[i].receiverId]
  {
    seq(|roster|, i requires 0 <= i < |roster| =>
      ListItem(roster[i], if roster[i].receiverId in db.users then Some(db.users[roster[i].receiverId]) else None))
  }

  /** Dropping the joined documents gives back the roster that was joined. */
  lemma StripHydrate(db: Db, roster: Roster)
    ensures Strip(Hydrate(db, roster)) == roster
  {
    var s := Strip(Hydrate(db, roster));
    assert forall i :: 0 <= i < |roster| ==> s[i] == roster[i];
  }

  /** The roster listener's callback for `owner`: the list is rebuilt from the stored roster,
      or left as it was when the roster document does not exist. */
  function RosterSnapshot(db: Db, owner: Id, items: seq<ListItem>): (r: seq<ListItem>)
    ensures owner !in db.userchats ==> r == items
    ensures owner in db.userchats ==> Strip(r) == db.userchats[owner]
    ensures owner in db.userchats ==> forall i :: 0 <= i < |r| ==>
              && (r[i].user.Some? <==> r[i].entry.receiverId in db.users)
              && (r[i].user.Some? ==> r[i].user.value == db.users[r[i].entry.receiverId])
  {
    if owner !in db.userchats then items
    else
      StripHydrate(db, db.userchats[owner]);
      Hydrate(db, db.userchats[owner])
  }

  /** `updateUserStatus(userId, status)`: nothing for a falsy id; otherwise one update of the
      user's `status`. A rejected update is logged and swallowed. */
  function UpdateUserStatus(db: Db, faults: set<DocRef>, userId: Id, status: string): (r: Effect)
    ensures userId == "" ==> r == Effect(db, [])
    ensures userId != "" ==> |r.log| == 1 && r.log[0].write == UpdateDoc(UsersRef(userId))
    ensures userId != "" && r.log[0].accepted ==>
              userId in db.users && r.db == db.(users := db.users[userId := db.users[userId].(status := status)])
    ensures userId != "" && !r.log[0].accepted ==> r.db == db
  {
    if userId == "" then Effect(db, [])
    else
      var a := Try(db, faults, UpdateDoc(UsersRef(userId)));
      if a.accepted then Effect(db.(users := db.users[userId := db.users[userId].(status := status)]), [a])
      else Effect(db, [a])
  }

  datatype AuthOutcome = AuthOutcome(statusUpdated: bool, effect: Effect)

  /** The list's authentication listener. A signed-in user is marked online once per mount
      (the flag is set whether or not the write went through). On sign-out the user is
      already `null`, so the offline update is called with no id and writes nothing. */
  function OnAuthChanged(authUid: Option<Id>, statusUpdated: bool, db: Db, faults: set<DocRef>): (r: AuthOutcome)
    ensures authUid.None? ==> r == AuthOutcome(statusUpdated, Effect(db, []))
    ensures authUid.Some? ==> r.statusUpdated
    ensures authUid.Some? && statusUpdated ==> r.effect == Effect(db, [])
    ensures authUid.Some? && !statusUpdated ==> r.effect == UpdateUserStatus(db, faults, authUid.value, "online")
  {
    match authUid
    case None => AuthOutcome(statusUpdated, Effect(db, []))
    case Some(uid) =>
      if statusUpdated then AuthOutcome(true, Effect(db, []))
      else AuthOutcome(true, UpdateUserStatus(db, faults, uid, "online"))
  }

  /** Signing out never changes any user's status through this listener. */
  lemma SignOutWritesNothing(statusUpdated: bool, db: Db, faults: set<DocRef>)
    ensures OnAuthChanged(None, statusUpdated, db, faults).effect.log == []
    ensures OnAuthChanged(None, statusUpdated, db, faults).effect.db.users == db.users
  {
  }

  /** The roster with the first entry for `chatId` marked seen; `None` when none matches. */
  function MarkSeen(roster: Roster, chatId: Id): (r: Option<Roster>)
    ensures r.None? <==> EntryIndex(roster, chatId).None?
    ensures r.Some? ==> |r.value| == |roster|
    ensures r.Some? ==> forall j :: 0 <= j < |roster| ==> r.value[j].chatId == roster[j].chatId
    ensures r.Some? ==> var i := EntryIndex(roster, chatId).value;
              && r.value[i] == roster[i].(isSeen := Some(true))
              && forall j :: 0 <= j < |roster| && j != i ==> r.value[j] == roster[j]
  {
    match EntryIndex(roster, chatId)
    case None => None
    case Some(i) => Some(roster[i := roster[i].(isSeen := Some(true))])
  }

  /** What selecting a conversation changes: the group flag of the group store, the store,
      and the conversation-selection store. */
  datatype SelectResult = SelectResult(inGroupChat: bool, effect: Effect, session: ChatStore.Session)

  /** `handleSelect(chat)`. An item without a counterpart document is ignored entirely.
      Otherwise the group flag is cleared first; then, for a signed-in user and a listed
      chat, the whole displayed list, stripped and with the chat marked seen, replaces the
      stored roster, and only if that write succeeds is the conversation opened. */
  function HandleSelect(items: seq<ListItem>, chat: ListItem, currentUser: Option<User>, inGroupChat: bool,
                        s: ChatStore.Session, db: Db, faults: set<DocRef>): (r: SelectResult)
    ensures chat.user.None? ==> r == SelectResult(inGroupChat, Effect(db, []), s)
    ensures chat.user.Some? ==> !r.inGroupChat
    ensures (currentUser.None? || currentUser.value.id == "" || MarkSeen(Strip(items), chat.entry.chatId).None?) ==>
              r.effect == Effect(db, []) && r.session == s
    ensures r.session != s ==>
              (chat.user.Some? && currentUser.Some?
               && r.session == ChatStore.ChangeChat(s, chat.entry.chatId, chat.user.value, currentUser))
    ensures chat.user.Some? && currentUser.Some? && currentUser.value.id != "" && MarkSeen(Strip(items), chat.entry.chatId).Some? ==>
              var cur := currentUser.value.id;
              && |r.effect.log| == 1 && r.effect.log[0].write == UpdateDoc(RosterRef(cur))
              && (r.effect.log[0].accepted <==> cur in db.userchats && RosterRef(cur) !in faults)
              && (r.effect.log[0].accepted ==>
                    && r.effect.db == db.(userchats := db.userchats[cur := MarkSeen(Strip(items), chat.entry.chatId).value])
                    && r.session == ChatStore.ChangeChat(s, chat.entry.chatId, chat.user.value, currentUser))
              && (!r.effect.log[0].accepted ==> r.effect.db == db && r.session == s)
  {
    if chat.user.None? then SelectResult(inGroupChat, Effect(db, []), s)
    else if currentUser.None? || currentUser.value.id == "" then SelectResult(false, Effect(db, []), s)
    else
      var cur := currentUser.value.id;
      match MarkSeen(Strip(items), chat.entry.chatId)
      case None => SelectResult(false, Effect(db, []), s)
      case Some(updated) =>
        var a := Try(db, faults, UpdateDoc(RosterRef(cur)));
        if !a.accepted then SelectResult(false, Effect(db, [a]), s)
        else
          SelectResult(false, Effect(db.(userchats := db.userchats[cur := updated]), [a]),
                       ChatStore.ChangeChat(s, chat.entry.chatId, chat.user.value, currentUser))
  }

  /** Selecting from a list built from the stored roster marks that chat seen and changes
      nothing else in the roster; the selection store keeps at most one live feed. */
  lemma SelectMarksSeen(db: Db, faults: set<DocRef>, cur: User, chat: ListItem, inGroupChat: bool, s: ChatStore.Session)
    requires cur.id != "" && cur.id in db.userchats && RosterRef(cur.id) !in faults
    requires chat.user.Some? && EntryIndex(db.userchats[cur.id], chat.entry.chatId).Some?
    requires ChatStore.Tracked(s)
    ensures var items := Hydrate(db, db.userchats[cur.id]);
            var r := HandleSelect(items, chat, Some(cur), inGroupChat, s, db, faults);
            var roster := db.userchats[cur.id];
            var i := EntryIndex(roster, chat.entry.chatId).value;
            && r.effect.db.userchats == db.userchats[cur.id := roster[i := roster[i].(isSeen := Some(true))]]
            && r.session.state.chatId == Some(chat.entry.chatId)
            && ChatStore.Tracked(r.session)
  {
    var roster := db.userchats[cur.id];
    StripHydrate(db, roster);
    ChatStore.ChangeChatSingleFlight(s, chat.entry.chatId, chat.user.value, Some(cur));
  }

  /** Selecting writes back the displayed list, not the stored roster: an entry added to
      the stored roster after the list was last rebuilt is lost when the write succeeds. */
  lemma SelectDropsUnlistedEntries(items: seq<ListItem>, chat: ListItem, cur: User, inGroupChat: bool,
                                   s: ChatStore.Session, db: Db, faults: set<DocRef>, e: RosterEntry)
    requires chat.user.Some? && cur.id != "" && cur.id in db.userchats && RosterRef(cur.id) !in faults
    requires MarkSeen(Strip(items), chat.entry.chatId).Some?
    requires e in db.userchats[cur.id]
    requires forall i :: 0 <= i < |items| ==> items[i].entry.chatId != e.chatId
    ensures var r := HandleSelect(items, chat, Some(cur), inGroupChat, s, db, faults);
            e !in r.effect.db.userchats[cur.id]
  {
    var updated := MarkSeen(Strip(items), chat.entry.chatId).value;
    assert forall j :: 0 <= j < |updated| ==> updated[j].chatId == items[j].entry.chatId;
  }

  /** The search filter: the counterpart has a username that contains the input,
      both lower-cased. */
  predicate Matches(item: ListItem, input: string) {
    && item.user.Some? && item.user.value.username.Some?
    && Includes(Lower(item.user.value.username.value), Lower(input))
  }

  /** `chats.filter(...)` with the search input: the matching items, in list order. */
  function FilterChats(items: seq<ListItem>, input: string): (r: seq<ListItem>)
    ensures |r| <= |items|
    ensures forall x :: x in r <==> x in items && Matches(x, input)
    decreases |items|
  {
    if |items| == 0 then []
    else (if Matches(items[0], input) then [items[0]] else []) + FilterChats(items[1..], input)
  }

  /** Filtering a concatenation filters each part. */
  lemma {:induction false} FilterChatsAppend(a: seq<ListItem>, b: seq<ListItem>, input: string)
    ensures FilterChats(a + b, input) == FilterChats(a, input) + FilterChats(b, input)
    decreases |a|
  {
    if |a| > 0 {
      assert (a + b)[0] == a[0];
      assert (a + b)[1..] == a[1..] + b;
      FilterChatsAppend(a[1..], b, input);
    } else {
      assert a + b == b;
    }
  }

  /** Filtering twice with the same input is filtering once. */
  lemma {:induction false} FilterChatsIdempotent(items: seq<ListItem>, input: string)
    ensures FilterChats(FilterChats(items, input), input) == FilterChats(items, input)
    decreases |items|
  {
    if |items| > 0 {
      var head := if Matches(items[0], input) then [items[0]] else [];
      FilterChatsIdempotent(items[1..], input);
      FilterChatsAppend(head, FilterChats(items[1..], input), input);
      assert FilterChats(head, input) == head by {
        if |head| > 0 {
          assert head[1..] == [];
        }
      }
    }
  }

  /** An empty search keeps exactly the items whose counterpart has a username. */
  lemma FilterChatsEmptyInput(items: seq<ListItem>)
    ensures forall x :: x in FilterChats(items, "") <==> x in items && x.user.Some? && x.user.value.username.Some?
  {
    forall x | x in items && x.user.Some? && x.user.value.username.Some?
      ensures Matches(x, "")
    {
      EmptyIsIncluded(Lower(x.user.value.username.value));
    }
  }

  const BlockedName := "Blocked User!!"
  const DefaultAvatar := "./avatar.png"

  /** The name a row shows: a placeholder when the counterpart blocked the current user,
      otherwise the counterpart's username (nothing without a counterpart document). */
  function DisplayName(item: ListItem, currentId: Id): (r: Option<string>)
    ensures item.user.None? ==> r.None?
    ensures item.user.Some? && currentId in item.user.value.blocked ==> r == Some(BlockedName)
    ensures item.user.Some? && currentId !in item.user.value.blocked ==> r == item.user.value.username
  {
    match item.user
    case None => None
    case Some(u) => if currentId in u.blocked then Some(BlockedName) else u.username
  }

  /** The avatar a row shows: the default when the counterpart blocked the current user or
      has no avatar. */
  function DisplayAvatar(item: ListItem, currentId: Id): (r: string)
    ensures item.user.Some? && currentId !in item.user.value.blocked && Truthy(item.user.value.avatar) ==>
              r == item.user.value.avatar.value
    ensures !(item.user.Some? && currentId !in item.user.value.blocked && Truthy(item.user.value.avatar)) ==>
              r == DefaultAvatar
  {
    match item.user
    case None => DefaultAvatar
    case Some(u) => if currentId in u.blocked then DefaultAvatar else OrElse(u.avatar, DefaultAvatar)
  }

  /** A row is highlighted as unread unless its entry is marked seen. */
  predicate Unread(item: ListItem) {
    item.entry.isSeen != Some(true)
  }

  /** A counterpart who blocked the current user shows nothing of their own: any two such
      rows show the same name and avatar. */
  lemma BlockedHidesIdentity(a: ListItem, b: ListItem, currentId: Id)
    requires a.user.Some? && b.user.Some?
    requires currentId in a.user.value.blocked && currentId in b.user.value.blocked
    ensures DisplayName(a, currentId) == DisplayName(b, currentId) == Some(BlockedName)
    ensures DisplayAvatar(a, currentId) == DisplayAvatar(b, currentId) == DefaultAvatar
  {
  }

  /** After a successful selection from a list built from the stored roster, the selected
      row is no longer unread once the list is rebuilt. */
  lemma SelectClearsUnread(db: Db, faults: set<DocRef>, cur: User, chat: ListItem, inGroupChat: bool, s: ChatStore.Session)
    requires cur.id != "" && cur.id in db.userchats && RosterRef(cur.id) !in faults
    requires chat.user.Some? && EntryIndex(db.userchats[cur.id], chat.entry.chatId).Some?
    ensures var r := HandleSelect(Hydrate(db, db.userchats[cur.id]), chat, Some(cur), inGroupChat, s, db, faults);
            var after := RosterSnapshot(r.effect.db, cur.id, []);
            var i := EntryIndex(db.userchats[cur.id], chat.entry.chatId).value;
            && i < |after| && after[i].entry.chatId == chat.entry.chatId && !Unread(after[i])
  {
    StripHydrate(db, db.userchats[cur.id]);
  }
}

=== FILE: chat_store.dfy ===
/** The conversation-selection store: which conversation is open, the two block flags,
    the live message feed of the open conversation, and chat creation.

    Subscriptions are tracked in a `Ledger` of live handles. Opening a feed takes the
    ledger's next unused handle; calling a stored unsubscribe function removes its handle.
    The ledger's `events` record every open and every release, in order. */
module ChatStore {
  import opened Wrappers
  import opened Records
  import opened Store
  import Arrays

  type Handle = nat

  datatype Event = Subscribed(handle: Handle, chatId: Id) | Unsubscribed(handle: Handle)

  datatype Ledger = Ledger(live: set<Handle>, next: Handle, events: seq<Event>)

  /** An element of the store's `messages`: a feed document with a highlight flag. */
  datatype FeedMessage = FeedMessage(id: Id, data: Message, isHighlighted: bool)

  datatype ChatState = ChatState(
    chatId: Option<Id>,
    user: Option<User>,
    isCurrentUserBlocked: bool,
    isReceiverBlocked: bool,
    messages: seq<FeedMessage>,
    unsubscribe: Option<Handle>)

  datatype Session = Session(state: ChatState, ledger: Ledger)

  const Initial := Session(ChatState(None, None, false, false, [], None), Ledger({}, 0, []))

  /** Every live handle was issued by the ledger and is the one the store holds, so at
      most one feed is live and calling the stored function releases it. */
  ghost predicate Tracked(s: Session) {
    && (forall h :: h in s.ledger.live ==> h < s.ledger.next)
    && (forall h :: h in s.ledger.live ==> s.state.unsubscribe == Some(h))
  }

  function HandleSet(h: Option<Handle>): set<Handle> {
    if h.Some? then {h.value} else {}
  }

  /** `if (prevUnsubscribe) prevUnsubscribe();` */
  function Release(l: Ledger, h: Option<Handle>): (r: Ledger)
    ensures r.live == l.live - HandleSet(h) && r.next == l.next
    ensures h.None? ==> r == l
    ensures h.Some? ==> r.events == l.events + [Unsubscribed(h.value)]
  {
    match h
    case None => l
    case Some(x) => l.(live := l.live - {x}, events := l.events + [Unsubscribed(x)])
  }

  /** `onSnapshot(...)` on a chat's message feed: a new handle goes live. */
  function Subscribe(l: Ledger, chatId: Id): (r: Ledger)
    ensures l.next !in l.live ==> l.next in r.live && r.live - {l.next} == l.live
    ensures r.next > l.next
    ensures r.events == l.events + [Subscribed(l.next, chatId)]
  {
    Ledger(l.live + {l.next}, l.next + 1, l.events + [Subscribed(l.next, chatId)])
  }

  /** `getMessages(chatId)`: nothing for a falsy id; otherwise opens a feed on the chat's
      `messages` subcollection and stores its handle, without releasing the stored one. */
  function GetMessages(s: Session, chatId: Id): (r: Session)
    ensures chatId == "" ==> r == s
    ensures chatId != "" ==> r.state == s.state.(unsubscribe := Some(s.ledger.next))
    ensures chatId != "" ==> r.ledger == Subscribe(s.ledger, chatId)
  {
    if chatId == "" then s
    else Session(s.state.(unsubscribe := Some(s.ledger.next)), Subscribe(s.ledger, chatId))
  }

  /** `changeChat(chatId, user)`. The stored handle is released first. A missing current
      user then throws (modelled as: nothing else changes). The counterpart blocking the
      current user is checked before the current user blocking the counterpart. */
  function ChangeChat(s: Session, chatId: Id, user: User, currentUser: Option<User>): (r: Session)
    // the previous feed is released before anything else happens
    ensures s.ledger.events <= r.ledger.events
    ensures s.state.unsubscribe.Some? ==>
              |r.ledger.events| > |s.ledger.events| && r.ledger.events[|s.ledger.events|] == Unsubscribed(s.state.unsubscribe.value)
    ensures currentUser.None? ==> r.state == s.state
    // blocked by the counterpart: the counterpart is hidden and no feed opens
    ensures currentUser.Some? && currentUser.value.id in user.blocked ==>
              r.state == ChatState(Some(chatId), None, true, false, [], None)
              && r.ledger == Release(s.ledger, s.state.unsubscribe)
    // the current user blocked the counterpart: the counterpart is kept and no feed opens
    ensures currentUser.Some? && currentUser.value.id !in user.blocked && user.id in currentUser.value.blocked ==>
              r.state == ChatState(Some(chatId), Some(user), false, true, [], None)
              && r.ledger == Release(s.ledger, s.state.unsubscribe)
    // neither side blocked: both flags clear and one feed opens for a non-empty id
    ensures currentUser.Some? && currentUser.value.id !in user.blocked && user.id !in currentUser.value.blocked ==>
              && r.state.chatId == Some(chatId) && r.state.user == Some(user)
              && !r.state.isCurrentUserBlocked && !r.state.isReceiverBlocked && r.state.messages == []
              && (chatId != "" ==> r.state.unsubscribe == Some(s.ledger.next)
                                   && r.ledger == Subscribe(Release(s.ledger, s.state.unsubscribe), chatId))
              && (chatId == "" ==> r.ledger == Release(s.ledger, s.state.unsubscribe))
  {
    var released := Release(s.ledger, s.state.unsubscribe);
    if currentUser.None? then
      Session(s.state, released)
    else if currentUser.value.id in user.blocked then
      Session(ChatState(Some(chatId), None, true, false, [], None), released)
    else if user.id in currentUser.value.blocked then
      Session(ChatState(Some(chatId), Some(user), false, true, [], None), released)
    else
      GetMessages(Session(ChatState(Some(chatId), Some(user), false, false, [], s.state.unsubscribe), released), chatId)
  }

  lemma LiveAtMostOne(s: Session)
    requires Tracked(s)
    ensures |s.ledger.live| <= 1
  {
    if s.ledger.live != {} {
      var h :| h in s.ledger.live;
      assert s.ledger.live == {h};
    }
  }

  /** The ledger invariant holds initially. */
  lemma InitialTracked()
    ensures Tracked(Initial)
  {
  }

  /** Single flight: from a tracked session, `changeChat` keeps the invariant, so at most
      one feed is live afterwards. The events it adds are the release of the previous
      handle, if any, followed by at most one subscription to the selected chat. */
  lemma {:induction false} ChangeChatSingleFlight(s: Session, chatId: Id, user: User, currentUser: Option<User>)
    requires Tracked(s)
    ensures Tracked(ChangeChat(s, chatId, user, currentUser))
    ensures |ChangeChat(s, chatId, user, currentUser).ledger.live| <= 1
    ensures var added := ChangeChat(s, chatId, user, currentUser).ledger.events[|s.ledger.events|..];
            || added == (if s.state.unsubscribe.Some? then [Unsubscribed(s.state.unsubscribe.value)] else [])
            || added == (if s.state.unsubscribe.Some? then [Unsubscribed(s.state.unsubscribe.value)] else []) + [Subscribed(s.ledger.next, chatId)]
  {
    var r := ChangeChat(s, chatId, user, currentUser);
    var released := Release(s.ledger, s.state.unsubscribe);
    assert released.live == {} by {
      forall h | h in s.ledger.live
        ensures h in HandleSet(s.state.unsubscribe)
      {
      }
    }
    assert r.ledger.live <= HandleSet(r.state.unsubscribe);
    LiveAtMostOne(r);
  }

  /** `getMessages` alone does not release the stored handle: called while a feed is live,
      it leaves two feeds live. `changeChat` avoids this only because it releases first. */
  lemma GetMessagesAloneLeaks(s: Session, chatId: Id)
    requires Tracked(s) && s.state.unsubscribe.Some? && s.state.unsubscribe.value in s.ledger.live
    requires chatId != ""
    ensures |GetMessages(s, chatId).ledger.live| == 2
  {
    var h := s.state.unsubscribe.value;
    assert s.ledger.live == {h};
    assert GetMessages(s, chatId).ledger.live == {h, s.ledger.next};
  }

  /** The documents a feed on `chats/{chatId}/messages` delivers. */
  function FeedSnapshot(db: Db, chatId: Id): seq<FeedDoc> {
    if chatId in db.feeds then db.feeds[chatId] else []
  }

  /** The snapshot callback of the feed with handle `h`: the documents replace `messages`
      wholesale, each with its id and `isHighlighted` false. A released feed delivers nothing. */
  function Deliver(s: Session, h: Handle, docs: seq<FeedDoc>): (r: Session)
    ensures h !in s.ledger.live ==> r == s
    ensures h in s.ledger.live ==> r.ledger == s.ledger && r.state == s.state.(messages := r.state.messages)
    ensures h in s.ledger.live ==> |r.state.messages| == |docs|
    ensures h in s.ledger.live ==> forall i :: 0 <= i < |docs| ==>
              r.state.messages[i].id == docs[i].id && r.state.messages[i].data == docs[i].data
              && !r.state.messages[i].isHighlighted
  {
    if h !in s.ledger.live then s
    else s.(state := s.state.(messages := seq(|docs|, i requires 0 <= i < |docs| => FeedMessage(docs[i].id, docs[i].data, false))))
  }

  /** The error callback of the feed with handle `h`: `messages` becomes empty. */
  function FeedFailed(s: Session, h: Handle): (r: Session)
    ensures h in s.ledger.live ==> r.state == s.state.(messages := []) && r.ledger == s.ledger
    ensures h !in s.ledger.live ==> r == s
  {
    if h in s.ledger.live then s.(state := s.state.(messages := [])) else s
  }

  /** `changeBlock()`: flips `isReceiverBlocked` and nothing else. */
  function ChangeBlock(st: ChatState): (r: ChatState)
    ensures r.isReceiverBlocked != st.isReceiverBlocked
    ensures r.(isReceiverBlocked := st.isReceiverBlocked) == st
  {
    st.(isReceiverBlocked := !st.isReceiverBlocked)
  }

  /** Applying `changeBlock` twice restores the state. */
  lemma ChangeBlockTwice(st: ChatState)
    ensures ChangeBlock(ChangeBlock(st)) == st
  {
  }

  function Toggle(m: FeedMessage, messageId: Id): FeedMessage {
    if m.id == messageId then m.(isHighlighted := !m.isHighlighted) else m
  }

  /** `toggleHighlight(messageId)`: flips the flag of the messages with that id; length,
      order, ids and contents are unchanged. */
  function ToggleHighlight(ms: seq<FeedMessage>, messageId: Id): (r: seq<FeedMessage>)
    ensures |r| == |ms|
    ensures forall i :: 0 <= i < |ms| ==> r[i].id == ms[i].id && r[i].data == ms[i].data
    ensures forall i :: 0 <= i < |ms| ==> (r[i].isHighlighted != ms[i].isHighlighted <==> ms[i].id == messageId)
  {
    seq(|ms|, i requires 0 <= i < |ms| => Toggle(ms[i], messageId))
  }

  /** Toggling the same id twice restores the messages. */
  lemma ToggleHighlightInvolution(ms: seq<FeedMessage>, messageId: Id)
    ensures ToggleHighlight(ToggleHighlight(ms, messageId), messageId) == ms
  {
    var r := ToggleHighlight(ToggleHighlight(ms, messageId), messageId);
    assert forall i :: 0 <= i < |ms| ==> r[i] == ms[i];
  }

  /** The id `createChat` gives the chat between `currentId` and `receiverId`. */
  function PairChatId(currentId: Id, receiverId: Id): Id {
    currentId + "_" + receiverId
  }

  /** The roster entry `createChat` writes for `owner`. */
  function PairEntry(chatId: Id, owner: Id, counterpart: Id, now: int): RosterEntry {
    RosterEntry(chatId, "", counterpart, now, None, Some(owner))
  }

  /** Two roster entries describe one conversation from its two ends. */
  predicate Mirrored(a: RosterEntry, b: RosterEntry) {
    && a.chatId == b.chatId && a.lastMessage == b.lastMessage
    && a.senderId == Some(b.receiverId) && b.senderId == Some(a.receiverId)
  }

  /** The document `createChat` writes for a new chat. */
  function PairChat(chatId: Id, currentId: Id, receiverId: Id, now: int): ChatDoc {
    ChatDoc(Paired(chatId, [currentId, receiverId], "", now), None)
  }

  /** `createChat(receiverId)` as written: `arrayUnion` is not imported, so once the chat
      document is written, building the first roster update throws a ReferenceError,
      which the handler catches. */
  function CreateChatAsWritten(db: Db, faults: set<DocRef>, currentUser: Option<User>, receiverId: Id, now: int): (r: Effect)
    ensures r.db.userchats == db.userchats && r.db.users == db.users && r.db.groups == db.groups
    ensures |r.log| <= 1
    ensures currentUser.None? || receiverId == "" ==> r == Effect(db, [])
    ensures currentUser.Some? && PairChatId(currentUser.value.id, receiverId) in db.chats ==> r == Effect(db, [])
    ensures currentUser.Some? && receiverId != "" && PairChatId(currentUser.value.id, receiverId) !in db.chats ==>
              var chatId := PairChatId(currentUser.value.id, receiverId);
              && |r.log| == 1
              && r.log[0].write == SetDoc(ChatRef(chatId))
              && (r.log[0].accepted ==> r.db.chats == db.chats[chatId := PairChat(chatId, currentUser.value.id, receiverId, now)])
              && (!r.log[0].accepted ==> r.db == db)
  {
    if currentUser.None? || receiverId == "" then Effect(db, [])
    else
      var chatId := PairChatId(currentUser.value.id, receiverId);
      if chatId in db.chats then Effect(db, [])
      else
        var a := Try(db, faults, SetDoc(ChatRef(chatId)));
        if !a.accepted then Effect(db, [a])
        else Effect(db.(chats := db.chats[chatId := PairChat(chatId, currentUser.value.id, receiverId, now)]), [a])
  }

  /** As written, a successful `createChat` leaves a chat that neither roster lists. */
  lemma CreateChatAsWrittenOrphansChat(db: Db, faults: set<DocRef>, cur: User, receiverId: Id, now: int)
    requires receiverId != "" && PairChatId(cur.id, receiverId) !in db.chats
    requires ChatRef(PairChatId(cur.id, receiverId)) !in faults
    ensures var r := CreateChatAsWritten(db, faults, Some(cur), receiverId, now);
            && PairChatId(cur.id, receiverId) in r.db.chats
            && r.db.userchats == db.userchats
            && Accepted(r.log) == [SetDoc(ChatRef(PairChatId(cur.id, receiverId)))]
  {
  }

  /** `createChat(receiverId)` with `arrayUnion` imported: the chat document, then the
      current user's roster, then the receiver's, each written only if the one before
      succeeded. */
  function CreateChat(db: Db, faults: set<DocRef>, currentUser: Option<User>, receiverId: Id, now: int): (r: Effect)
    ensures currentUser.None? || receiverId == "" ==> r == Effect(db, [])
    ensures currentUser.Some? && PairChatId(currentUser.value.id, receiverId) in db.chats ==> r == Effect(db, [])
    ensures r.db.users == db.users && r.db.groups == db.groups && r.db.feeds == db.feeds
    ensures forall i :: 0 <= i < |r.log| - 1 ==> r.log[i].accepted
    ensures r.db.userchats.Keys == db.userchats.Keys
    ensures currentUser.Some? && receiverId != "" && PairChatId(currentUser.value.id, receiverId) !in db.chats ==>
              var cur := currentUser.value.id;
              var chatId := PairChatId(cur, receiverId);
              // the writes, in order, stopping at the first rejection
              && 1 <= |r.log| <= 3
              && r.log[0].write == SetDoc(ChatRef(chatId))
              && (|r.log| >= 2 ==> r.log[1].write == UpdateDoc(RosterRef(cur)))
              && (|r.log| == 3 ==> r.log[2].write == UpdateDoc(RosterRef(receiverId)))
              && (|r.log| < 3 ==> !r.log[|r.log| - 1].accepted)
              // a rejection keeps every write accepted before it
              && (!r.log[0].accepted ==> r.db == db)
              && (r.log[0].accepted ==> r.db.chats == db.chats[chatId := PairChat(chatId, cur, receiverId, now)])
              && (|r.log| <= 2 ==> r.db.userchats == db.userchats)
              && (|r.log| == 3 ==>
                    && cur in db.userchats
                    && r.db.userchats[cur] == Arrays.Union(db.userchats[cur], PairEntry(chatId, cur, receiverId, now)))
              && (|r.log| == 3 && !r.log[2].accepted ==>
                    r.db.userchats == db.userchats[cur := Arrays.Union(db.userchats[cur], PairEntry(chatId, cur, receiverId, now))])
              && (|r.log| == 3 && r.log[2].accepted ==>
                    && receiverId in db.userchats
                    && r.db.userchats[receiverId] == Arrays.Union(db.userchats[receiverId], PairEntry(chatId, receiverId, cur, now)))
              && (forall id :: id in db.userchats && id != cur && id != receiverId ==> r.db.userchats[id] == db.userchats[id])
  {
    if currentUser.None? || receiverId == "" then Effect(db, [])
    else
      var cur := currentUser.value.id;
      var chatId := PairChatId(cur, receiverId);
      if chatId in db.chats then Effect(db, [])
      else
        var a1 := Try(db, faults, SetDoc(ChatRef(chatId)));
        if !a1.accepted then Effect(db, [a1])
        else
          var db1 := db.(chats := db.chats[chatId := PairChat(chatId, cur, receiverId, now)]);
          var a2 := Try(db1, faults, UpdateDoc(RosterRef(cur)));
          if !a2.accepted then Effect(db1, [a1, a2])
          else
            var db2 := db1.(userchats := db1.userchats[cur := Arrays.Union(db1.userchats[cur], PairEntry(chatId, cur, receiverId, now))]);
            var a3 := Try(db2, faults, UpdateDoc(RosterRef(receiverId)));
            if !a3.accepted then Effect(db2, [a1, a2, a3])
            else
              var db3 := db2.(userchats := db2.userchats[receiverId := Arrays.Union(db2.userchats[receiverId], PairEntry(chatId, receiverId, cur, now))]);
              Effect(db3, [a1, a2, a3])
  }

  /** With both rosters present and no write rejected, `createChat` creates the chat with id
      `cur_recv` and adds to each roster an entry for it, the two entries mirroring each
      other; no other roster changes. */
  lemma CreateChatFansOut(db: Db, faults: set<DocRef>, cur: User, receiverId: Id, now: int)
    requires receiverId != "" && cur.id != "" && cur.id != receiverId
    requires PairChatId(cur.id, receiverId) !in db.chats
    requires cur.id in db.userchats && receiverId in db.userchats
    requires ChatRef(PairChatId(cur.id, receiverId)) !in faults
    requires RosterRef(cur.id) !in faults && RosterRef(receiverId) !in faults
    ensures var r := CreateChat(db, faults, Some(cur), receiverId, now);
            var chatId := PairChatId(cur.id, receiverId);
            var mine := PairEntry(chatId, cur.id, receiverId, now);
            var theirs := PairEntry(chatId, receiverId, cur.id, now);
            && r.db.chats == db.chats[chatId := PairChat(chatId, cur.id, receiverId, now)]
            && r.db.userchats == db.userchats[cur.id := Arrays.Union(db.userchats[cur.id], mine)]
                                             [receiverId := Arrays.Union(db.userchats[receiverId], theirs)]
            && Mirrored(mine, theirs)
            && Accepted(r.log) == [SetDoc(ChatRef(chatId)), UpdateDoc(RosterRef(cur.id)), UpdateDoc(RosterRef(receiverId))]
  {
    AllAccepted(CreateChat(db, faults, Some(cur), receiverId, now).log);
  }
}

=== FILE: detail.dfy ===
/** The conversation's detail pane: blocking and unblocking the counterpart, clearing the
    chat history, and the shared-photos list drawn from the chat document. */
module Detail {
  import opened Wrappers
  import opened Text
  import opened Records
  import opened Store
  import Arrays
  import ChatStore

  datatype BlockResult = BlockResult(state: ChatStore.ChatState, effect: Effect)

  /** The stored block list of the current user agrees with the selection store's
      `isReceiverBlocked` flag for the selected counterpart. */
  predicate BlockConsistent(st: ChatStore.ChatState, db: Db, currentId: Id) {
    st.user.Some? && currentId in db.users ==>
      (st.isReceiverBlocked <==> st.user.value.id in db.users[currentId].blocked)
  }

  /** `handleBlock()`. Nothing without a selected counterpart (the selection store hides the
      counterpart when it blocked the current user) or without a signed-in current user.
      Otherwise the counterpart's id is removed from the current user's `blocked` when the
      flag says blocked and added otherwise, and the flag flips only if the update succeeds. */
  function HandleBlock(st: ChatStore.ChatState, currentUser: Option<User>, db: Db, faults: set<DocRef>): (r: BlockResult)
    ensures st.user.None? || currentUser.None? || currentUser.value.id == "" ==> r == BlockResult(st, Effect(db, []))
    ensures r.effect.db.userchats == db.userchats && r.effect.db.chats == db.chats && r.effect.db.groups == db.groups
    ensures forall id :: id in db.users && (currentUser.None? || id != currentUser.value.id) ==>
              id in r.effect.db.users && r.effect.db.users[id] == db.users[id]
    ensures r.state == st || r.state == ChatStore.ChangeBlock(st)
    ensures r.state != st <==> r.effect.log != [] && r.effect.log[0].accepted
    ensures st.user.Some? && currentUser.Some? && currentUser.value.id != "" ==>
              var cur := currentUser.value.id;
              && |r.effect.log| == 1 && r.effect.log[0].write == UpdateDoc(UsersRef(cur))
              && (r.effect.log[0].accepted ==>
                    && cur in db.users && cur in r.effect.db.users
                    && (st.user.value.id in r.effect.db.users[cur].blocked <==> !st.isReceiverBlocked)
                    && r.effect.db.users[cur].blocked ==
                       (if st.isReceiverBlocked then Arrays.Without(db.users[cur].blocked, st.user.value.id)
                        else Arrays.Union(db.users[cur].blocked, st.user.value.id))
                    && r.effect.db.users[cur] == db.users[cur].(blocked := r.effect.db.users[cur].blocked))
              && (!r.effect.log[0].accepted ==> r.effect.db == db)
  {
    if st.user.None? || currentUser.None? || currentUser.value.id == "" then BlockResult(st, Effect(db, []))
    else
      var cur := currentUser.value.id;
      var other := st.user.value.id;
      var a := Try(db, faults, UpdateDoc(UsersRef(cur)));
      if !a.accepted then BlockResult(st, Effect(db, [a]))
      else
        var me := db.users[cur];
        var blocked := if st.isReceiverBlocked then Arrays.Without(me.blocked, other) else Arrays.Union(me.blocked, other);
        BlockResult(ChatStore.ChangeBlock(st), Effect(db.(users := db.users[cur := me.(blocked := blocked)]), [a]))
  }

  /** `handleBlock` keeps the flag and the stored block list in step, whether the update
      succeeds or fails. */
  lemma HandleBlockKeepsConsistent(st: ChatStore.ChatState, cur: User, db: Db, faults: set<DocRef>)
    requires BlockConsistent(st, db, cur.id)
    ensures BlockConsistent(HandleBlock(st, Some(cur), db, faults).state, HandleBlock(st, Some(cur), db, faults).effect.db, cur.id)
  {
  }

  /** Blocking and then unblocking, both accepted, restores the flag and leaves the
      counterpart off the stored block list. */
  lemma BlockThenUnblock(st: ChatStore.ChatState, cur: User, db: Db, faults: set<DocRef>)
    requires st.user.Some? && cur.id != "" && cur.id in db.users && UsersRef(cur.id) !in faults
    requires !st.isReceiverBlocked
    ensures var r1 := HandleBlock(st, Some(cur), db, faults);
            var r2 := HandleBlock(r1.state, Some(cur), r1.effect.db, faults);
            && r1.state.isReceiverBlocked
            && st.user.value.id in r1.effect.db.users[cur.id].blocked
            && r2.state == st
            && st.user.value.id !in r2.effect.db.users[cur.id].blocked
  {
    ChatStore.ChangeBlockTwice(st);
  }

  /** When the counterpart blocked the current user, the selection store holds no
      counterpart and the block button does nothing. */
  lemma BlockedByCounterpartIsInert(s: ChatStore.Session, chatId: Id, user: User, cur: User, db: Db, faults: set<DocRef>)
    requires cur.id in user.blocked
    ensures var selected := ChatStore.ChangeChat(s, chatId, user, Some(cur)).state;
            HandleBlock(selected, Some(cur), db, faults) == BlockResult(selected, Effect(db, []))
  {
  }

  /** The current user's record held by the user store is not refreshed by a block: opening
      the same conversation again with that record clears the flag that `handleBlock` set. */
  lemma ReopenForgetsBlock(s: ChatStore.Session, chatId: Id, user: User, cur: User, db: Db, faults: set<DocRef>)
    requires cur.id != "" && cur.id in db.users && UsersRef(cur.id) !in faults
    requires cur.id !in user.blocked && user.id !in cur.blocked
    ensures var selected := ChatStore.ChangeChat(s, chatId, user, Some(cur));
            var blocked := HandleBlock(selected.state, Some(cur), db, faults);
            var reopened := ChatStore.ChangeChat(selected.(state := blocked.state), chatId, user, Some(cur));
            && blocked.state.isReceiverBlocked
            && user.id in blocked.effect.db.users[cur.id].blocked
            && !reopened.state.isReceiverBlocked
  {
  }

  datatype ClearResult = ClearResult(confirmOpen: bool, effect: Effect)

  /** `clearChatHistory()`: nothing without a selected chat; otherwise the chat document's
      `messages` field is deleted and, on success, the confirmation closes. */
  function ClearChatHistory(chatId: Option<Id>, confirmOpen: bool, db: Db, faults: set<DocRef>): (r: ClearResult)
    ensures !Truthy(chatId) ==> r == ClearResult(confirmOpen, Effect(db, []))
    ensures r.effect.db.users == db.users && r.effect.db.userchats == db.userchats && r.effect.db.feeds == db.feeds
    ensures forall id :: id in db.chats && Some(id) != chatId ==> id in r.effect.db.chats && r.effect.db.chats[id] == db.chats[id]
    ensures Truthy(chatId) ==> |r.effect.log| == 1 && r.effect.log[0].write == UpdateDoc(ChatRef(chatId.value))
    ensures Truthy(chatId) && r.effect.log[0].accepted ==>
              && !r.confirmOpen && chatId.value in db.chats
              && r.effect.db.chats == db.chats[chatId.value := db.chats[chatId.value].(messages := None)]
    ensures Truthy(chatId) && !r.effect.log[0].accepted ==> r == ClearResult(confirmOpen, Effect(db, r.effect.log))
  {
    if !Truthy(chatId) then ClearResult(confirmOpen, Effect(db, []))
    else
      var id := chatId.value;
      var a := Try(db, faults, UpdateDoc(ChatRef(id)));
      if !a.accepted then ClearResult(confirmOpen, Effect(db, [a]))
      else ClearResult(false, Effect(db.(chats := db.chats[id := db.chats[id].(messages := None)]), [a]))
  }

  /** `messages.filter(m => m.img).map(m => m.img)`: the truthy image URLs, in order. */
  function SharedPhotos(ms: seq<Message>): (r: seq<string>)
    ensures |r| <= |ms|
    ensures forall u :: u in r <==> exists i :: 0 <= i < |ms| && Truthy(ms[i].img) && ms[i].img.value == u
    decreases |ms|
  {
    if |ms| == 0 then []
    else
      var rest := SharedPhotos(ms[1..]);
      assert forall i :: 1 <= i < |ms| ==> ms[i] == ms[1..][i - 1];
      assert forall u :: u in rest ==> exists i :: 0 <= i < |ms| && Truthy(ms[i].img) && ms[i].img.value == u by {
        forall u | u in rest
          ensures exists i :: 0 <= i < |ms| && Truthy(ms[i].img) && ms[i].img.value == u
        {
          var k :| 0 <= k < |ms[1..]| && Truthy(ms[1..][k].img) && ms[1..][k].img.value == u;
          assert ms[k + 1] == ms[1..][k];
        }
      }
      (if Truthy(ms[0].img) then [ms[0].img.value] else []) + rest
  }

  /** Appending a message appends its image, if it has one, to the shared photos. */
  lemma {:induction false} SharedPhotosAppend(ms: seq<Message>, m: Message)
    ensures SharedPhotos(ms + [m]) == SharedPhotos(ms) + (if Truthy(m.img) then [m.img.value] else [])
    decreases |ms|
  {
    if |ms| == 0 {
      assert ms + [m] == [m];
      assert [m][1..] == [];
    } else {
      assert (ms + [m])[0] == ms[0];
      assert (ms + [m])[1..] == ms[1..] + [m];
      SharedPhotosAppend(ms[1..], m);
    }
  }

  /** The pane's photo fetch for the selected chat: the photos of its messages when the chat
      document exists; otherwise the previous list stays. */
  function FetchPhotos(chatId: Option<Id>, db: Db, prev: seq<string>): (r: seq<string>)
    ensures Truthy(chatId) && chatId.value in db.chats ==> r == SharedPhotos(db.chats[chatId.value].messages.GetOr([]))
    ensures !(Truthy(chatId) && chatId.value in db.chats) ==> r == prev
  {
    if Truthy(chatId) && chatId.value in db.chats then SharedPhotos(db.chats[chatId.value].messages.GetOr([]))
    else prev
  }

  /** After an accepted clear, the chat shows no shared photos. */
  lemma ClearRemovesPhotos(chatId: Option<Id>, confirmOpen: bool, db: Db, faults: set<DocRef>, prev: seq<string>)
    requires Truthy(chatId)
    requires ClearChatHistory(chatId, confirmOpen, db, faults).effect.log[0].accepted
    ensures FetchPhotos(chatId, ClearChatHistory(chatId, confirmOpen, db, faults).effect.db, prev) == []
  {
  }

  /** The block button's caption. */
  function BlockLabel(isCurrentUserBlocked: bool, isReceiverBlocked: bool): (r: string)
    ensures isCurrentUserBlocked ==> r == "You are blocked"
    ensures !isCurrentUserBlocked && isReceiverBlocked ==> r == "User blocked"
    ensures !isCurrentUserBlocked && !isReceiverBlocked ==> r == "Block User"
  {
    if isCurrentUserBlocked then "You are blocked"
    else if isReceiverBlocked then "User blocked"
    else "Block User"
  }
}

=== FILE: encryption.dfy ===
/** Key derivation and the symmetric cipher.

    The digest (MD5 rendered in Base64) and the cipher (AES in passphrase mode) are kept
    symbolic: a `Key` is the digest of the text it was derived from, and a `Ciphertext`
    records the plaintext, the key and the random salt that passphrase mode draws on every
    call. Distinct digest inputs therefore give distinct keys, an idealisation of MD5 that
    only `KeyDirection` and `GroupKeyDeterminedByIdAndTime` rely on. */
module Encryption {
  import opened Wrappers
  import opened Timestamps

  /** `MD5(input).toString(Base64)` */
  datatype Key = Digest(input: string)

  /** A stored message text: one produced by `Encrypt`, or any other string. */
  datatype Ciphertext = Sealed(plain: string, key: Key, salt: nat) | Foreign(raw: string)

  function Hash(input: string): Key {
    Digest(input)
  }

  /** `generateKey1(userUID, otherUserUID)` */
  function GenerateKey1(userUid: string, otherUid: string): (k: Key)
    ensures k == GenerateKey2(userUid, otherUid)
  {
    Hash(userUid + otherUid)
  }

  /** `generateKey2(otherUserUID, userUID)`: the same digest, its arguments taken in the given order. */
  function GenerateKey2(otherUid: string, userUid: string): Key {
    Hash(otherUid + userUid)
  }

  /** `generateGroupKey(groupId, createdAt)`: the digest of the group id followed by the
      string coercion of the group's creation timestamp. */
  function GenerateGroupKey(groupId: string, createdAt: Option<Timestamp>): Key {
    Hash(groupId + StampText(createdAt))
  }

  /** `AES.encrypt(text, key).toString()`; `salt` is the random salt of that call. */
  function Encrypt(text: string, key: Key, salt: nat): Ciphertext {
    Sealed(text, key, salt)
  }

  /** `AES.decrypt(c, key).toString(Utf8)`. With any key but the one used to encrypt,
      the decrypted bytes are not the plaintext: the call yields an empty string or throws
      on malformed UTF-8, both written `None` here. */
  function Decrypt(c: Ciphertext, key: Key): Option<string> {
    if c.Sealed? && c.key == key then Some(c.plain) else None
  }

  function EncryptWithKey1(text: string, key1: Key, salt: nat): Ciphertext { Encrypt(text, key1, salt) }
  function EncryptWithKey2(text: string, key2: Key, salt: nat): Ciphertext { Encrypt(text, key2, salt) }
  function EncryptWithGroupKey(text: string, groupKey: Key, salt: nat): Ciphertext { Encrypt(text, groupKey, salt) }
  function DecryptWithKey1(c: Ciphertext, key1: Key): Option<string> { Decrypt(c, key1) }
  function DecryptWithKey2(c: Ciphertext, key2: Key): Option<string> { Decrypt(c, key2) }
  function DecryptWithGroupKey(c: Ciphertext, groupKey: Key): Option<string> { Decrypt(c, groupKey) }

  /** The three encrypt wrappers are one cipher call, and so are the three decrypt wrappers. */
  lemma WrappersAgree(text: string, c: Ciphertext, key: Key, salt: nat)
    ensures EncryptWithKey1(text, key, salt) == EncryptWithKey2(text, key, salt) == EncryptWithGroupKey(text, key, salt)
    ensures DecryptWithKey1(c, key) == DecryptWithKey2(c, key) == DecryptWithGroupKey(c, key)
  {
  }

  /** Decryption undoes encryption under the same key, whatever the salt. */
  lemma RoundTrip(text: string, key: Key, salt: nat)
    ensures Decrypt(Encrypt(text, key, salt), key) == Some(text)
  {
  }

  /** A ciphertext opens under exactly one key: the one it was sealed with. */
  lemma OnlySealingKeyOpens(text: string, key: Key, other: Key, salt: nat)
    ensures Decrypt(Encrypt(text, key, salt), other).Some? <==> other == key
  {
  }

  /** The pairwise key is direction-sensitive: swapping the two ids gives the same key
      only when the two concatenations coincide. */
  lemma KeyDirection(a: string, b: string)
    ensures GenerateKey1(a, b) == GenerateKey1(b, a) <==> a + b == b + a
  {
  }

  /** For example, ids "a" and "b" give different keys in the two directions. */
  lemma KeyDirectionWitness()
    ensures GenerateKey1("a", "b") != GenerateKey1("b", "a")
  {
    assert ("a" + "b")[0] != ("b" + "a")[0];
  }

  /** Two groups share a key exactly when their ids followed by their creation-time texts
      are the same string; in particular the same id and time always give the same key. */
  lemma GroupKeyDeterminedByIdAndTime(id1: string, t1: Option<Timestamp>, id2: string, t2: Option<Timestamp>)
    ensures GenerateGroupKey(id1, t1) == GenerateGroupKey(id2, t2) <==> id1 + StampText(t1) == id2 + StampText(t2)
  {
  }
}

=== FILE: group_chat.dfy ===
/** The group conversation pane: sending a message (upload, encrypt under the group key,
    hand to the group store), decrypting the log for display, and the time and date
    fallbacks. */
module GroupChat {
  import opened Wrappers
  import opened Text
  import opened Timestamps
  import opened Encryption
  import opened Records
  import opened Store
  import GroupStore

  /** The composer's component state. */
  datatype Composer = Composer(text: string, file: Option<FileRef>, isSending: bool)

  datatype SendResult = SendResult(composer: Composer, step: GroupStore.Step)

  /** The send guard: non-blank text, a current user, and a selected group with an id. */
  predicate CanSend(c: Composer, st: GroupStore.GroupState) {
    !Blank(c.text) && st.currentUser.Some? && st.current.Some? && Truthy(st.current.value.id)
  }

  /** The message the pane hands to `addMessage`: the text encrypted under the group key,
      the sender's id and username, and the uploaded file's URL, if any. */
  function Outgoing(c: Composer, st: GroupStore.GroupState, fileUrl: Option<string>, salt: nat, now: int): (m: GroupStore.Outgoing)
    requires CanSend(c, st)
    ensures m.text == EncryptWithGroupKey(c.text, GroupStore.ViewKey(st.current.value), salt)
    ensures m.senderId == st.currentUser.value.id && m.senderName == st.currentUser.value.username
    ensures m.file == fileUrl
  {
    var key := GenerateGroupKey(st.current.value.id.value, st.current.value.createdAt);
    GroupStore.Outgoing(EncryptWithGroupKey(c.text, key, salt), st.currentUser.value.id, st.currentUser.value.username, now, fileUrl)
  }

  /** `handleSendMessage()` as written. The upload runs before the `try`, so a failed upload
      abandons the handler with `isSending` still set and the text and file kept. Once
      `addMessage` is reached it always resolves (it catches its own errors), so the text and
      file are cleared even when nothing was written. */
  function HandleSendMessageAsWritten(c: Composer, st: GroupStore.GroupState, db: Db, faults: set<DocRef>,
                                      upload: Upload, salt: nat, now: int): (r: SendResult)
    ensures !CanSend(c, st) ==> r == SendResult(c, GroupStore.Step(st, Effect(db, [])))
    ensures CanSend(c, st) && c.file.Some? && upload.UploadError? ==>
              r == SendResult(c.(isSending := true), GroupStore.Step(st, Effect(db, [])))
    ensures CanSend(c, st) && !(c.file.Some? && upload.UploadError?) ==>
              && r.composer == Composer("", None, false)
              && var url := if c.file.Some? then Some(upload.url) else None;
                 r.step == GroupStore.AddMessage(st, st.current.value.id.value, Outgoing(c, st, url, salt, now), db, faults, now)
  {
    if !CanSend(c, st) then SendResult(c, GroupStore.Step(st, Effect(db, [])))
    else if c.file.Some? && upload.UploadError? then SendResult(c.(isSending := true), GroupStore.Step(st, Effect(db, [])))
    else
      var url := if c.file.Some? then Some(upload.url) else None;
      var m := Outgoing(c, st, url, salt, now);
      SendResult(Composer("", None, false), GroupStore.AddMessage(st, st.current.value.id.value, m, db, faults, now))
  }

  /** `handleSendMessage()` with the upload inside the `try`: a failed upload is caught, the
      text and file are kept for another attempt, and `isSending` is cleared. */
  function HandleSendMessage(c: Composer, st: GroupStore.GroupState, db: Db, faults: set<DocRef>,
                             upload: Upload, salt: nat, now: int): (r: SendResult)
    ensures !CanSend(c, st) ==> r == SendResult(c, GroupStore.Step(st, Effect(db, [])))
    ensures CanSend(c, st) ==> !r.composer.isSending
    ensures CanSend(c, st) && c.file.Some? && upload.UploadError? ==>
              r == SendResult(c.(isSending := false), GroupStore.Step(st, Effect(db, [])))
    ensures CanSend(c, st) && !(c.file.Some? && upload.UploadError?) ==>
              r == HandleSendMessageAsWritten(c, st, db, faults, upload, salt, now)
  {
    if !CanSend(c, st) then SendResult(c, GroupStore.Step(st, Effect(db, [])))
    else if c.file.Some? && upload.UploadError? then SendResult(c.(isSending := false), GroupStore.Step(st, Effect(db, [])))
    else
      var url := if c.file.Some? then Some(upload.url) else None;
      SendResult(Composer("", None, false), GroupStore.AddMessage(st, st.current.value.id.value, Outgoing(c, st, url, salt, now), db, faults, now))
  }

  /** The send button is disabled while sending or while the text is blank. */
  predicate SendDisabled(c: Composer) {
    c.isSending || Blank(c.text)
  }

  /** As written, after a failed upload the composer stays `isSending` and the button stays
      disabled, so the user cannot retry; with the upload caught the button is usable again. */
  lemma UploadFailureLocksComposer(c: Composer, st: GroupStore.GroupState, db: Db, faults: set<DocRef>,
                                   code: string, salt: nat, now: int)
    requires CanSend(c, st) && c.file.Some?
    ensures SendDisabled(HandleSendMessageAsWritten(c, st, db, faults, UploadError(code), salt, now).composer)
    ensures !SendDisabled(HandleSendMessage(c, st, db, faults, UploadError(code), salt, now).composer)
    ensures HandleSendMessage(c, st, db, faults, UploadError(code), salt, now).composer.text == c.text
  {
  }

  /** A current user without a username loses the message: nothing is written, yet the text
      is cleared as if it had been sent. */
  lemma NamelessSenderLosesMessage(c: Composer, st: GroupStore.GroupState, db: Db, faults: set<DocRef>,
                                   upload: Upload, salt: nat, now: int)
    requires CanSend(c, st) && st.currentUser.value.username.None?
    requires c.file.Some? ==> upload.Url?
    ensures var r := HandleSendMessage(c, st, db, faults, upload, salt, now);
            r.composer.text == "" && r.step == GroupStore.Step(st, Effect(db, []))
  {
  }

  /** `decryptMessage(text)` for the selected group: the group key from its id (coerced to
      "undefined" when missing) and creation time. */
  function DecryptMessage(v: GroupStore.GroupView, text: Ciphertext): (r: Option<string>)
    ensures text.Sealed? && text.key == GroupStore.ViewKey(v) ==> r == Some(text.plain)
    ensures text.Foreign? ==> r.None?
  {
    DecryptWithGroupKey(text, GenerateGroupKey(if v.id.Some? then v.id.value else "undefined", v.createdAt))
  }

  /** Every member who has the group selected, whatever else their view holds, reads back
      the plaintext of a message sent from any view of the same group: the key depends only
      on the group's id and creation time. */
  lemma MembersReadWhatWasSent(c: Composer, st: GroupStore.GroupState, db: Db, faults: set<DocRef>,
                               upload: Upload, salt: nat, now: int, reader: GroupStore.GroupView)
    requires CanSend(c, st) && !(c.file.Some? && upload.UploadError?)
    requires var r := HandleSendMessage(c, st, db, faults, upload, salt, now);
             r.step.effect.log != [] && r.step.effect.log[0].accepted
    requires reader.id == st.current.value.id && reader.createdAt == st.current.value.createdAt
    ensures var r := HandleSendMessage(c, st, db, faults, upload, salt, now);
            var log := GroupStore.Log(GroupStore.Lookup(r.step.effect.db, st.current.value.id.value));
            |log| > 0 && DecryptMessage(reader, log[|log| - 1].text) == Some(c.text)
  {
    var url := if c.file.Some? then Some(upload.url) else None;
    var m := Outgoing(c, st, url, salt, now);
    GroupStore.AddMessageAppends(st, st.current.value.id.value, m, db, faults, now);
  }

  /** A view of the same group id but a different creation time cannot read the message. */
  lemma OtherCreationTimeCannotRead(text: string, v: GroupStore.GroupView, w: GroupStore.GroupView, salt: nat)
    requires v.id.Some? && w.id == v.id && v.createdAt.Some? && w.createdAt.None?
    ensures DecryptMessage(w, EncryptWithGroupKey(text, GroupStore.ViewKey(v), salt)).None?
  {
    StampTextOfPresent(v.createdAt.value);
    var a := v.id.value + StampText(v.createdAt);
    var b := v.id.value + StampText(None);
    assert a[|v.id.value|..] == StampText(v.createdAt);
    assert b[|v.id.value|..] == StampText(None);
  }

  /** What `timeAgo` renders: a fallback, or the distance from a time in milliseconds, whose
      wording belongs to the date library. */
  datatype Age = UnknownTime | Since(millis: int)

  /** `timeAgo(timestamp)`: the fallback for a missing or zero timestamp. */
  function TimeAgo(timestamp: Option<int>): (r: Age)
    ensures r == UnknownTime <==> timestamp.None? || timestamp.value == 0
    ensures r.Since? ==> r.millis == timestamp.value
  {
    if timestamp.None? || timestamp.value == 0 then UnknownTime else Since(timestamp.value)
  }

  /** What `formatDate` renders: the fallback, or the date of a time in milliseconds. */
  datatype DateText = InvalidDate | OnDay(millis: int)

  /** `formatDate(timestamp)`: the fallback unless the timestamp has non-zero `seconds`. */
  function FormatDate(timestamp: Option<Timestamp>): (r: DateText)
    ensures r == InvalidDate <==> timestamp.None? || timestamp.value.seconds == 0
    ensures r.OnDay? ==> r.millis == timestamp.value.seconds * 1000
  {
    if timestamp.None? || timestamp.value.seconds == 0 then InvalidDate else OnDay(timestamp.value.seconds * 1000)
  }

  /** Every message `addMessage` stores renders with a time unless the store's clock reads 0. */
  lemma StoredMessagesHaveAge(m: GroupStore.Outgoing, sender: User, now: int)
    requires Truthy(m.senderName) && now != 0
    ensures TimeAgo(Some(GroupStore.Stored(m, sender, now).createdAt)) == Since(now)
  {
  }
}

=== FILE: group_info.dfy ===
/** The group list panel: the membership test, joining and leaving a listed group, creating
    a group, the name filter and the search box's add mode. */
module GroupInfo {
  import opened Wrappers
  import opened Text
  import opened Timestamps
  import opened Records
  import opened Store
  import Arrays

  /** The panel's own record of the signed-in user, built from the `users` document. */
  datatype Member = Member(id: Id, username: Option<string>, avatar: Option<string>)

  /** An element of the panel's group list: a group document with its id, as last delivered
      by the collection listener. */
  datatype Listed = Listed(id: Id, data: Group)

  /** `isUserInGroup(group)`: the listed group has members and the user's username is one. */
  predicate IsUserInGroup(g: Listed, cur: Option<Member>) {
    g.data.members.Some? && cur.Some? && cur.value.username.Some? && cur.value.username.value in g.data.members.value
  }

  datatype InfoResult = InfoResult(effect: Effect, toast: Option<Toast>)

  const GroupError := "Error with group: "
  const Deleted := "Group has been deleted as it no longer has any members."
  const Left := "You have successfully left the group!"
  const Joined := "You have successfully joined the group!"

  /** `handleJoinLeaveGroup(group)`. Whether the user leaves or joins is decided from the
      listed copy of the group; the arrays edited are those of the document fetched now.
      Leaving removes every occurrence of the username and the id; if no member remains the
      group is deleted and nothing else written. Joining appends both. Any error, including a
      missing array or an undefined username, ends in an error notification. */
  function HandleJoinLeaveGroup(listed: Listed, cur: Option<Member>, db: Db, faults: set<DocRef>): (r: InfoResult)
    ensures cur.None? ==> r == InfoResult(Effect(db, []), None)
    ensures cur.Some? && listed.id != "" && listed.id !in db.groups ==> r == InfoResult(Effect(db, []), None)
    ensures r.effect.db.users == db.users && r.effect.db.userchats == db.userchats && r.effect.db.chats == db.chats
    ensures forall id :: id in db.groups && id != listed.id ==> id in r.effect.db.groups && r.effect.db.groups[id] == db.groups[id]
    ensures |r.effect.log| <= 1
    ensures r.effect.log != [] && !r.effect.log[0].accepted ==> r == InfoResult(Effect(db, r.effect.log), Some(Reported(GroupError)))
    ensures r.effect.log != [] && r.effect.log[0].accepted ==> r.toast.Some? && r.toast.value.Success?
    ensures r.effect.log != [] && r.effect.log[0].write.DeleteDoc? ==> IsUserInGroup(listed, cur)
    ensures r.toast == Some(Success(Joined)) ==> !IsUserInGroup(listed, cur)
    ensures IsUserInGroup(listed, cur) && listed.id != "" && listed.id in db.groups
            && db.groups[listed.id].members.Some? && db.groups[listed.id].memberIds.Some? ==>
              var g := db.groups[listed.id];
              var members := Arrays.Without(g.members.value, cur.value.username.value);
              var memberIds := Arrays.Without(g.memberIds.value, cur.value.id);
              && (members == [] ==>
                    && r.effect.log == [Try(db, faults, DeleteDoc(GroupRef(listed.id)))]
                    && (r.effect.log[0].accepted ==>
                          r == InfoResult(Effect(db.(groups := db.groups - {listed.id}), r.effect.log), Some(Success(Deleted)))))
              && (members != [] ==>
                    && r.effect.log == [Try(db, faults, UpdateDoc(GroupRef(listed.id)))]
                    && (r.effect.log[0].accepted ==>
                          && r.toast == Some(Success(Left))
                          && r.effect.db.groups == db.groups[listed.id := g.(members := Some(members), memberIds := Some(memberIds))]))
    ensures !IsUserInGroup(listed, cur) && cur.Some? && cur.value.username.Some? && listed.id != "" && listed.id in db.groups
            && db.groups[listed.id].members.Some? && db.groups[listed.id].memberIds.Some? ==>
              var g := db.groups[listed.id];
              && r.effect.log == [Try(db, faults, UpdateDoc(GroupRef(listed.id)))]
              && (r.effect.log[0].accepted ==>
                    && r.toast == Some(Success(Joined))
                    && r.effect.db.groups == db.groups[listed.id := g.(members := Some(g.members.value + [cur.value.username.value]),
                                                                       memberIds := Some(g.memberIds.value + [cur.value.id]))])
  {
    if cur.None? then InfoResult(Effect(db, []), None)
    else if listed.id == "" then InfoResult(Effect(db, []), Some(Reported(GroupError)))
    else if listed.id !in db.groups then InfoResult(Effect(db, []), None)
    else
      var u := cur.value;
      var g := db.groups[listed.id];
      if g.members.None? || g.memberIds.None? then InfoResult(Effect(db, []), Some(Reported(GroupError)))
      else if IsUserInGroup(listed, cur) then
        var members := Arrays.Without(g.members.value, u.username.value);
        var memberIds := Arrays.Without(g.memberIds.value, u.id);
        if |members| == 0 then
          var d := Try(db, faults, DeleteDoc(GroupRef(listed.id)));
          if !d.accepted then InfoResult(Effect(db, [d]), Some(Reported(GroupError)))
          else InfoResult(Effect(db.(groups := db.groups - {listed.id}), [d]), Some(Success(Deleted)))
        else
          var a := Try(db, faults, UpdateDoc(GroupRef(listed.id)));
          if !a.accepted then InfoResult(Effect(db, [a]), Some(Reported(GroupError)))
          else InfoResult(Effect(db.(groups := db.groups[listed.id := g.(members := Some(members), memberIds := Some(memberIds))]), [a]),
                          Some(Success(Left)))
      else if u.username.None? then InfoResult(Effect(db, []), Some(Reported(GroupError)))
      else
        var a := Try(db, faults, UpdateDoc(GroupRef(listed.id)));
        if !a.accepted then InfoResult(Effect(db, [a]), Some(Reported(GroupError)))
        else
          InfoResult(Effect(db.(groups := db.groups[listed.id := g.(members := Some(g.members.value + [u.username.value]),
                                                                    memberIds := Some(g.memberIds.value + [u.id]))]), [a]),
                     Some(Success(Joined)))
  }

  /** A join appends the username and the id at the end of the fetched arrays: each grows by
      exactly one and keeps its earlier elements in place. */
  lemma JoinAppends(listed: Listed, cur: Member, db: Db, faults: set<DocRef>)
    requires HandleJoinLeaveGroup(listed, Some(cur), db, faults).toast == Some(Success(Joined))
    ensures var g := db.groups[listed.id];
            var g2 := HandleJoinLeaveGroup(listed, Some(cur), db, faults).effect.db.groups[listed.id];
            && g.members.Some? && g.memberIds.Some? && cur.username.Some?
            && g2.members == Some(g.members.value + [cur.username.value])
            && g2.memberIds == Some(g.memberIds.value + [cur.id])
            && g2.(members := g.members, memberIds := g.memberIds) == g
  {
  }

  /** A leave that keeps the group removes the user's username and id entirely and keeps
      every other member. */
  lemma LeaveRemovesAll(listed: Listed, cur: Member, db: Db, faults: set<DocRef>)
    requires HandleJoinLeaveGroup(listed, Some(cur), db, faults).toast == Some(Success(Left))
    ensures var g := db.groups[listed.id];
            var g2 := HandleJoinLeaveGroup(listed, Some(cur), db, faults).effect.db.groups[listed.id];
            && cur.username.Some? && g2.members.Some? && g2.memberIds.Some?
            && cur.username.value !in g2.members.value && cur.id !in g2.memberIds.value
            && (forall x :: x in g2.members.value <==> x in g.members.value && x != cur.username.value)
            && (forall x :: x in g2.memberIds.value <==> x in g.memberIds.value && x != cur.id)
  {
  }

  /** Joining and then leaving, each from an up-to-date list, restores a non-empty group the
      user was not in. */
  lemma JoinThenLeaveRestores(listed: Listed, cur: Member, db: Db, faults: set<DocRef>)
    requires listed.id in db.groups && listed.data == db.groups[listed.id]
    requires HandleJoinLeaveGroup(listed, Some(cur), db, faults).toast == Some(Success(Joined))
    requires cur.id !in db.groups[listed.id].memberIds.value && db.groups[listed.id].members.value != []
    requires GroupRef(listed.id) !in faults
    ensures var db2 := HandleJoinLeaveGroup(listed, Some(cur), db, faults).effect.db;
            var db3 := HandleJoinLeaveGroup(Listed(listed.id, db2.groups[listed.id]), Some(cur), db2, faults).effect.db;
            && listed.id in db3.groups
            && db3.groups[listed.id] == db.groups[listed.id]
  {
    var g := db.groups[listed.id];
    var u := cur.username.value;
    var db2 := HandleJoinLeaveGroup(listed, Some(cur), db, faults).effect.db;
    var listed2 := Listed(listed.id, db2.groups[listed.id]);
    assert IsUserInGroup(listed2, Some(cur));
    Arrays.WithoutAppended(g.members.value, u);
    Arrays.WithoutAppended(g.memberIds.value, cur.id);
    assert Arrays.Without(g.members.value + [u], u) == g.members.value;
    assert |Arrays.Without(g.members.value + [u], u)| != 0;
  }

  /** The decision uses the listed copy: when the listed copy is behind and the user already
      joined elsewhere, "joining" again lists the username twice. */
  lemma StaleListDoubleJoins(listed: Listed, cur: Member, db: Db, faults: set<DocRef>)
    requires listed.id != "" && listed.id in db.groups && GroupRef(listed.id) !in faults
    requires cur.username.Some? && !IsUserInGroup(listed, Some(cur))
    requires var g := db.groups[listed.id]; g.members.Some? && g.memberIds.Some? && cur.username.value in g.members.value
    ensures var r := HandleJoinLeaveGroup(listed, Some(cur), db, faults);
            var ms := r.effect.db.groups[listed.id].members.value;
            && r.toast == Some(Success(Joined))
            && exists i, j :: 0 <= i < j < |ms| && ms[i] == cur.username.value && ms[j] == cur.username.value
  {
    var r := HandleJoinLeaveGroup(listed, Some(cur), db, faults);
    var before := db.groups[listed.id].members.value;
    var ms := r.effect.db.groups[listed.id].members.value;
    var i :| 0 <= i < |before| && before[i] == cur.username.value;
    assert ms[i] == cur.username.value && ms[|before|] == cur.username.value;
  }

  datatype CreateResult = CreateResult(input: string, addMode: bool, effect: Effect, toast: Option<Toast>)

  const CreateError := "Error creating group: "
  const Created := "Group created successfully!"

  /** The group document `handleCreateGroup` writes. */
  function NewGroup(name: string, createdAt: Timestamp, creatorId: Id, creator: string): Group {
    Group(Some(name), Some(createdAt), Some(creatorId), Some(creator), Some([creator]), Some([creatorId]), None, None)
  }

  /** `handleCreateGroup()` with the search input as the name; `newId` is the generated id
      and `createdAt` the server timestamp. The name is not checked. Without a current user,
      or with one without a username (the write would carry an undefined field), nothing is
      written. On success the input is cleared; `addMode` is left as it was. */
  function HandleCreateGroup(input: string, addMode: bool, cur: Option<Member>, newId: Id, createdAt: Timestamp,
                             db: Db, faults: set<DocRef>): (r: CreateResult)
    ensures r.addMode == addMode
    ensures r.effect.db.users == db.users && r.effect.db.userchats == db.userchats && r.effect.db.chats == db.chats
    ensures cur.None? || cur.value.username.None? ==> r == CreateResult(input, addMode, Effect(db, []), Some(Reported(CreateError)))
    ensures cur.Some? && cur.value.username.Some? ==>
              && |r.effect.log| == 1 && r.effect.log[0].write == SetDoc(GroupRef(newId))
              && (r.effect.log[0].accepted ==>
                    && r.effect.db.groups == db.groups[newId := NewGroup(input, createdAt, cur.value.id, cur.value.username.value)]
                    && r.input == "" && r.toast == Some(Success(Created)))
              && (!r.effect.log[0].accepted ==> r == CreateResult(input, addMode, Effect(db, r.effect.log), Some(Reported(CreateError))))
  {
    if cur.None? || cur.value.username.None? then CreateResult(input, addMode, Effect(db, []), Some(Reported(CreateError)))
    else
      var a := Try(db, faults, SetDoc(GroupRef(newId)));
      if !a.accepted then CreateResult(input, addMode, Effect(db, [a]), Some(Reported(CreateError)))
      else
        var g := NewGroup(input, createdAt, cur.value.id, cur.value.username.value);
        CreateResult("", addMode, Effect(db.(groups := db.groups[newId := g]), [a]), Some(Success(Created)))
  }

  /** The creator of a new group is its only member, under both arrays, and the panel
      counts them as in it. */
  lemma CreatorIsSoleMember(input: string, addMode: bool, cur: Member, newId: Id, createdAt: Timestamp, db: Db, faults: set<DocRef>)
    requires HandleCreateGroup(input, addMode, Some(cur), newId, createdAt, db, faults).toast == Some(Success(Created))
    ensures var g := HandleCreateGroup(input, addMode, Some(cur), newId, createdAt, db, faults).effect.db.groups[newId];
            && IsUserInGroup(Listed(newId, g), Some(cur))
            && g.members == Some([cur.username.value]) && g.memberIds == Some([cur.id])
            && g.groupname == Some(input)
  {
  }

  /** `groups.filter(...)`: groups with a truthy name containing the input, both lower-cased. */
  predicate NameMatches(g: Listed, input: string) {
    Truthy(g.data.groupname) && Includes(Lower(g.data.groupname.value), Lower(input))
  }

  function FilterGroups(groups: seq<Listed>, input: string): (r: seq<Listed>)
    ensures |r| <= |groups|
    ensures forall g :: g in r <==> g in groups && NameMatches(g, input)
    decreases |groups|
  {
    if |groups| == 0 then []
    else (if NameMatches(groups[0], input) then [groups[0]] else []) + FilterGroups(groups[1..], input)
  }

  /** Filtering a concatenation filters each part, so the shown groups keep the list's order. */
  lemma {:induction false} FilterGroupsAppend(a: seq<Listed>, b: seq<Listed>, input: string)
    ensures FilterGroups(a + b, input) == FilterGroups(a, input) + FilterGroups(b, input)
    decreases |a|
  {
    if |a| > 0 {
      assert (a + b)[0] == a[0];
      assert (a + b)[1..] == a[1..] + b;
      FilterGroupsAppend(a[1..], b, input);
    } else {
      assert a + b == b;
    }
  }

  /** A single group is shown exactly when its name matches. */
  lemma FilterGroupsSingle(g: Listed, input: string)
    ensures FilterGroups([g], input) == (if NameMatches(g, input) then [g] else [])
  {
    assert [g][1..] == [];
  }

  /** A group created with an empty name is never shown by the filter, whatever the input,
      so its members cannot select it or leave it from this panel. */
  lemma EmptyNamedGroupIsNeverListed(addMode: bool, cur: Member, newId: Id, createdAt: Timestamp, db: Db,
                                     faults: set<DocRef>, groups: seq<Listed>, input: string)
    requires HandleCreateGroup("", addMode, Some(cur), newId, createdAt, db, faults).toast == Some(Success(Created))
    ensures var g := HandleCreateGroup("", addMode, Some(cur), newId, createdAt, db, faults).effect.db.groups[newId];
            Listed(newId, g) !in FilterGroups(groups, input)
  {
  }

  /** With an empty search every named group is shown. */
  lemma FilterGroupsEmptyInput(groups: seq<Listed>)
    ensures forall g :: g in FilterGroups(groups, "") <==> g in groups && Truthy(g.data.groupname)
  {
    forall g | g in groups && Truthy(g.data.groupname)
      ensures NameMatches(g, "")
    {
      EmptyIsIncluded(Lower(g.data.groupname.value));
    }
  }

  datatype Search = Search(input: string, addMode: bool)

  /** `handleSearchInput(e)`: the input follows the box and add mode is on exactly when it is
      non-empty. */
  function HandleSearchInput(value: string): (r: Search)
    ensures r.input == value
    ensures r.addMode <==> value != ""
  {
    Search(value, value != "")
  }

  /** A successful create clears the input but leaves add mode on, so the panel is left in a
      state that typing never produces. */
  lemma CreateLeavesAddModeOn(input: string, cur: Member, newId: Id, createdAt: Timestamp, db: Db, faults: set<DocRef>)
    requires input != ""
    requires HandleCreateGroup(input, true, Some(cur), newId, createdAt, db, faults).toast == Some(Success(Created))
    ensures var r := HandleCreateGroup(input, true, Some(cur), newId, createdAt, db, faults);
            && HandleSearchInput(input) == Search(input, true)
            && r.input == "" && r.addMode
            && HandleSearchInput(r.input) != Search(r.input, r.addMode)
  {
  }
}

=== FILE: group_store.dfy ===
/** The group-chat store: the selected group's view, appending a message to a group's log,
    the live message feed, membership changes, and the group avatar.

    Every action catches its own errors, so an action that fails part-way leaves the writes
    it already made and changes no local state. */
module GroupStore {
  import opened Wrappers
  import opened Text
  import opened Timestamps
  import opened Encryption
  import opened Records
  import opened Store
  import Arrays

  /** `currentGroupChat`. Every field is optional because a membership change made with no
      group selected stores a view holding only `members` and `memberIds`. */
  datatype GroupView = GroupView(
    id: Option<Id>,
    groupName: Option<string>,
    creator: Option<string>,
    createdAt: Option<Timestamp>,
    groupAvatar: Option<string>,
    members: Option<seq<string>>,
    memberIds: Option<seq<Id>>,
    messages: Option<seq<GroupMessage>>)

  const NoView := GroupView(None, None, None, None, None, None, None, None)

  /** The store's state; `currentUser` is the user store's record, copied on mount. */
  datatype GroupState = GroupState(current: Option<GroupView>, currentUser: Option<User>, isInGroupChat: bool)

  /** What an action leaves behind: the store's state and the document store. */
  datatype Step = Step(state: GroupState, effect: Effect)

  const UnknownCreator := "Unknown"
  const DefaultGroupAvatar := "./avatar.png"
  const DefaultSenderAvatar := "./default-avatar.png"
  const UnknownSender := "Unknown User"

  /** The username is one of the listed members. */
  predicate IsMember(members: seq<string>, username: Option<string>) {
    username.Some? && username.value in members
  }

  /** The view `changeGroupChat` builds from a group document. */
  function OpenView(groupId: Id, g: Group): (v: GroupView)
    ensures v.id == Some(groupId) && v.groupName == g.groupname && v.createdAt == g.createdAt
    ensures v.members == g.members && v.memberIds == g.memberIds && v.messages == Some(Log(Some(g)))
    ensures Truthy(g.creator) ==> v.creator == g.creator
    ensures !Truthy(g.creator) ==> v.creator == Some(UnknownCreator)
    ensures Truthy(g.groupAvatar) ==> v.groupAvatar == g.groupAvatar
    ensures !Truthy(g.groupAvatar) ==> v.groupAvatar == Some(DefaultGroupAvatar)
    ensures ViewKey(v) == GenerateGroupKey(groupId, g.createdAt)
  {
    GroupView(Some(groupId), g.groupname, Some(OrElse(g.creator, UnknownCreator)), g.createdAt,
              Some(OrElse(g.groupAvatar, DefaultGroupAvatar)), g.members, g.memberIds, Some(g.messages.GetOr([])))
  }

  /** `changeGroupChat(groupId)`. Nothing changes for a falsy id, a missing document, a
      document without `members`, or (the username lookup throws) no current user. Otherwise
      the group is selected, and the user is in it exactly when their username is a member. */
  function ChangeGroupChat(st: GroupState, groupId: Option<Id>, db: Db): (r: GroupState)
    ensures !Truthy(groupId) || groupId.value !in db.groups || db.groups[groupId.value].members.None? || st.currentUser.None? ==>
              r == st
    ensures Truthy(groupId) && groupId.value in db.groups && db.groups[groupId.value].members.Some? && st.currentUser.Some? ==>
              var g := db.groups[groupId.value];
              && r.currentUser == st.currentUser
              && r.current.Some? && r.current.value.id == groupId
              && r.current.value.members == g.members && r.current.value.memberIds == g.memberIds
              && r.current.value.groupName == g.groupname && r.current.value.createdAt == g.createdAt
              && r.current.value.creator == Some(if Truthy(g.creator) then g.creator.value else UnknownCreator)
              && r.current.value.groupAvatar == Some(if Truthy(g.groupAvatar) then g.groupAvatar.value else DefaultGroupAvatar)
              && r.current.value.messages == Some(g.messages.GetOr([]))
              && (r.isInGroupChat <==> IsMember(g.members.value, st.currentUser.value.username))
  {
    if !Truthy(groupId) || groupId.value !in db.groups then st
    else
      var g := db.groups[groupId.value];
      if g.members.None? || st.currentUser.None? then st
      else GroupState(Some(OpenView(groupId.value, g)), st.currentUser, IsMember(g.members.value, st.currentUser.value.username))
  }

  /** The message handed to `addMessage`. */
  datatype Outgoing = Outgoing(text: Ciphertext, senderId: Id, senderName: Option<string>, createdAt: int, file: Option<string>)

  /** The message `addMessage` stores: the sender's avatar and username from the sender's
      document with defaults, the store's own clock, and a file only when truthy. */
  function Stored(m: Outgoing, sender: User, now: int): (r: GroupMessage)
    requires Truthy(m.senderName)
    ensures r.text == m.text && r.senderId == m.senderId && r.senderName == m.senderName.value
    ensures r.createdAt == now
    ensures Truthy(sender.avatar) ==> r.senderAvatar == sender.avatar.value
    ensures !Truthy(sender.avatar) ==> r.senderAvatar == DefaultSenderAvatar
    ensures Truthy(sender.username) ==> r.senderUsername == sender.username.value
    ensures !Truthy(sender.username) ==> r.senderUsername == UnknownSender
    ensures Truthy(m.file) ==> r.file == m.file
    ensures !Truthy(m.file) ==> r.file.None?
  {
    GroupMessage(m.text, m.senderId, m.senderName.value, OrElse(sender.avatar, DefaultSenderAvatar),
                 OrElse(sender.username, UnknownSender), now, if Truthy(m.file) then m.file else None)
  }

  /** The messages of a group document, `[]` when the document or the field is missing. */
  function Log(g: Option<Group>): seq<GroupMessage> {
    if g.Some? then g.value.messages.GetOr([]) else []
  }

  function Lookup(db: Db, groupId: Id): Option<Group> {
    if groupId in db.groups then Some(db.groups[groupId]) else None
  }

  /** `addMessage(groupId, message)`. Nothing without a sender id and a truthy sender name,
      or when the sender's document is missing. Otherwise the group's whole log plus the new
      message is written back, and on success the selected view, whichever group it shows,
      takes that log. */
  function AddMessage(st: GroupState, groupId: Id, m: Outgoing, db: Db, faults: set<DocRef>, now: int): (r: Step)
    ensures groupId == "" || m.senderId == "" || !Truthy(m.senderName) || m.senderId !in db.users ==> r == Step(st, Effect(db, []))
    ensures r.effect.db.users == db.users && r.effect.db.userchats == db.userchats && r.effect.db.chats == db.chats
    ensures forall id :: id in db.groups && id != groupId ==> id in r.effect.db.groups && r.effect.db.groups[id] == db.groups[id]
    ensures |r.effect.log| <= 1
    ensures r.effect.log != [] ==> r.effect.log[0].write == UpdateDoc(GroupRef(groupId))
    ensures (r.effect.log == [] || !r.effect.log[0].accepted) ==> r.effect.db == db && r.state == st
    ensures r.effect.log != [] && r.effect.log[0].accepted ==>
              && Truthy(m.senderName) && m.senderId in db.users && groupId in db.groups
              && var updated := Log(Lookup(db, groupId)) + [Stored(m, db.users[m.senderId], now)];
              && r.effect.db.groups == db.groups[groupId := db.groups[groupId].(messages := Some(updated))]
              && r.state.currentUser == st.currentUser && r.state.isInGroupChat == st.isInGroupChat
              && (st.current.None? ==> r.state.current.None?)
              && (st.current.Some? ==> r.state.current == Some(st.current.value.(messages := Some(updated))))
  {
    if groupId == "" || m.senderId == "" || !Truthy(m.senderName) || m.senderId !in db.users then Step(st, Effect(db, []))
    else
      var msg := Stored(m, db.users[m.senderId], now);
      var updated := Log(Lookup(db, groupId)) + [msg];
      var a := Try(db, faults, UpdateDoc(GroupRef(groupId)));
      if !a.accepted then Step(st, Effect(db, [a]))
      else
        var db1 := db.(groups := db.groups[groupId := db.groups[groupId].(messages := Some(updated))]);
        if st.current.None? then Step(st, Effect(db1, [a]))
        else Step(st.(current := Some(st.current.value.(messages := Some(updated)))), Effect(db1, [a]))
  }

  /** The group's log is append-only: an accepted `addMessage` keeps every earlier message in
      place and adds exactly one, stamped with the store's clock, at the end. */
  lemma AddMessageAppends(st: GroupState, groupId: Id, m: Outgoing, db: Db, faults: set<DocRef>, now: int)
    requires var r := AddMessage(st, groupId, m, db, faults, now); r.effect.log != [] && r.effect.log[0].accepted
    ensures var r := AddMessage(st, groupId, m, db, faults, now);
            var before := Log(Lookup(db, groupId));
            var after := Log(Lookup(r.effect.db, groupId));
            && |after| == |before| + 1
            && after[..|before|] == before
            && after[|before|].createdAt == now && after[|before|].text == m.text && after[|before|].senderId == m.senderId
  {
    var r := AddMessage(st, groupId, m, db, faults, now);
    var before := Log(Lookup(db, groupId));
    assert Log(Lookup(r.effect.db, groupId)) == before + [Stored(m, db.users[m.senderId], now)];
  }

  /** The selected view takes the log of the group written to even when it shows a different
      group. */
  lemma AddMessageOverwritesOtherView(st: GroupState, groupId: Id, m: Outgoing, db: Db, faults: set<DocRef>, now: int)
    requires st.current.Some? && st.current.value.id != Some(groupId)
    requires groupId != "" && m.senderId != "" && Truthy(m.senderName) && m.senderId in db.users
    requires groupId in db.groups && GroupRef(groupId) !in faults
    ensures var r := AddMessage(st, groupId, m, db, faults, now);
            && r.state.current.value.id == st.current.value.id
            && r.state.current.value.messages == Some(Log(Lookup(r.effect.db, groupId)))
  {
  }

  /** `updateMessages(newMessages)`: replaces the selected view's messages wholesale. */
  function UpdateMessages(st: GroupState, ms: seq<GroupMessage>): (r: GroupState)
    ensures st.current.None? ==> r == st
    ensures st.current.Some? ==> r.current.Some? && r.current.value.messages == Some(ms)
    ensures st.current.Some? ==> r.current.value.(messages := st.current.value.messages) == st.current.value
    ensures r.currentUser == st.currentUser && r.isInGroupChat == st.isInGroupChat
  {
    if st.current.None? then st else st.(current := Some(st.current.value.(messages := Some(ms))))
  }

  /** `listenForMessages(groupId, updateMessages)`: a snapshot of the group document delivers
      its messages, `[]` when the document or the field is missing, to `updateMessages`. */
  function OnGroupSnapshot(st: GroupState, db: Db, groupId: Id): (r: GroupState)
    ensures st.current.None? ==> r == st
    ensures st.current.Some? ==> r.current.Some? && r.current.value.messages == Some(Log(Lookup(db, groupId)))
    ensures st.current.Some? && groupId !in db.groups ==> r.current.value.messages == Some([])
  {
    UpdateMessages(st, Log(Lookup(db, groupId)))
  }

  /** After an accepted `addMessage` to the selected group, the feed's next snapshot agrees
      with what `addMessage` already stored locally. */
  lemma FeedAgreesWithAddMessage(st: GroupState, groupId: Id, m: Outgoing, db: Db, faults: set<DocRef>, now: int)
    requires st.current.Some?
    requires var r := AddMessage(st, groupId, m, db, faults, now); r.effect.log != [] && r.effect.log[0].accepted
    ensures var r := AddMessage(st, groupId, m, db, faults, now);
            OnGroupSnapshot(r.state, r.effect.db, groupId) == r.state
  {
    var r := AddMessage(st, groupId, m, db, faults, now);
    assert r.state.current.value.messages == Some(Log(Lookup(r.effect.db, groupId)));
  }

  /** The member arrays a membership change computes from the stored group for `user`:
      join appends the username and id; leave removes every occurrence of each. `None` when
      the computation throws (an array is missing) or the write would carry an undefined
      username. */
  function Membership(g: Group, user: User, isJoining: bool): (r: Option<(seq<string>, seq<Id>)>)
    ensures g.members.None? || g.memberIds.None? ==> r.None?
    ensures isJoining && g.members.Some? && g.memberIds.Some? ==>
              (r.Some? <==> user.username.Some?)
              && (r.Some? ==> r.value == (g.members.value + [user.username.value], g.memberIds.value + [user.id]))
    ensures !isJoining && g.members.Some? && g.memberIds.Some? ==>
              && r.Some?
              && (forall x :: x in r.value.0 <==> x in g.members.value && Some(x) != user.username)
              && (forall x :: x in r.value.1 <==> x in g.memberIds.value && x != user.id)
  {
    if g.members.None? || g.memberIds.None? then None
    else if isJoining then
      if user.username.None? then None
      else Some((g.members.value + [user.username.value], g.memberIds.value + [user.id]))
    else
      var members := if user.username.Some? then Arrays.Without(g.members.value, user.username.value) else g.members.value;
      Some((members, Arrays.Without(g.memberIds.value, user.id)))
  }

  /** The local view after a membership change: the selected view, or an otherwise empty one,
      with the new arrays. `isInGroupChat` is not touched. */
  function WithMembers(st: GroupState, members: seq<string>, memberIds: seq<Id>): GroupState {
    st.(current := Some(st.current.GetOr(NoView).(members := Some(members), memberIds := Some(memberIds))))
  }

  /** `handleGroupMembership(groupId, isJoining)` as written. When leaving empties `members`
      the document is deleted and then updated anyway; the update of the deleted document
      fails, so the local view is never told. */
  function HandleGroupMembershipAsWritten(st: GroupState, groupId: Id, isJoining: bool, db: Db, faults: set<DocRef>): (r: Step)
    ensures groupId == "" || groupId !in db.groups || st.currentUser.None? ==> r == Step(st, Effect(db, []))
    ensures r.effect.db.users == db.users && r.effect.db.userchats == db.userchats && r.effect.db.chats == db.chats
    ensures forall id :: id in db.groups && id != groupId ==> id in r.effect.db.groups && r.effect.db.groups[id] == db.groups[id]
    ensures r.state.isInGroupChat == st.isInGroupChat && r.state.currentUser == st.currentUser
    ensures |r.effect.log| <= 2
    ensures r.state != st ==>
              (|r.effect.log| >= 1 && r.effect.log[|r.effect.log| - 1].accepted
               && r.effect.log[|r.effect.log| - 1].write == UpdateDoc(GroupRef(groupId)))
    ensures groupId != "" && groupId in db.groups && st.currentUser.Some? ==>
              var m := Membership(db.groups[groupId], st.currentUser.value, isJoining);
              && (m.None? ==> r == Step(st, Effect(db, [])))
              && (m.Some? ==> |r.effect.log| >= 1)
              && (m.Some? && r.effect.log[|r.effect.log| - 1] == Attempt(UpdateDoc(GroupRef(groupId)), true) ==>
                    && r.state == WithMembers(st, m.value.0, m.value.1)
                    && r.effect.db.groups == db.groups[groupId := db.groups[groupId].(members := Some(m.value.0), memberIds := Some(m.value.1))])
  {
    if groupId == "" || groupId !in db.groups || st.currentUser.None? then Step(st, Effect(db, []))
    else
      var g := db.groups[groupId];
      match Membership(g, st.currentUser.value, isJoining)
      case None => Step(st, Effect(db, []))
      case Some(arrays) =>
        var (members, memberIds) := arrays;
        var (db1, log1) :=
          if !isJoining && |members| == 0 then
            var d := Try(db, faults, DeleteDoc(GroupRef(groupId)));
            if d.accepted then (db.(groups := db.groups - {groupId}), [d]) else (db, [d])
          else (db, []);
        if log1 != [] && !log1[0].accepted then Step(st, Effect(db1, log1))
        else
          var u := Try(db1, faults, UpdateDoc(GroupRef(groupId)));
          if !u.accepted then Step(st, Effect(db1, log1 + [u]))
          else
            var g1 := db1.groups[groupId];
            Step(WithMembers(st, members, memberIds),
                 Effect(db1.(groups := db1.groups[groupId := g1.(members := Some(members), memberIds := Some(memberIds))]), log1 + [u]))
  }

  /** As written, the last member leaving deletes the group, the following update is
      rejected as not found, and the local view still lists the member. */
  lemma LastLeaveAsWrittenFailsUpdate(st: GroupState, groupId: Id, db: Db, faults: set<DocRef>)
    requires groupId != "" && groupId in db.groups && GroupRef(groupId) !in faults
    requires st.currentUser.Some? && st.currentUser.value.username.Some?
    requires db.groups[groupId].members == Some([st.currentUser.value.username.value])
    requires db.groups[groupId].memberIds.Some?
    ensures var r := HandleGroupMembershipAsWritten(st, groupId, false, db, faults);
            && groupId !in r.effect.db.groups
            && r.effect.log == [Attempt(DeleteDoc(GroupRef(groupId)), true), Attempt(UpdateDoc(GroupRef(groupId)), false)]
            && r.state == st
  {
    var u := st.currentUser.value.username.value;
    assert Arrays.Without([u], u) == [];
  }

  /** `handleGroupMembership` with the update skipped once the group is deleted: the last
      member leaving deletes the group and the local view then lists nobody. */
  function HandleGroupMembership(st: GroupState, groupId: Id, isJoining: bool, db: Db, faults: set<DocRef>): (r: Step)
    ensures groupId == "" || groupId !in db.groups || st.currentUser.None? ==> r == Step(st, Effect(db, []))
    ensures r.effect.db.users == db.users && r.effect.db.userchats == db.userchats && r.effect.db.chats == db.chats
    ensures forall id :: id in db.groups && id != groupId ==> id in r.effect.db.groups && r.effect.db.groups[id] == db.groups[id]
    ensures r.state.isInGroupChat == st.isInGroupChat && r.state.currentUser == st.currentUser
    ensures |r.effect.log| <= 1
    ensures r.state != st ==> |r.effect.log| == 1 && r.effect.log[0].accepted
    ensures r.effect.log != [] && r.effect.log[0].accepted ==>
              && r.state.current.Some? && r.state.current.value.members.Some?
              && (groupId in r.effect.db.groups ==> r.effect.db.groups[groupId].members == r.state.current.value.members
                                                    && r.effect.db.groups[groupId].memberIds == r.state.current.value.memberIds)
              && (groupId !in r.effect.db.groups ==> r.state.current.value.members == Some([]))
    ensures groupId != "" && groupId in db.groups && st.currentUser.Some? ==>
              var g := db.groups[groupId];
              var m := Membership(g, st.currentUser.value, isJoining);
              && (m.None? ==> r == Step(st, Effect(db, [])))
              && (m.Some? && !isJoining && m.value.0 == [] ==>
                    && r.effect.log == [Try(db, faults, DeleteDoc(GroupRef(groupId)))]
                    && (r.effect.log[0].accepted ==>
                          r == Step(WithMembers(st, [], m.value.1), Effect(db.(groups := db.groups - {groupId}), r.effect.log))))
              && (m.Some? && (isJoining || m.value.0 != []) ==>
                    && r.effect.log == [Try(db, faults, UpdateDoc(GroupRef(groupId)))]
                    && (r.effect.log[0].accepted ==>
                          && r.state == WithMembers(st, m.value.0, m.value.1)
                          && r.effect.db.groups == db.groups[groupId := g.(members := Some(m.value.0), memberIds := Some(m.value.1))]))
              && (m.Some? && !r.effect.log[0].accepted ==> r == Step(st, Effect(db, r.effect.log)))
  {
    if groupId == "" || groupId !in db.groups || st.currentUser.None? then Step(st, Effect(db, []))
    else
      var g := db.groups[groupId];
      match Membership(g, st.currentUser.value, isJoining)
      case None => Step(st, Effect(db, []))
      case Some(arrays) =>
        var (members, memberIds) := arrays;
        if !isJoining && |members| == 0 then
          var d := Try(db, faults, DeleteDoc(GroupRef(groupId)));
          if !d.accepted then Step(st, Effect(db, [d]))
          else Step(WithMembers(st, members, memberIds), Effect(db.(groups := db.groups - {groupId}), [d]))
        else
          var u := Try(db, faults, UpdateDoc(GroupRef(groupId)));
          if !u.accepted then Step(st, Effect(db, [u]))
          else Step(WithMembers(st, members, memberIds),
                    Effect(db.(groups := db.groups[groupId := g.(members := Some(members), memberIds := Some(memberIds))]), [u]))
  }

  /** With the update skipped, the last member leaving deletes the group and the local view
      agrees that it has no members. */
  lemma LastLeaveDeletesGroup(st: GroupState, groupId: Id, db: Db, faults: set<DocRef>)
    requires groupId != "" && groupId in db.groups && GroupRef(groupId) !in faults
    requires st.currentUser.Some? && st.currentUser.value.username.Some?
    requires db.groups[groupId].members == Some([st.currentUser.value.username.value])
    requires db.groups[groupId].memberIds.Some?
    ensures var r := HandleGroupMembership(st, groupId, false, db, faults);
            && groupId !in r.effect.db.groups
            && r.effect.log == [Attempt(DeleteDoc(GroupRef(groupId)), true)]
            && r.state.current.Some? && r.state.current.value.members == Some([])
  {
    var u := st.currentUser.value.username.value;
    assert Arrays.Without([u], u) == [];
  }

  /** Joining and leaving agree between the two definitions whenever leaving does not empty
      the group: they differ only on the last member's leave. */
  lemma MembershipAgreesUnlessEmptied(st: GroupState, groupId: Id, isJoining: bool, db: Db, faults: set<DocRef>)
    requires groupId != "" && groupId in db.groups && st.currentUser.Some?
    requires var m := Membership(db.groups[groupId], st.currentUser.value, isJoining); m.Some? ==> |m.value.0| > 0
    ensures HandleGroupMembership(st, groupId, isJoining, db, faults) == HandleGroupMembershipAsWritten(st, groupId, isJoining, db, faults)
  {
  }

  /** Joining appends exactly one username and one id, so parallel arrays of equal length
      stay of equal length. */
  lemma JoinKeepsArraysParallel(st: GroupState, groupId: Id, db: Db, faults: set<DocRef>)
    requires groupId in db.groups && st.currentUser.Some?
    requires var g := db.groups[groupId]; g.members.Some? && g.memberIds.Some? && |g.members.value| == |g.memberIds.value|
    requires var r := HandleGroupMembership(st, groupId, true, db, faults); r.effect.log != [] && r.effect.log[0].accepted
    ensures var r := HandleGroupMembership(st, groupId, true, db, faults);
            var g := db.groups[groupId];
            && |r.effect.db.groups[groupId].members.value| == |g.members.value| + 1
            && |r.effect.db.groups[groupId].members.value| == |r.effect.db.groups[groupId].memberIds.value|
  {
  }

  /** `updateGroupAvatar(groupId, avatarUrl)`: the group's `groupAvatar` and nothing else;
      on success the selected view, whichever group it shows, takes the new avatar. */
  function UpdateGroupAvatar(st: GroupState, groupId: Id, avatarUrl: string, db: Db, faults: set<DocRef>): (r: Step)
    ensures groupId == "" ==> r == Step(st, Effect(db, []))
    ensures r.effect.db.users == db.users && r.effect.db.userchats == db.userchats && r.effect.db.chats == db.chats
    ensures groupId != "" ==> |r.effect.log| == 1 && r.effect.log[0].write == UpdateDoc(GroupRef(groupId))
    ensures groupId != "" && r.effect.log[0].accepted ==>
              && groupId in db.groups
              && r.effect.db.groups == db.groups[groupId := db.groups[groupId].(groupAvatar := Some(avatarUrl))]
              && (st.current.Some? ==> r.state == st.(current := Some(st.current.value.(groupAvatar := Some(avatarUrl)))))
              && (st.current.None? ==> r.state == st)
    ensures groupId != "" && !r.effect.log[0].accepted ==> r == Step(st, Effect(db, r.effect.log))
  {
    if groupId == "" then Step(st, Effect(db, []))
    else
      var a := Try(db, faults, UpdateDoc(GroupRef(groupId)));
      if !a.accepted then Step(st, Effect(db, [a]))
      else
        var db1 := db.(groups := db.groups[groupId := db.groups[groupId].(groupAvatar := Some(avatarUrl))]);
        if st.current.None? then Step(st, Effect(db1, [a]))
        else Step(st.(current := Some(st.current.value.(groupAvatar := Some(avatarUrl)))), Effect(db1, [a]))
  }

  /** The group key a view gives: `generateGroupKey(id, createdAt)`. */
  function ViewKey(v: GroupView): Key {
    GenerateGroupKey(if v.id.Some? then v.id.value else "undefined", v.createdAt)
  }

  /** Changing the avatar or the members, or receiving messages, never changes the key a
      selected group's messages are read with. */
  lemma ViewKeyStable(st: GroupState, groupId: Id, url: string, ms: seq<GroupMessage>, db: Db, faults: set<DocRef>)
    requires st.current.Some?
    ensures ViewKey(UpdateGroupAvatar(st, groupId, url, db, faults).state.current.value) == ViewKey(st.current.value)
    ensures ViewKey(UpdateMessages(st, ms).current.value) == ViewKey(st.current.value)
    ensures var r := HandleGroupMembership(st, groupId, true, db, faults);
            r.state.current.Some? && ViewKey(r.state.current.value) == ViewKey(st.current.value)
  {
  }
}

=== FILE: login.dfy ===
/** The sign-in and registration screen: e-mail sign-in, e-mail registration (the user
    document, the optional avatar, the empty roster), and Google sign-in. */
module Login {
  import opened Wrappers
  import opened Text
  import opened Records
  import opened Store

  const DefaultBio := "Hey there! I am using Chat App."
  const AccountCreated := "Account created!"
  const GoogleSignedIn := "Signed in with Google!"
  const GoogleFailed := "Google login failed: "

  /** What the authentication service answers: the account's uid, or an error code. */
  datatype AuthAnswer = Authenticated(uid: Id) | AuthError(code: string)

  /** The toast of the screen's `catch`: the error code after its first '/', with dashes as
      spaces. A code without a '/' makes the transform itself throw, and nothing is shown. */
  function CodeToast(code: string): (r: Option<Toast>)
    ensures r.Some? <==> '/' in code
    ensures r.Some? ==> r.value.Failure? && r.value == Failure(ErrorText(Some(code)).value)
  {
    match ErrorText(Some(code))
    case None => None
    case Some(t) => Some(Failure(t))
  }

  /** An authentication code's toast is its second field with dashes turned into spaces. */
  lemma AuthCodeToast(field: string)
    requires '/' !in field
    ensures CodeToast("auth/" + field) == Some(Failure(ReplaceAll(field, '-', ' ')))
  {
    ErrorTextOfField("auth", field);
    assert "auth/" + field == "auth" + "/" + field;
  }

  /** A rejected store write produces no toast on this screen. */
  lemma StoreErrorsShowNothing(e: StoreError)
    ensures CodeToast(Code(e)).None?
  {
  }

  datatype Submitted = Submitted(loading: bool, effect: Effect, toast: Option<Toast>)

  /** `handleLogin`: an error's code becomes the toast; `loading` ends false either way. */
  function HandleLogin(answer: AuthAnswer, db: Db): (r: Submitted)
    ensures !r.loading && r.effect == Effect(db, [])
    ensures answer.Authenticated? ==> r.toast.None?
    ensures answer.AuthError? ==> r.toast == CodeToast(answer.code)
  {
    match answer
    case Authenticated(_) => Submitted(false, Effect(db, []), None)
    case AuthError(code) => Submitted(false, Effect(db, []), CodeToast(code))
  }

  /** The document a new e-mail account starts with. */
  function NewUserRecord(uid: Id, username: string, email: string): (u: User)
    ensures u.id == uid && u.username == Some(username) && u.email == Some(email)
    ensures u.avatar.None? && u.bio == DefaultBio && u.blocked == [] && u.status == "online"
    ensures u.lastSeen.None?
  {
    User(uid, Some(username), Some(email), None, DefaultBio, [], "online", None)
  }

  /** `handleRegister`: the account, then the user document, then (only with a chosen file)
      the upload and the document again with the avatar's URL, then an empty roster. The first
      failure ends the sequence with its code's toast; `loading` ends false either way. */
  function HandleRegister(username: string, email: string, avatarFile: Option<FileRef>, answer: AuthAnswer,
                          upload: Upload, db: Db, faults: set<DocRef>): (r: Submitted)
    ensures !r.loading
    ensures r.effect.db.chats == db.chats && r.effect.db.feeds == db.feeds && r.effect.db.groups == db.groups
    ensures answer.AuthError? ==> r == Submitted(false, Effect(db, []), CodeToast(answer.code))
    ensures r.toast == Some(Success(AccountCreated)) <==>
              && answer.Authenticated?
              && |r.effect.log| > 0 && r.effect.log[|r.effect.log| - 1] == Attempt(SetDoc(RosterRef(answer.uid)), true)
    ensures r.toast == Some(Success(AccountCreated)) ==>
              var uid := answer.uid;
              var u := NewUserRecord(uid, username, email);
              && r.effect.db.userchats == db.userchats[uid := []]
              && (avatarFile.Some? ==> upload.Url?)
              && r.effect.db.users == db.users[uid := if avatarFile.Some? then u.(avatar := Some(upload.url)) else u]
    ensures forall i :: 0 <= i < |r.effect.log| - 1 ==> r.effect.log[i].accepted
  {
    match answer
    case AuthError(code) => Submitted(false, Effect(db, []), CodeToast(code))
    case Authenticated(uid) =>
      var u := NewUserRecord(uid, username, email);
      var a1 := Try(db, faults, SetDoc(UsersRef(uid)));
      if !a1.accepted then Submitted(false, Effect(db, [a1]), CodeToast(Code(Rejection(db, faults, a1.write).value)))
      else
        var db1 := db.(users := db.users[uid := u]);
        var withAvatar: Option<Effect> :=
          if avatarFile.None? then Some(Effect(db1, [a1]))
          else if upload.UploadError? then None
          else
            var a2 := Try(db1, faults, SetDoc(UsersRef(uid)));
            if !a2.accepted then Some(Effect(db1, [a1, a2]))
            else Some(Effect(db1.(users := db1.users[uid := u.(avatar := Some(upload.url))]), [a1, a2]));
        if withAvatar.None? then Submitted(false, Effect(db1, [a1]), CodeToast(upload.code))
        else
          var e := withAvatar.value;
          if !e.log[|e.log| - 1].accepted then
            Submitted(false, e, CodeToast(Code(Rejection(db1, faults, e.log[|e.log| - 1].write).value)))
          else
            var a3 := Try(e.db, faults, SetDoc(RosterRef(uid)));
            if !a3.accepted then Submitted(false, Effect(e.db, e.log + [a3]), CodeToast(Code(Rejection(e.db, faults, a3.write).value)))
            else Submitted(false, Effect(e.db.(userchats := e.db.userchats[uid := []]), e.log + [a3]), Some(Success(AccountCreated)))
  }

  /** Registration without faults on the new account's documents always completes, and a
      new account's avatar is set only when a file was chosen. */
  lemma RegisterBootstrapsRoster(username: string, email: string, avatarFile: Option<FileRef>, uid: Id,
                                 upload: Upload, db: Db, faults: set<DocRef>)
    requires uid != "" && UsersRef(uid) !in faults && RosterRef(uid) !in faults
    requires avatarFile.Some? ==> upload.Url?
    ensures var r := HandleRegister(username, email, avatarFile, Authenticated(uid), upload, db, faults);
            && r.toast == Some(Success(AccountCreated))
            && r.effect.db.userchats[uid] == []
            && (avatarFile.None? <==> r.effect.db.users[uid].avatar.None?)
  {
  }

  /** A store rejection during registration leaves no message, but the roster is never
      created, so the account exists without one. */
  lemma RejectedRosterIsSilent(username: string, email: string, uid: Id, db: Db, faults: set<DocRef>, upload: Upload)
    requires uid != "" && UsersRef(uid) !in faults && RosterRef(uid) in faults && uid !in db.userchats
    ensures var r := HandleRegister(username, email, None, Authenticated(uid), upload, db, faults);
            && r.toast.None?
            && uid in r.effect.db.users && uid !in r.effect.db.userchats
  {
  }

  /** What the Google popup gives: the account's profile, or a failure. */
  datatype GoogleAnswer =
    | GoogleAccount(uid: Id, displayName: Option<string>, email: Option<string>, photoURL: Option<string>)
    | GoogleError

  /** `handleGoogleLogin`: the user document is written, with the provider's name and photo,
      only when it does not exist yet; no roster is created. Failures are reported with the
      error's own message. */
  function HandleGoogleLogin(answer: GoogleAnswer, db: Db, faults: set<DocRef>): (r: Submitted)
    ensures !r.loading
    ensures r.effect.db.userchats == db.userchats && r.effect.db.chats == db.chats
    ensures r.effect.db.feeds == db.feeds && r.effect.db.groups == db.groups
    ensures answer.GoogleError? ==> r == Submitted(false, Effect(db, []), Some(Reported(GoogleFailed)))
    ensures answer.GoogleAccount? && answer.uid in db.users ==>
              r == Submitted(false, Effect(db, []), Some(Success(GoogleSignedIn)))
    ensures answer.GoogleAccount? && answer.uid !in db.users ==>
              && r.effect.log == [Try(db, faults, SetDoc(UsersRef(answer.uid)))]
              && (r.effect.log[0].accepted <==> r.toast == Some(Success(GoogleSignedIn)))
              && (!r.effect.log[0].accepted ==> r == Submitted(false, Effect(db, r.effect.log), Some(Reported(GoogleFailed))))
              && (r.effect.log[0].accepted ==>
                    r.effect.db.users == db.users[answer.uid := User(answer.uid, answer.displayName, answer.email,
                                                    answer.photoURL, DefaultBio, [], "online", None)])
  {
    match answer
    case GoogleError => Submitted(false, Effect(db, []), Some(Reported(GoogleFailed)))
    case GoogleAccount(uid, name, mail, photo) =>
      if uid in db.users then Submitted(false, Effect(db, []), Some(Success(GoogleSignedIn)))
      else
        var a := Try(db, faults, SetDoc(UsersRef(uid)));
        if !a.accepted then Submitted(false, Effect(db, [a]), Some(Reported(GoogleFailed)))
        else
          var u := User(uid, name, mail, photo, DefaultBio, [], "online", None);
          Submitted(false, Effect(db.(users := db.users[uid := u]), [a]), Some(Success(GoogleSignedIn)))
  }

  /** Signing in with Google after registering with e-mail keeps the registered document. */
  lemma GoogleKeepsRegisteredRecord(username: string, email: string, avatarFile: Option<FileRef>, uid: Id,
                                    upload: Upload, db: Db, faults: set<DocRef>,
                                    name: Option<string>, mail: Option<string>, photo: Option<string>)
    requires uid != "" && UsersRef(uid) !in faults && RosterRef(uid) !in faults
    requires avatarFile.Some? ==> upload.Url?
    ensures var reg := HandleRegister(username, email, avatarFile, Authenticated(uid), upload, db, faults);
            var g := HandleGoogleLogin(GoogleAccount(uid, name, mail, photo), reg.effect.db, faults);
            && g.effect.db == reg.effect.db
            && g.effect.db.users[uid].username == Some(username)
  {
  }

  /** A first Google sign-in creates the user document but no roster. */
  lemma GoogleAccountHasNoRoster(uid: Id, name: Option<string>, mail: Option<string>, photo: Option<string>,
                                 db: Db, faults: set<DocRef>)
    requires uid !in db.users && uid !in db.userchats && uid != "" && UsersRef(uid) !in faults
    ensures var r := HandleGoogleLogin(GoogleAccount(uid, name, mail, photo), db, faults);
            uid in r.effect.db.users && uid !in r.effect.db.userchats
  {
  }
}

=== FILE: profile.dfy ===
/** The profile editor: loading the signed-in user's name, bio and avatar into the form,
    and saving them back. */
module Profile {
  import opened Wrappers
  import opened Text
  import opened Records
  import opened Store

  const NeedPicture := "Please upload a profile picture"
  const Updated := "Profile updated successfully!"
  const UpdateFailed := "Error updating profile!"

  /** The editor's state: a newly picked image, the form fields, the signed-in uid and the
      stored avatar's URL (`""` when there is none). */
  datatype Form = Form(image: Option<FileRef>, name: string, bio: string, uid: Id, prevImage: string)

  const EmptyForm := Form(None, "", "", "", "")

  /** The editor's reaction to the authentication state: `Home` sends a signed-out visitor
      to the start page. */
  datatype Loaded = Home(form: Form) | Filled(form: Form)

  /** The load step. With a signed-in user the uid is kept and each field is taken from the
      user's document only when that field is truthy; the other fields keep their values. */
  function Load(f: Form, authUid: Option<Id>, db: Db): (r: Loaded)
    ensures authUid.None? <==> r.Home?
    ensures authUid.None? ==> r.form == f
    ensures authUid.Some? ==> r.form.uid == authUid.value && r.form.image == f.image
    ensures authUid.Some? ==>
              var d := if authUid.value in db.users then Some(db.users[authUid.value]) else None;
              && r.form.name == (if d.Some? && Truthy(d.value.username) then d.value.username.value else f.name)
              && r.form.bio == (if d.Some? && d.value.bio != "" then d.value.bio else f.bio)
              && r.form.prevImage == (if d.Some? && Truthy(d.value.avatar) then d.value.avatar.value else f.prevImage)
  {
    match authUid
    case None => Home(f)
    case Some(uid) =>
      var f1 := f.(uid := uid);
      if uid !in db.users then Filled(f1)
      else
        var u := db.users[uid];
        Filled(f1.(name := OrElse(u.username, f1.name),
                   bio := if u.bio != "" then u.bio else f1.bio,
                   prevImage := OrElse(u.avatar, f1.prevImage)))
  }

  /** What a save changes: the store, the toast, and whether the page moves on to the chat. */
  datatype Saved = Saved(effect: Effect, toast: Toast, navigated: bool)

  /** `profileUpdate`. Without a new image and without a stored avatar the save is refused
      before any write. Otherwise a new image is uploaded and the document gets `username`,
      `bio` and the image's URL; without one, only `username` and `bio`. Any failure, the
      upload's included, ends in the same error toast. */
  function Save(f: Form, db: Db, faults: set<DocRef>, upload: Upload): (r: Saved)
    ensures f.image.None? && f.prevImage == "" ==> r == Saved(Effect(db, []), Failure(NeedPicture), false)
    ensures r.navigated <==> r.toast == Success(Updated)
    ensures r.navigated <==> r.effect.log == [Attempt(UpdateDoc(UsersRef(f.uid)), true)]
    ensures !r.navigated ==> r.effect.db == db
    ensures r.effect.db.userchats == db.userchats && r.effect.db.chats == db.chats
    ensures r.effect.db.feeds == db.feeds && r.effect.db.groups == db.groups
    ensures r.navigated ==>
              && f.uid in db.users
              && (f.image.Some? ==> upload.Url?)
              && var u := db.users[f.uid].(username := Some(f.name), bio := f.bio);
                 r.effect.db.users == db.users[f.uid := if f.image.Some? then u.(avatar := Some(upload.url)) else u]
  {
    if f.image.None? && f.prevImage == "" then Saved(Effect(db, []), Failure(NeedPicture), false)
    else if f.image.Some? && upload.UploadError? then Saved(Effect(db, []), Failure(UpdateFailed), false)
    else
      var a := Try(db, faults, UpdateDoc(UsersRef(f.uid)));
      if !a.accepted then Saved(Effect(db, [a]), Failure(UpdateFailed), false)
      else
        var u := db.users[f.uid].(username := Some(f.name), bio := f.bio);
        var u' := if f.image.Some? then u.(avatar := Some(upload.url)) else u;
        Saved(Effect(db.(users := db.users[f.uid := u']), [a]), Success(Updated), true)
  }

  /** Saving without a new image never changes the stored avatar. */
  lemma SaveWithoutImageKeepsAvatar(f: Form, db: Db, faults: set<DocRef>, upload: Upload)
    requires f.image.None? && f.uid in db.users
    ensures var r := Save(f, db, faults, upload);
            f.uid in r.effect.db.users && r.effect.db.users[f.uid].avatar == db.users[f.uid].avatar
  {
  }

  /** Opening the editor on a complete profile and saving it unedited writes the document
      back unchanged. */
  lemma LoadThenSaveIsIdentity(uid: Id, db: Db, faults: set<DocRef>, upload: Upload)
    requires uid != "" && uid in db.users && UsersRef(uid) !in faults
    requires Truthy(db.users[uid].username) && Truthy(db.users[uid].avatar)
    ensures var r := Save(Load(EmptyForm, Some(uid), db).form, db, faults, upload);
            r.navigated && r.effect.db == db
  {
    var u := db.users[uid];
    var f := Load(EmptyForm, Some(uid), db).form;
    assert f.name == u.username.value && f.bio == u.bio;
    assert u.(username := Some(f.name), bio := f.bio) == u;
    assert db.users[uid := u] == db.users;
  }

  /** A user who never set an avatar cannot save without picking one, whatever the form says. */
  lemma NoAvatarBlocksSave(uid: Id, db: Db, faults: set<DocRef>, upload: Upload)
    requires uid in db.users && !Truthy(db.users[uid].avatar)
    ensures var r := Save(Load(EmptyForm, Some(uid), db).form, db, faults, upload);
            r == Saved(Effect(db, []), Failure(NeedPicture), false)
  {
  }
}

=== FILE: records.dfy ===
/** The documents of the four collections (`users`, `userchats`, `chats`, `groups`) and the
    values handlers exchange with their collaborators (picked files, uploads, notifications). */
module Records {
  import opened Wrappers
  import opened Timestamps
  import opened Encryption
  import Arrays

  type Id = string

  /** A `users/{id}` document. `username` is missing for an account whose provider gave no
      display name; `avatar` is `null` until one is uploaded. */
  datatype User = User(
    id: Id,
    username: Option<string>,
    email: Option<string>,
    avatar: Option<string>,
    bio: string,
    blocked: seq<Id>,
    status: string,
    lastSeen: Option<int>)

  /** One element of a `userchats/{owner}` roster: a denormalised summary of one conversation.
      `isSeen` is absent until a send or a selection sets it; `senderId` is only written by
      the chat-creation path of the chat store. */
  datatype RosterEntry = RosterEntry(
    chatId: Id,
    lastMessage: string,
    receiverId: Id,
    updatedAt: int,
    isSeen: Option<bool>,
    senderId: Option<Id>)

  type Roster = seq<RosterEntry>

  /** `roster.findIndex(c => c.chatId === chatId)`, `None` for -1. */
  function EntryIndex(roster: Roster, chatId: Id): (r: Option<nat>)
    ensures r.Some? ==> r.value < |roster| && roster[r.value].chatId == chatId
    ensures r.Some? ==> forall j :: 0 <= j < r.value ==> roster[j].chatId != chatId
    ensures r.None? <==> forall j :: 0 <= j < |roster| ==> roster[j].chatId != chatId
  {
    Arrays.FindIndex(roster, (e: RosterEntry) => e.chatId == chatId)
  }

  /** An element of a chat document's `messages` array. */
  datatype Message = Message(senderId: Id, text: Ciphertext, createdAt: int, img: Option<string>)

  /** The non-message fields of a `chats/{id}` document, which depend on the path that created it. */
  datatype ChatHeader =
    | Opened(createdAt: Timestamp)
    | Paired(chatId: Id, users: seq<Id>, lastMessage: string, updatedAt: int)

  /** A `chats/{id}` document; `messages` is missing after a clear or before the first send. */
  datatype ChatDoc = ChatDoc(header: ChatHeader, messages: Option<seq<Message>>)

  /** A document of the `chats/{id}/messages` subcollection. */
  datatype FeedDoc = FeedDoc(id: Id, data: Message)

  /** An element of a group document's `messages` array. */
  datatype GroupMessage = GroupMessage(
    text: Ciphertext,
    senderId: Id,
    senderName: string,
    senderAvatar: string,
    senderUsername: string,
    createdAt: int,
    file: Option<string>)

  /** A `groups/{id}` document. `members` (usernames) and `memberIds` are parallel arrays. */
  datatype Group = Group(
    groupname: Option<string>,
    createdAt: Option<Timestamp>,
    creatorId: Option<Id>,
    creator: Option<string>,
    members: Option<seq<string>>,
    memberIds: Option<seq<Id>>,
    groupAvatar: Option<string>,
    messages: Option<seq<GroupMessage>>)

  /** A file chosen in a file input; `mime` is its `type`. */
  datatype FileRef = FileRef(name: string, mime: string)

  /** What the blob store's upload gives back: a download URL, or an error with its code. */
  datatype Upload = Url(url: string) | UploadError(code: string)

  /** A notification shown to the user. `Reported` is an error notification made of `prefix`
      followed by the thrown error's own message, whose wording is not modelled. */
  datatype Toast = Success(text: string) | Warn(text: string) | Failure(text: string) | Reported(prefix: string)
}

=== FILE: store.dfy ===
/** The document store, as immutable maps from document id to document per collection,
    and the outcome of each write a handler attempts.

    Failures are deterministic: `faults` names the documents whose writes the store rejects
    (a permission or network failure), `updateDoc` on a missing document fails, and so does
    any reference with an empty id. */
module Store {
  import opened Wrappers
  import opened Records

  datatype Collection = Users | UserChats | Chats | Groups

  datatype DocRef = DocRef(coll: Collection, id: Id)

  datatype Write = SetDoc(ref: DocRef) | UpdateDoc(ref: DocRef) | DeleteDoc(ref: DocRef)

  /** One write call and whether the store accepted it. */
  datatype Attempt = Attempt(write: Write, accepted: bool)

  /** The store after a handler ran, and the writes it attempted, in order. */
  datatype Effect = Effect(db: Db, log: seq<Attempt>)

  datatype StoreError = NotFound | Denied | Invalid

  /** `feeds` holds the `chats/{id}/messages` subcollections. */
  datatype Db = Db(
    users: map<Id, User>,
    userchats: map<Id, Roster>,
    chats: map<Id, ChatDoc>,
    feeds: map<Id, seq<FeedDoc>>,
    groups: map<Id, Group>)

  predicate Exists(db: Db, r: DocRef) {
    match r.coll
    case Users => r.id in db.users
    case UserChats => r.id in db.userchats
    case Chats => r.id in db.chats
    case Groups => r.id in db.groups
  }

  /** The error's `code`. None of them contains a '/'. */
  function Code(e: StoreError): (code: string)
    ensures '/' !in code
  {
    match e
    case NotFound => "not-found"
    case Denied => "permission-denied"
    case Invalid => "invalid-argument"
  }

  /** Why the store rejects `w`, or `None` when it accepts it. */
  function Rejection(db: Db, faults: set<DocRef>, w: Write): (e: Option<StoreError>)
    ensures w.ref.id == "" ==> e == Some(Invalid)
    ensures w.ref.id != "" && w.UpdateDoc? && !Exists(db, w.ref) ==> e == Some(NotFound)
    ensures w.ref !in faults && w.ref.id != "" && (w.UpdateDoc? ==> Exists(db, w.ref)) ==> e.None?
  {
    if w.ref.id == "" then Some(Invalid)
    else if w.UpdateDoc? && !Exists(db, w.ref) then Some(NotFound)
    else if w.ref in faults then Some(Denied)
    else None
  }

  function Try(db: Db, faults: set<DocRef>, w: Write): Attempt {
    Attempt(w, Rejection(db, faults, w).None?)
  }

  /** The writes of a log that the store accepted, in order. */
  function Accepted(log: seq<Attempt>): (r: seq<Write>)
    ensures |r| <= |log|
  {
    if |log| == 0 then []
    else (if log[0].accepted then [log[0].write] else []) + Accepted(log[1..])
  }

  /** The writes of a log, accepted or not, in order. */
  function Writes(log: seq<Attempt>): (r: seq<Write>)
    ensures |r| == |log|
    ensures forall i :: 0 <= i < |log| ==> r[i] == log[i].write
  {
    seq(|log|, i requires 0 <= i < |log| => log[i].write)
  }

  /** When the store accepted every write of a log, its accepted writes are all its writes. */
  lemma {:induction false} AllAccepted(log: seq<Attempt>)
    requires forall i :: 0 <= i < |log| ==> log[i].accepted
    ensures Accepted(log) == Writes(log)
  {
    if |log| > 0 {
      AllAccepted(log[1..]);
      assert Writes(log) == [log[0].write] + Writes(log[1..]);
    }
  }

  function UsersRef(id: Id): DocRef { DocRef(Users, id) }
  function RosterRef(id: Id): DocRef { DocRef(UserChats, id) }
  function ChatRef(id: Id): DocRef { DocRef(Chats, id) }
  function GroupRef(id: Id): DocRef { DocRef(Groups, id) }
}

=== FILE: text.dfy ===
/** The JavaScript string operations the chat handlers rely on, over `seq<char>`. */
module Text {
  import opened Wrappers

  /** JavaScript truthiness of a possibly missing string: present and non-empty. */
  predicate Truthy(s: Option<string>) {
    s.Some? && s.value != ""
  }

  /** `s || fallback` for a possibly missing string. */
  function OrElse(s: Option<string>, fallback: string): string {
    if Truthy(s) then s.value else fallback
  }

  /** `toLowerCase()`, restricted to the ASCII letters. */
  function LowerChar(c: char): char {
    if 'A' <= c <= 'Z' then (c as int + 32) as char else c
  }

  function Lower(s: string): (r: string)
    ensures |r| == |s|
    ensures forall i :: 0 <= i < |s| ==> r[i] == LowerChar(s[i])
  {
    seq(|s|, i requires 0 <= i < |s| => LowerChar(s[i]))
  }

  predicate IsPrefix(p: string, s: string) {
    |p| <= |s| && s[..|p|] == p
  }

  /** `s.includes(p)` */
  predicate Includes(s: string, p: string)
    decreases |s|
  {
    IsPrefix(p, s) || (|s| > 0 && Includes(s[1..], p))
  }

  /** `includes` finds `p` exactly when `p` occurs at some offset of `s`. */
  lemma {:induction false} IncludesAt(s: string, p: string)
    ensures Includes(s, p) <==> exists i :: 0 <= i <= |s| - |p| && IsPrefix(p, s[i..])
    decreases |s|
  {
    if Includes(s, p) {
      if !IsPrefix(p, s) {
        IncludesAt(s[1..], p);
        var i :| 0 <= i <= |s[1..]| - |p| && IsPrefix(p, s[1..][i..]);
        assert s[1..][i..] == s[i + 1..];
      } else {
        assert s[0..] == s;
      }
    } else {
      forall i | 0 <= i <= |s| - |p|
        ensures !IsPrefix(p, s[i..])
      {
        if i == 0 {
          assert s[0..] == s;
        } else {
          IncludesAt(s[1..], p);
          assert s[1..][i - 1..] == s[i..];
        }
      }
    }
  }

  /** The empty search string is found in every string. */
  lemma EmptyIsIncluded(s: string)
    ensures Includes(s, "")
  {
  }

  /** `s.slice(0, n)`, counted in characters rather than in UTF-16 code units. */
  function Take(s: string, n: nat): (r: string)
    ensures |r| <= n && |r| <= |s|
    ensures IsPrefix(r, s)
    ensures |s| <= n ==> r == s
  {
    if |s| <= n then s else s[..n]
  }

  /** The whitespace that `trim()` removes: the ASCII whitespace and the no-break space. */
  predicate IsSpace(c: char) {
    c == ' ' || c == '\t' || c == '\n' || c == '\r' || c == '\U{000B}' || c == '\U{000C}' || c == '\U{00A0}'
  }

  /** `s.trim() === ''`: no character survives trimming. */
  predicate Blank(s: string) {
    forall i :: 0 <= i < |s| ==> IsSpace(s[i])
  }

  /** Index of the first occurrence of `c`, `None` when there is none. */
  function IndexOf(s: string, c: char): (r: Option<nat>)
    ensures r.Some? ==> r.value < |s| && s[r.value] == c && c !in s[..r.value]
    ensures r.None? ==> c !in s
  {
    if |s| == 0 then None
    else if s[0] == c then Some(0)
    else match IndexOf(s[1..], c)
      case None => None
      case Some(i) => Some(i + 1)
  }

  /** The text before the first `c`, or all of `s` when `c` does not occur. */
  function Before(s: string, c: char): (r: string)
    ensures IsPrefix(r, s) && c !in r
    ensures |r| < |s| ==> s[|r|] == c
  {
    match IndexOf(s, c)
    case None => s
    case Some(i) => s[..i]
  }

  /** `s.split(sep)[1]`: the field between the first and the second `sep`,
      `None` (JavaScript's `undefined`) when `sep` does not occur. */
  function SecondField(s: string, sep: char): (r: Option<string>)
    ensures r.None? <==> sep !in s
    ensures r.Some? ==> sep !in r.value
  {
    match IndexOf(s, sep)
    case None => None
    case Some(i) => Some(Before(s[i + 1..], sep))
  }

  /** `s.split(from).join(to)` for single-character separators. */
  function ReplaceAll(s: string, from: char, to: char): (r: string)
    ensures |r| == |s|
    ensures forall i :: 0 <= i < |s| ==> r[i] == if s[i] == from then to else s[i]
  {
    seq(|s|, i requires 0 <= i < |s| => if s[i] == from then to else s[i])
  }

  function DigitText(d: nat): string
    requires d < 10
  {
    ["0123456789"[d]]
  }

  /** Decimal rendering of a natural number, as JavaScript's `String(n)`. */
  function NatText(n: nat): (r: string)
    ensures |r| > 0
    decreases n
  {
    if n < 10 then DigitText(n) else NatText(n / 10) + DigitText(n % 10)
  }

  /** `s.padStart(width, c)`: `s` preceded by enough copies of `c` to reach `width`. */
  function PadStart(s: string, width: nat, c: char): (r: string)
    ensures |r| == if |s| < width then width else |s|
    ensures r[|r| - |s|..] == s
    ensures forall i :: 0 <= i < |r| - |s| ==> r[i] == c
  {
    if |s| < width then seq(width - |s|, _ => c) + s else s
  }

  /** Decimal rendering of an integer. */
  function IntText(n: int): string {
    if n < 0 then "-" + NatText(-n) else NatText(n)
  }

  /** `err.code.split('/')[1].split('-').join(' ')`: the field after the first '/' of an
      error code, dashes turned into spaces. `None` when the transform itself throws: the
      code is missing, or has no '/' so that field is `undefined`. */
  function ErrorText(code: Option<string>): (r: Option<string>)
    ensures r.Some? <==> code.Some? && '/' in code.value
    ensures r.Some? ==> '-' !in r.value && '/' !in r.value
  {
    if code.None? then None
    else match SecondField(code.value, '/')
      case None => None
      case Some(field) => Some(ReplaceAll(field, '-', ' '))
  }

  /** The first `c` of `p + rest` is the first character of `rest` when `p` has none. */
  lemma {:induction false} IndexOfAfter(p: string, rest: string, c: char)
    requires c !in p && |rest| > 0 && rest[0] == c
    ensures IndexOf(p + rest, c) == Some(|p|)
  {
    if |p| > 0 {
      assert (p + rest)[1..] == p[1..] + rest;
      IndexOfAfter(p[1..], rest, c);
    }
  }

  /** For a code `prefix/field` with no further '/', the text is `field` with its dashes
      turned into spaces. */
  lemma ErrorTextOfField(prefix: string, field: string)
    requires '/' !in prefix && '/' !in field
    ensures ErrorText(Some(prefix + "/" + field)) == Some(ReplaceAll(field, '-', ' '))
  {
    var code := prefix + "/" + field;
    assert code == prefix + ("/" + field);
    IndexOfAfter(prefix, "/" + field, '/');
    assert code[|prefix| + 1..] == field;
  }
}

=== FILE: timestamps.dfy ===
/** The store's server timestamp value and its string coercion. */
module Timestamps {
  import opened Wrappers
  import opened Text

  /** A server-assigned timestamp (`serverTimestamp()` once written). */
  datatype Timestamp = Timestamp(seconds: int, nanoseconds: int)

  /** The earliest second a timestamp can hold: 0001-01-01T00:00:00Z. */
  const MinSeconds := -62135596800

  /** What `'' + createdAt` yields for a timestamp field read as `createdAt || null`. For a
      timestamp, `+` uses its `valueOf()`: the seconds since `MinSeconds` padded to twelve
      digits, a '.', and the nanoseconds padded to nine. A missing field gives `"null"`. */
  function StampText(t: Option<Timestamp>): string {
    match t
    case None => "null"
    case Some(ts) => PadStart(IntText(ts.seconds - MinSeconds), 12, '0') + "." + PadStart(IntText(ts.nanoseconds), 9, '0')
  }

  /** A present timestamp never coerces to the text of a missing one. */
  lemma StampTextOfPresent(t: Timestamp)
    ensures StampText(Some(t)) != StampText(None)
  {
    var secs := PadStart(IntText(t.seconds - MinSeconds), 12, '0');
    assert StampText(Some(t))[|secs|] == '.';
    assert '.' !in StampText(None);
  }
}

=== FILE: user_store.dfy ===
/** The signed-in user's store: loading the user's document, the live status listener,
    status updates, and the status writes of the authentication listener. */
module UserStore {
  import opened Wrappers
  import opened Text
  import opened Records
  import opened Store

  /** The store's `currentUser`. `StatusOnly` is what the status listener leaves after
      merging a status into a `null` user: a record holding nothing but `status`. */
  datatype Session = SignedOut | SignedIn(user: User) | StatusOnly(status: string)

  datatype UserState = UserState(currentUser: Session, isLoading: bool)

  const Initial := UserState(SignedOut, true)

  datatype Outcome = Outcome(state: UserState, effect: Effect)

  const Online := "online"
  const Offline := "offline"

  /** `fetchUserInfo(uid)`; `readFails` says whether the document read throws. */
  function FetchUserInfo(st: UserState, uid: Option<Id>, db: Db, readFails: bool): (r: UserState)
    ensures !r.isLoading
    ensures r.currentUser.SignedIn? <==> Truthy(uid) && !readFails && uid.value in db.users
    ensures r.currentUser.SignedIn? ==> r.currentUser.user == db.users[uid.value]
    ensures !r.currentUser.SignedIn? ==> r.currentUser == SignedOut
  {
    if !Truthy(uid) then UserState(SignedOut, false)
    else if readFails then UserState(SignedOut, false)
    else if uid.value in db.users then UserState(SignedIn(db.users[uid.value]), false)
    else UserState(SignedOut, false)
  }

  /** The status field of a session, when it has one. */
  function StatusOf(s: Session): Option<string> {
    match s
    case SignedOut => None
    case SignedIn(u) => Some(u.status)
    case StatusOnly(status) => Some(status)
  }

  /** `{...currentUser, status}`: only the status changes, and a `null` user becomes a
      status-only record. */
  function MergeStatus(s: Session, status: string): (r: Session)
    ensures StatusOf(r) == Some(status)
    ensures s.SignedIn? <==> r.SignedIn?
    ensures s.SignedIn? ==> r.user == s.user.(status := status)
    ensures !s.SignedIn? ==> r == StatusOnly(status)
  {
    match s
    case SignedIn(u) => SignedIn(u.(status := status))
    case _ => StatusOnly(status)
  }

  /** The live listener on the user's document delivering a snapshot whose status is `status`. */
  function OnStatusSnapshot(st: UserState, status: string): (r: UserState)
    ensures r.isLoading == st.isLoading
    ensures r.currentUser == MergeStatus(st.currentUser, status)
  {
    st.(currentUser := MergeStatus(st.currentUser, status))
  }

  /** Two snapshots in a row leave the session as the second alone would. */
  lemma LastSnapshotWins(st: UserState, s1: string, s2: string)
    ensures OnStatusSnapshot(OnStatusSnapshot(st, s1), s2) == OnStatusSnapshot(st, s2)
  {
  }

  /** The id the store writes to: a status-only record has none, which the store rejects. */
  function SessionId(s: Session): Id {
    if s.SignedIn? then s.user.id else ""
  }

  /** `updateStatus(status)`. Nothing without a current user; otherwise the user's document
      gets the new status, and only if that write succeeds does the session. */
  function UpdateStatus(st: UserState, status: string, db: Db, faults: set<DocRef>): (r: Outcome)
    ensures st.currentUser.SignedOut? ==> r == Outcome(st, Effect(db, []))
    ensures r.effect.db.userchats == db.userchats && r.effect.db.chats == db.chats
    ensures r.effect.db.feeds == db.feeds && r.effect.db.groups == db.groups
    ensures !st.currentUser.SignedOut? ==>
              && r.effect.log == [Try(db, faults, UpdateDoc(UsersRef(SessionId(st.currentUser))))]
              && (r.effect.log[0].accepted ==> r.state == OnStatusSnapshot(st, status))
              && (!r.effect.log[0].accepted ==> r == Outcome(st, Effect(db, r.effect.log)))
    ensures st.currentUser.StatusOnly? ==> r.state == st && r.effect.db == db
    ensures st.currentUser.SignedIn? && r.effect.log[0].accepted ==>
              var id := st.currentUser.user.id;
              id in db.users && r.effect.db.users == db.users[id := db.users[id].(status := status)]
    ensures forall id :: id in db.users && id != SessionId(st.currentUser) ==>
              id in r.effect.db.users && r.effect.db.users[id] == db.users[id]
  {
    if st.currentUser.SignedOut? then Outcome(st, Effect(db, []))
    else
      var id := SessionId(st.currentUser);
      var a := Try(db, faults, UpdateDoc(UsersRef(id)));
      if !a.accepted then Outcome(st, Effect(db, [a]))
      else Outcome(OnStatusSnapshot(st, status), Effect(db.(users := db.users[id := db.users[id].(status := status)]), [a]))
  }

  /** The session's status agrees with the signed-in user's stored document. */
  predicate Synced(st: UserState, db: Db) {
    st.currentUser.SignedIn? ==>
      st.currentUser.user.id in db.users && db.users[st.currentUser.user.id].status == st.currentUser.user.status
  }

  /** `updateStatus` keeps the session and the stored document in agreement, whether or not
      the write succeeds. */
  lemma UpdateStatusKeepsSynced(st: UserState, status: string, db: Db, faults: set<DocRef>)
    requires Synced(st, db)
    ensures Synced(UpdateStatus(st, status, db, faults).state, UpdateStatus(st, status, db, faults).effect.db)
  {
  }

  /** The authentication listener (`initAuthListener`). On sign-in the user's document is
      read (the read is issued before the status write, so it sees the old document) and then
      marked online with `lastSeen` cleared. On sign-out a current user's document is first
      marked offline with `lastSeen` set to `now`; when that write is rejected the handler
      throws before clearing the session. */
  function OnAuthChanged(st: UserState, authUid: Option<Id>, db: Db, faults: set<DocRef>,
                         readFails: bool, now: int): (r: Outcome)
    ensures authUid.Some? ==>
              && r.state == FetchUserInfo(st, authUid, db, readFails)
              && r.effect.log == [Try(db, faults, UpdateDoc(UsersRef(authUid.value)))]
              && (r.effect.log[0].accepted ==>
                    r.effect.db.users == db.users[authUid.value := db.users[authUid.value].(status := Online, lastSeen := None)])
              && (!r.effect.log[0].accepted ==> r.effect.db == db)
    ensures authUid.None? && st.currentUser.SignedOut? ==> r == Outcome(UserState(SignedOut, false), Effect(db, []))
    ensures authUid.None? && !st.currentUser.SignedOut? ==>
              && r.effect.log == [Try(db, faults, UpdateDoc(UsersRef(SessionId(st.currentUser))))]
              && (r.effect.log[0].accepted <==> r.state == UserState(SignedOut, false))
              && (r.effect.log[0].accepted ==>
                    var id := SessionId(st.currentUser);
                    r.effect.db.users == db.users[id := db.users[id].(status := Offline, lastSeen := Some(now))])
              && (!r.effect.log[0].accepted ==> r == Outcome(st, Effect(db, r.effect.log)))
    ensures r.effect.db.userchats == db.userchats && r.effect.db.chats == db.chats
    ensures r.effect.db.feeds == db.feeds && r.effect.db.groups == db.groups
  {
    match authUid
    case Some(uid) =>
      var fetched := FetchUserInfo(st, authUid, db, readFails);
      var a := Try(db, faults, UpdateDoc(UsersRef(uid)));
      if !a.accepted then Outcome(fetched, Effect(db, [a]))
      else Outcome(fetched, Effect(db.(users := db.users[uid := db.users[uid].(status := Online, lastSeen := None)]), [a]))
    case None =>
      if st.currentUser.SignedOut? then Outcome(UserState(SignedOut, false), Effect(db, []))
      else
        var id := SessionId(st.currentUser);
        var a := Try(db, faults, UpdateDoc(UsersRef(id)));
        if !a.accepted then Outcome(st, Effect(db, [a]))
        else
          assert st.currentUser.SignedIn?;
          Outcome(UserState(SignedOut, false), Effect(db.(users := db.users[id := db.users[id].(status := Offline, lastSeen := Some(now))]), [a]))
  }

  /** After signing in, once the status listener delivers the stored document, the session
      is the user's record marked online, even though the read saw the old status. */
  lemma SignInEndsOnline(st: UserState, uid: Id, db: Db, faults: set<DocRef>, now: int)
    requires uid != "" && uid in db.users && UsersRef(uid) !in faults
    ensures var r := OnAuthChanged(st, Some(uid), db, faults, false, now);
            && uid in r.effect.db.users
            && OnStatusSnapshot(r.state, r.effect.db.users[uid].status).currentUser == SignedIn(db.users[uid].(status := Online))
            && r.effect.db.users[uid].lastSeen.None?
  {
  }

  /** Signing out while the offline write is rejected keeps the user signed in. */
  lemma RejectedSignOutKeepsSession(u: User, isLoading: bool, db: Db, faults: set<DocRef>, now: int)
    requires UsersRef(u.id) in faults
    ensures OnAuthChanged(UserState(SignedIn(u), isLoading), None, db, faults, false, now).state == UserState(SignedIn(u), isLoading)
  {
  }

  /** A signed-in user's accepted sign-out records when they left. */
  lemma SignOutRecordsLastSeen(u: User, db: Db, faults: set<DocRef>, now: int)
    requires u.id != "" && u.id in db.users && UsersRef(u.id) !in faults
    ensures var r := OnAuthChanged(UserState(SignedIn(u), false), None, db, faults, false, now);
            && r.state.currentUser.SignedOut?
            && r.effect.db.users[u.id].status == Offline && r.effect.db.users[u.id].lastSeen == Some(now)
  {
  }
}

=== FILE: wrappers.dfy ===
/** The optional-value datatype used for JavaScript's `null`/`undefined`. */
module Wrappers {

  /** `None` stands for a missing (null or undefined) value. */
  datatype Option<+T> = None | Some(value: T) {

    /** `this ?? fallback` */
    function GetOr(fallback: T): T {
      match this
      case Some(v) => v
      case None => fallback
    }
  }
}
